=== FILE: README.md ===
# Multi-source price fallback, in Dafny

This project models the price-fallback logic of a macro and crypto
dashboard, and proves properties of that model. The dashboard collects
prices from several public sources, and whenever a source is missing,
failing or returns an unusable value, it falls back to another source or
to the previous snapshot. The logic lives in three places:

- **The gateway worker** (`workers/mode-a-gateway.js`). It serves
  `/api/crypto-prices`, which resolves each requested ticker against Binance,
  then Bybit, then OKX. It also serves `/api/live`, which takes each field
  from Binance and falls back to CoinGecko, and computes a guarded Coinbase
  premium. Other parts of the worker:
  - a small router, with a 502 answer when a handler throws;
  - the numeric decoding `toNum`;
  - the percent normalisations `pctFromBybit` and `pctFromOhlc`;
  - ticker validation.
- **The browser pages**:
  - `dashboard/app.js`:
    - `fetchLive` carries every field forward: the fetched value, else the
      previous value, else null;
    - the top-markets table filters, sorts and slices its rows;
    - `cls` classifies changes;
    - the ETF flow bars have bounded widths;
    - the premium cards derive ratios from prices.
  - `dashboard/home.js`:
    - `boot` merges the fetched prices over a fallback copy;
    - the long/short split and the high/low columns are clamped or signed.
- **The Python snapshot scripts**:
  - `update_macro_stocks_data.py`:
    - `to_num`, `pct_or_zero`, `read_prev_metric`, `pick_value`, and
      `fred_pick`/`liq_pick`;
    - FRED CSV parsing and the `as_of` choice;
    - the stock rows and `crypto_equities`.
  - `daily_macro_brief.py`:
    - Yahoo close-series decoding;
    - the type-checked CoinGecko mapping;
    - the signal scores and the stance;
    - the RSS item filter.
  - `update_etf_data.py`:
    - `clean_text` and `parse_value`;
    - the latest-dated-row selection of `latest_total_inflow`;
    - the reference date.

## Modelling conventions

One datatype, `Json.Value`, holds decoded JSON on both sides. Its cases are
`Null`, `Undefined`, `Bool`, `Number`, `Str`, `Arr` and `Obj`; `Undefined`
is what JavaScript yields for a missing property.

A JavaScript number is a `Num`: an exact `real`, `NaN`, or one of the two
infinities. So `toNum`'s rejection of non-finite values, and a division by
a zero price, are modelled and not assumed away.

Conversions and upstream calls are modelled as follows:

- **`Number()` for strings** (`JsNumber.StringToNumber`) is modelled
  concretely, following section 7.1.4.1.1 of ECMA-262:
  - surrounding white space is trimmed, and the empty string is 0;
  - `Infinity` may be signed;
  - `0x`/`0o`/`0b` prefixes are read as integers;
  - any other text must be a decimal literal, otherwise the result is NaN.
- **Python's `float()`** (`PyNumber.FloatOfString`) uses the same decimal
  grammar. Python values are `Option<real>`.
- **Upstream calls** are inputs. Each one is a `Settled` outcome (fulfilled
  with a value, or rejected with a reason), as `Promise.allSettled` reports
  them. The Python `fetch_json` result is the decoded value or `Null`.
- **Library code the scripts call is passed in as parameters**:
  `html.unescape`, `DATE_RE` search and `strptime`, and the display
  formatters.

## Model

| member | source | states |
|---|---|---|
| GatewayAdapters.ToNum | workers/mode-a-gateway.js:13-16 | present exactly when `Number(v)` is finite, and then equal to it |
| GatewayAdapters.ToNumCoercion | workers/mode-a-gateway.js:13-16 | `null` and `""` read as 0; `undefined`, `"NaN"` and `{}` read as absent |
| GatewayAdapters.ToNumOfInfinity | workers/mode-a-gateway.js:13-16 | `"Infinity"` is a number but is rejected as not finite |
| GatewayAdapters.ToNumOfNatText | workers/mode-a-gateway.js:13-16 | the decimal text of a whole number, with or without a minus sign, reads back as that number |
| JsNumber.StringToNumber | workers/mode-a-gateway.js:14 | blank text converts to 0 |
| JsNumber.ToNumberOfEmpty | workers/mode-a-gateway.js:14 | `Number(null)`, `Number("")` and a string of blanks are 0 |
| JsNumber.ToNumberOfNonNumeric | workers/mode-a-gateway.js:14 | the text `"NaN"` converts to NaN |
| JsNumber.ToNumberOfNatText | workers/mode-a-gateway.js:14 | whole-number text, signed or not, converts to its value |
| JsNumber.DecimalTextToNumber | workers/mode-a-gateway.js:14 | text that starts with a digit or a minus sign, whose second character is a digit and which ends with a digit, converts to the signed decimal it spells, or to NaN when it is not a decimal literal |
| GatewayAdapters.PctFromBybit | workers/mode-a-gateway.js:18-23 | absent exactly when the ratio does not decode; otherwise 100 times the ratio |
| GatewayAdapters.PctFromOhlc | workers/mode-a-gateway.js:25-30 | present exactly when both prices decode and the open is not 0; then it is the change from open to last in percent (`r * open == (last - open) * 100`) |
| GatewayAdapters.NormalizeTicker | workers/mode-a-gateway.js:43-48 | a result is always a non-empty `[A-Z0-9]+` string; there is a result exactly when the trimmed, upper-cased input is one; empty input gives none |
| GatewayAdapters.NormalizeTickerIdempotent | workers/mode-a-gateway.js:43-48 | normalising a normalised ticker returns it unchanged |
| GatewayAdapters.NormalizeTickerOfLower | workers/mode-a-gateway.js:43-48 | lower-case input is accepted upper-cased (`"eth"` gives `"ETH"`) |
| GatewayAdapters.NormalizeTickerOfPadded | workers/mode-a-gateway.js:43-48 | surrounding blanks are dropped (`" btc "` gives `"BTC"`) |
| GatewayAdapters.NormalizeTickerOfPunctuation | workers/mode-a-gateway.js:43-48 | punctuation is rejected |
| GatewayAdapters.Dedupe | workers/mode-a-gateway.js:204 | `[...new Set(s)]`: no duplicates, the same elements as the input, in order of first occurrence |
| GatewayAdapters.ValidTickers | workers/mode-a-gateway.js:204 | holds only tickers, and exactly the normalised forms of the pieces that normalise; in the order of the pieces, each normalising piece represented once at its own position |
| GatewayAdapters.KeptInOrderStep | workers/mode-a-gateway.js:204 | adding one piece to a map-and-filter adds its normalised form at the end exactly when it normalises |
| GatewayAdapters.KeptTickers | workers/mode-a-gateway.js:204 | what the ordered map-and-filter keeps is exactly the set of normalised forms of the pieces that normalise, all of them tickers |
| GatewayAdapters.RequestedTickers | workers/mode-a-gateway.js:203-207 | the requested list: no duplicates; only tickers; exactly the normalisable comma-separated pieces, in the order of their first occurrence among the normalised pieces; an absent or empty parameter gives the empty list |
| GatewayAdapters.SymbolText | workers/mode-a-gateway.js:60 | a falsy symbol prints as `""` and a string prints as itself |
| GatewayAdapters.LastWins | workers/mode-a-gateway.js:56-69 | a `Map` filled by successive `set` calls holds every accepted key, and each value came from a row with that key |
| GatewayAdapters.LastWinsLookup | workers/mode-a-gateway.js:59-69 | a key is present exactly when some row has it, and its value is the one of the LAST such row |
| GatewayAdapters.RowsOf | workers/mode-a-gateway.js:58 | a payload that is not an array yields no rows |
| GatewayAdapters.BinanceEntry | workers/mode-a-gateway.js:59-68 | a row is kept exactly when its symbol is a non-empty base followed by `USDT`; the key is that base, the quote carries `lastPrice` and `priceChangePercent` through `toNum`, and the pair is the raw symbol |
| GatewayAdapters.BinanceMap | workers/mode-a-gateway.js:50-71 | a non-array payload gives an empty map; every accepted row's key is present; each key is non-empty with pair `key + "USDT"` and source Binance, and comes from an accepted row |
| GatewayAdapters.BybitEntry | workers/mode-a-gateway.js:80-89 | same symbol rule as Binance; the change is the ratio scaled by `pctFromBybit` |
| GatewayAdapters.BybitMap | workers/mode-a-gateway.js:73-93 | empty unless `result.list` is an array; otherwise as for Binance, with source Bybit |
| GatewayAdapters.OkxEntry | workers/mode-a-gateway.js:102-111 | kept exactly when `instId` ends in `-USDT`; the change comes from `pctFromOhlc` of last and open; the pair is the raw `instId` |
| GatewayAdapters.OkxMap | workers/mode-a-gateway.js:95-115 | empty unless `data` is an array; every accepted row's key is present; each key is its pair with the first `-USDT` removed, and the source is OKX |
| GatewayAdapters.BinanceLaterRowWins | workers/mode-a-gateway.js:59-69 | of two rows for the same base, the later one's quote is kept |
| GatewayAdapters.OkxKeyOfPlainId | workers/mode-a-gateway.js:105 | an id whose only `-USDT` is its suffix is keyed by its base |
| GatewayAdapters.OkxKeyReplacesFirst | workers/mode-a-gateway.js:105 | `replace` removes the first `-USDT`, not the suffix (`"X-USDTY-USDT"` is keyed `"XY-USDT"`) |
| Gateway.FirstHolder | workers/mode-a-gateway.js:221 | the first map in priority order that holds the ticker: none before it holds it, and there is none exactly when no map holds it |
| Gateway.FirstHolderOfThree | workers/mode-a-gateway.js:221 | with three maps, the holder is found by asking Binance, Bybit and OKX in turn |
| Gateway.AdapterMap | workers/mode-a-gateway.js:215-217 | a rejected fetch contributes an empty map; every quote in a map carries that exchange's label |
| Gateway.Resolve | workers/mode-a-gateway.js:221 | no quote exactly when no exchange lists the ticker; otherwise the quote of the first exchange, in priority order, that lists it |
| Gateway.EntryOf | workers/mode-a-gateway.js:222-234 | no quote gives the all-null record; a quote's price, change, source and pair are carried over |
| Gateway.CryptoPrices | workers/mode-a-gateway.js:202-242 | one entry per requested ticker, in request order, from the first successful exchange that lists it; a known-format ticker that no exchange lists still gets an all-null entry |
| Gateway.PricesOf | workers/mode-a-gateway.js:219-235 | one entry per ticker, in the tickers' order, each built from the first of Binance, Bybit and OKX that lists the ticker, or all null when none does |
| Gateway.CryptoPricesSource | workers/mode-a-gateway.js:219-235 | the source is Binance exactly when Binance lists the ticker; Bybit exactly when Binance does not and Bybit does; OKX exactly when only OKX does; null exactly when the entry is all null |
| Gateway.FallbackToBybit | workers/mode-a-gateway.js:209-221 | with Binance down, a ticker Bybit lists is answered by Bybit, whatever OKX returned |
| Gateway.BinanceRowWithoutPriceWins | workers/mode-a-gateway.js:221 | a Binance row with a null price still answers first: the fallback goes by presence of the ticker, not by usability of the price |
| Gateway.LastRowFor | workers/mode-a-gateway.js:139 | `Object.fromEntries` keeps, for each symbol, the last row whose symbol prints as it |
| Gateway.TickerRow | workers/mode-a-gateway.js:139 | `ticker[sym]` is that last row, or `undefined` when no row has the symbol |
| Json.SingletonText | workers/mode-a-gateway.js:139 | a one-element array of a string prints as that string, so it keys the same property; an empty array prints as the empty string |
| Gateway.MergeCoin | workers/mode-a-gateway.js:170-183 | the price is Binance's when present, else CoinGecko's; the change falls back the same way, independently; the source is `binance` exactly when the Binance price is present |
| Gateway.MergeCoinMixesSources | workers/mode-a-gateway.js:170-174 | a coin can carry Binance's price next to CoinGecko's change, and is then labelled `binance` |
| Gateway.BinanceRows | workers/mode-a-gateway.js:138 | a failed Binance fetch yields no rows |
| Gateway.BinanceField | workers/mode-a-gateway.js:148-153 | a failed Binance fetch yields no value |
| Gateway.GeckoField | workers/mode-a-gateway.js:155-160 | a failed CoinGecko fetch yields no value |
| Gateway.Coin | workers/mode-a-gateway.js:148-183 | labelled `binance` exactly when Binance's `lastPrice` decodes, and then priced by it; otherwise priced by CoinGecko's `usd`; the change is Binance's `priceChangePercent` when it decodes, else CoinGecko's `usd_24h_change` |
| Gateway.FearGreed | workers/mode-a-gateway.js:190 | present exactly when `Number(value)` is finite and non-zero, and then equal to it |
| Gateway.FearGreedZeroIsNull | workers/mode-a-gateway.js:190 | an index of 0 (extreme fear) is reported as missing |
| Gateway.UpbitKrw | workers/mode-a-gateway.js:172 | null unless the answer is a non-empty array; the first row's `trade_price` when that is not nullish; never `undefined` |
| Gateway.PremiumPct | workers/mode-a-gateway.js:162-165 | present exactly when both prices are present and the base is not 0; then it is the premium in percent (`p * base == (spot - base) * 100`) |
| Gateway.Dominance | workers/mode-a-gateway.js:186-187 | never `undefined`; null when the global fetch failed; otherwise the answer's `data.market_cap_percentage` value for the coin, or null when that is nullish |
| Gateway.UsdKrw | workers/mode-a-gateway.js:192 | never `undefined`; null when the FX fetch failed; otherwise the answer's `rates.KRW`, or null when that is nullish |
| Gateway.CoinbaseSpot | workers/mode-a-gateway.js:161 | absent when the Coinbase fetch failed; otherwise `toNum` of the answer's `data.amount`, present only as the finite number it converts to |
| Gateway.Live | workers/mode-a-gateway.js:117-200 | BTC, ETH and SOL are the per-field merged coins of `BTCUSDT`/`bitcoin`, `ETHUSDT`/`ethereum` and `SOLUSDT`/`solana`; dominance, the won rate, fear-greed, the Upbit price and the Coinbase spot are those of their single sources; the Coinbase source is set exactly when the spot is present; the premium is present exactly when the spot, a Binance BTC price and a non-zero base are all present, and it is the premium over the Binance price |
| Gateway.LiveAllFailed | workers/mode-a-gateway.js:128-199 | when every upstream fails the body is all null and the coins are labelled `coingecko` |
| Gateway.LiveBinanceDown | workers/mode-a-gateway.js:148-173 | with Binance down, BTC is priced by CoinGecko and the Coinbase premium is never computed |
| Gateway.JsonResponse | workers/mode-a-gateway.js:32-41 | the given status and body, with the 60-second CDN cache-control header and the open CORS origin |
| Gateway.Guarded | workers/mode-a-gateway.js:259-271 | a handler that completes answers 200 with its body; one that throws answers 502 with the error text |
| Gateway.Route | workers/mode-a-gateway.js:244-279 | OPTIONS answers 200 with the preflight headers and no body; otherwise 404 exactly when no route matches, and 502 exactly when the chosen API handler failed |
| Gateway.PreflightIgnoresPath | workers/mode-a-gateway.js:248-256 | a preflight is answered before the path is looked at |
| Dashboard.Cls | dashboard/app.js:128-134 | up exactly for +Infinity or a number at least 0.005; down exactly for -Infinity or a number at most -0.005; flat otherwise, including NaN and non-numbers |
| Dashboard.ClsOfNegation | dashboard/app.js:128-134 | a change and its negation get mirrored classes |
| Dashboard.MaxAbs | dashboard/app.js:264 | at least 1, at least every flow's magnitude, and equal to 1 or to one of them |
| Dashboard.BarWidth | dashboard/app.js:267 | at least 6, and either 6 or the flow's share of the largest magnitude in percent; at most 100 when the flow is within the largest magnitude |
| Dashboard.FlowWidths | dashboard/app.js:264-267 | one width per history entry, each in [6, 100] |
| Dashboard.FlowWidthsMonotone | dashboard/app.js:264-267 | a larger flow never gets a narrower bar |
| Dashboard.WidestBarIsFull | dashboard/app.js:264-267 | the bar of the largest flow is full width once that flow is at least 1 in magnitude |
| Dashboard.BtcKrw | dashboard/app.js:312 | present exactly when the BTC price and the rate are numbers; for finite ones, their product |
| Dashboard.KimchiAsWritten | dashboard/app.js:312-314 | computed whenever all three inputs are numbers, including a zero BTC price; where the price in won is finite and non-zero, it is the Upbit premium |
| Dashboard.KimchiAsWrittenAtZeroPrice | dashboard/app.js:312-314 | a BTC price of 0 shows an infinite kimchi premium |
| Dashboard.Kimchi | dashboard/app.js:312-314 | present exactly when the inputs are finite and the price in won is not 0; then it is the Upbit premium over that price |
| Dashboard.KimchiAgreesWhenDefined | dashboard/app.js:312-314 | where the guarded premium is defined it equals the page's arithmetic |
| Dashboard.CoinbasePremiumAsWritten | dashboard/app.js:316-317 | computed whenever the stored estimate (after `\|\| null`) and the BTC price are numbers, with no zero guard |
| Dashboard.CoinbasePremiumAsWrittenAtZeroPrice | dashboard/app.js:316-317 | a zero BTC price next to an earlier estimate gives an infinite premium |
| Dashboard.CoinbasePremiumCard | dashboard/app.js:316-317 | present exactly when the estimate is a truthy finite number and the BTC price is finite and non-zero; then it is the premium |
| Dashboard.EthBtcRatioAsWritten | dashboard/app.js:318 | computed whenever both prices are numbers; where the BTC price is finite and non-zero, `ratio * btc == eth` |
| Dashboard.EthBtcRatioAsWrittenAtZeroPrice | dashboard/app.js:318 | a zero BTC price gives an infinite ratio |
| Dashboard.EthBtcRatio | dashboard/app.js:318 | present exactly when both prices are finite and BTC's is not 0; then `ratio * btc == eth` |
| DashboardLive.CarryForward | dashboard/app.js:694 | `fetched ?? prev ?? null`: the fetched value unless nullish, else the previous one unless nullish, else null; never `undefined` |
| DashboardLive.CoinRecord | dashboard/app.js:693-696 | a record with exactly `price` and `change`, each carried forward on its own |
| DashboardLive.PutCoins | dashboard/app.js:691-697 | the keys afterwards are the previous keys plus the coin symbols |
| DashboardLive.PutCoinsKeeps | dashboard/app.js:691-697 | a key no coin writes keeps its previous value |
| DashboardLive.PutCoinsWrites | dashboard/app.js:692-697 | each coin's record is written, and the last coin with a symbol wins |
| DashboardLive.FearGreedCarry | dashboard/app.js:703 | truthy or null, never 0; the fetched number when truthy, else the previous value when truthy, else null |
| DashboardLive.FearGreedZeroKeepsPrevious | dashboard/app.js:703 | a fetched 0 (or blank text) leaves the previous index in place |
| DashboardLive.UpbitCarry | dashboard/app.js:710 | for an array answer, the first `trade_price` carried forward; otherwise the previous value, or null |
| DashboardLive.CoinbaseEstimate | dashboard/app.js:711 | 0.9991 times a truthy new BTC price; otherwise the previous estimate, or null |
| DashboardLive.NextMarkets | dashboard/app.js:713 | the rows are replaced exactly when the answer is a non-empty array, and are otherwise unchanged |
| DashboardLive.DominanceRecord | dashboard/app.js:699-702 | a record with exactly `btc` and `eth`, each carried forward from the global answer |
| DashboardLive.FxRecord | dashboard/app.js:706-709 | the rate is carried forward; the delta is always the previous delta, or null |
| DashboardLive.WithMarketWide | dashboard/app.js:699-703 | writes `dominance` and `fearGreed`, the latter the fetched index when truthy, else the previous one when truthy, else null; nothing else changes |
| DashboardLive.WithBtcPrices | dashboard/app.js:710-711 | writes the Upbit price and the estimate taken from the NEW BTC record, and nothing else changes |
| DashboardLive.FetchLive | dashboard/app.js:684-713 | the live object afterwards has the previous keys plus exactly the keys a refresh writes |
| DashboardLive.CoinSymbolsDistinct | dashboard/app.js:654-669 | no two coins share a symbol, and no symbol collides with another key the refresh writes |
| DashboardLive.FetchLiveCoin | dashboard/app.js:692-697 | every coin gets a new record, with price and change each carried forward from CoinGecko and the previous record |
| DashboardLive.FetchLiveCarried | dashboard/app.js:699-710 | dominance is carried forward field by field, and the Upbit price as a whole |
| DashboardLive.FetchLiveDerived | dashboard/app.js:703-711 | the stored index is the fetched one when truthy, else the previous stored one when truthy, else null; the Coinbase estimate comes from the new BTC price |
| DashboardLive.FetchLiveFxAndMarkets | dashboard/app.js:706-713 | the rate is carried forward, the delta is kept, and the market rows are replaced only by a non-empty array |
| DashboardLive.FetchLiveKeeps | dashboard/app.js:691 | a previous key that the refresh does not write keeps its value |
| DashboardLive.FailedFetchKeepsPrices | dashboard/app.js:684-697 | a failed CoinGecko call keeps every coin's previous price and change, or null where there was none |
| DashboardMarkets.Query | dashboard/app.js:514 | the trimmed, lower-cased search is no longer than the input |
| DashboardMarkets.MatchesQuery | dashboard/app.js:523 | true exactly when the symbol is a string containing the query, or the name does; throws exactly when the symbol is not a string, or misses and the name is not a string |
| DashboardMarkets.IsMover | dashboard/app.js:527 | throws exactly on a null or undefined row; true exactly when the change's magnitude is at least 1 |
| DashboardMarkets.FilterRows | dashboard/app.js:522-528 | throws exactly when the test throws on some row; otherwise the kept rows are an in-order subsequence holding every copy of each passing row and no other row |
| DashboardMarkets.SortValue | dashboard/app.js:530-535 | the chosen field, 0 when it is falsy, as a number; the magnitude for the change |
| DashboardMarkets.Insert | dashboard/app.js:536 | inserting keeps the same rows plus the new one |
| DashboardMarkets.SortRows | dashboard/app.js:536 | the sort is a permutation of its input |
| DashboardMarkets.InsertSorted | dashboard/app.js:536 | inserting a non-NaN key into a descending run keeps it descending |
| DashboardMarkets.SortRowsSorted | dashboard/app.js:536 | with no NaN key, the rows come out in non-increasing key order |
| DashboardMarkets.Take | dashboard/app.js:544 | `slice(0, n)`: at most n rows, the leading ones |
| DashboardMarkets.Filtered | dashboard/app.js:520-528 | throws exactly when the search throws on some row, or the movers filter is on and a row passing the search is null or undefined; otherwise the result is an in-order subsequence of the list holding every copy of each row that passes both filters and no other row |
| DashboardMarkets.TopMarkets | dashboard/app.js:510-544 | at most 20 rows, each drawn from the markets and passing both filters |
| DashboardMarkets.TopMarketsSorted | dashboard/app.js:530-544 | with no NaN key, the shown rows are in non-increasing key order |
| DashboardMarkets.TopMarketsShowsAll | dashboard/app.js:520-544 | when at most 20 rows pass, all of them are shown, each once |
| DashboardMarkets.TopMarketsOfWellFormedRows | dashboard/app.js:522-536 | rows that are objects with a string symbol and a string or missing name never make the table throw |
| DashboardMarkets.TopMarketsNullRowThrows | dashboard/app.js:530-536 | a null row among two or more throws in the sort, even with both filters off |
| Home.Cls | dashboard/home.js:24-29 | up exactly for a positive number, down exactly for a negative one, flat otherwise, including NaN |
| Home.DashboardClsRefines | dashboard/home.js:24-29 | wherever the dashboard's class says up or down, the landing page's class agrees |
| Home.PctPrefix | dashboard/home.js:31-34 | no text (`n/a`) exactly for non-numbers, and a `+` exactly for positive numbers |
| Home.PctPrefixMatchesCls | dashboard/home.js:24-34 | the `+` prefix appears exactly when the class is up |
| Home.HomeRecord | dashboard/home.js:128-131 | a record with exactly `usd` and `chg`, each the CoinGecko value unless nullish, else the current one |
| Home.MergeCoins | dashboard/home.js:127-132 | only coin symbols are added as keys, and a key that is no coin's symbol keeps its value |
| Home.HomeCoinSymbolsDistinct | dashboard/home.js:1-10 | the page's coin symbols are distinct and none is `usdKrw` |
| Home.MergeCoinsWrites | dashboard/home.js:127-132 | when the symbols are distinct and every coin has a record or both CoinGecko fields, the merge completes and each coin's fields come from CoinGecko, else from its record |
| Home.MergeAddsMissingCoin | dashboard/home.js:128-131 | a coin with no record but both CoinGecko fields is written with CoinGecko's price and change, and the merge completes |
| Home.MergeCoinsStops | dashboard/home.js:127-132 | with distinct symbols, a coin that has no record while CoinGecko lacks its price or its change makes the merge throw part-way |
| Home.Boot | dashboard/home.js:119-136 | if either request fails, the data is the fallback copy unchanged; otherwise at most coin symbols and `usdKrw` are added |
| Home.WithRate | dashboard/home.js:127-136 | after a completed `forEach` the keys gain exactly `usdKrw` and every other value stays; after a throw the data is unchanged |
| Home.BootCoin | dashboard/home.js:127-132 | when both requests succeed and every coin can be written, each coin takes price and change from CoinGecko field by field, falling back to the fallback's |
| Home.BootUsdKrw | dashboard/home.js:133 | when both requests succeed and every coin can be written, the rate is the fetched KRW rate unless nullish, else the fallback's |
| Home.BootStops | dashboard/home.js:127-136 | when a coin cannot be written, the throw skips the rate: the data is the partial merge and `usdKrw` is as in the fallback |
| Home.Clamp | dashboard/home.js:79 | NaN stays NaN, anything else lands in the range, and values already in it are unchanged |
| Home.LongRaw | dashboard/home.js:79 | NaN exactly when the change is |
| Home.LongShare | dashboard/home.js:79 | NaN exactly when the change converts to NaN; otherwise a finite share in [18, 72] |
| Home.LongShortRow | dashboard/home.js:78-80 | the short share is 100 minus the long share |
| Home.LongShortSplit | dashboard/home.js:78-80 | for a change that is not NaN, the long share is in [18, 72] and the two shares add up to 100 |
| Home.High | dashboard/home.js:101 | NaN exactly when the change converts to NaN; otherwise never positive |
| Home.Low | dashboard/home.js:102 | NaN exactly when the change converts to NaN; otherwise never negative |
| Home.HighBelowLow | dashboard/home.js:100-102 | for a change that is not NaN, the high column never exceeds the low column |
| PyNumber.FloatOfString | scripts/update_macro_stocks_data.py:123 | blank text is rejected |
| PyNumber.FloatOfNatText | scripts/update_macro_stocks_data.py:123 | whole-number text, signed or not, reads back as its value |
| PyNumber.Float | scripts/update_macro_stocks_data.py:101 | `None`, lists and dicts raise; booleans are 1.0 and 0.0; finite numbers are themselves |
| PyNumber.ToNum | scripts/update_macro_stocks_data.py:97-103 | present exactly when the value is not `None` and `float()` accepts it, and then equal to that float |
| PyNumber.PctOrZero | scripts/update_macro_stocks_data.py:135-136 | the number, or 0.0 when it is absent |
| PyNumber.Round2 | scripts/update_macro_stocks_data.py:290-291 | a whole number of cents, within half a cent of the input |
| PyNumber.Round2OfCents | scripts/update_macro_stocks_data.py:290-291 | a value that already has two decimals is unchanged |
| PyNumber.Round2Idempotent | scripts/update_macro_stocks_data.py:290-291 | rounding twice is rounding once |
| MacroStocks.DescendOfEmpty | scripts/update_macro_stocks_data.py:164-165 | walking any path from an empty dict ends at an empty dict |
| MacroStocks.ReadPrevMetric | scripts/update_macro_stocks_data.py:162-171 | a path that does not end at a dict gives the empty metric (no value, delta 0, the placeholder display) |
| MacroStocks.ReadPrevMetricOfMissingSection | scripts/update_macro_stocks_data.py:162-171 | a missing first section reads as the empty metric |
| MacroStocks.MetricJson | scripts/update_macro_stocks_data.py:254-280 | a written metric has exactly `value`, `delta` and `display` |
| MacroStocks.ReadPrevMetricRoundTrip | scripts/update_macro_stocks_data.py:162-171 | reading back a metric the previous run wrote gives that metric |
| MacroStocks.PickValue | scripts/update_macro_stocks_data.py:174-177 | the previous metric verbatim when there is no live value; otherwise the live value, its delta or 0, and its display |
| MacroStocks.PickValueKeepsValues | scripts/update_macro_stocks_data.py:174-177 | a picked metric lacks a value only when neither side has one |
| MacroStocks.RawCell | scripts/update_macro_stocks_data.py:119 | a non-empty series cell is used, stripped |
| MacroStocks.Reading | scripts/update_macro_stocks_data.py:119-125 | blank cells and `.` give nothing; any number given is what `float()` reads from the cell |
| MacroStocks.RowReadings | scripts/update_macro_stocks_data.py:118-125 | one reading per CSV row |
| MacroStocks.Readings | scripts/update_macro_stocks_data.py:116-125 | the usable numbers are no more than the rows |
| MacroStocks.ReadingsAppend | scripts/update_macro_stocks_data.py:118-125 | one more row adds its number at the end when usable, and nothing otherwise |
| MacroStocks.Latest | scripts/update_macro_stocks_data.py:127-132 | no readings gives `(None, None, False)`; `ok` exactly when a value is present, and then a delta is present too |
| MacroStocks.LatestOfAppend | scripts/update_macro_stocks_data.py:130-132 | a new reading becomes the latest value; its delta is measured from the previous latest value, and is 0 when there was none |
| MacroStocks.FredLatest | scripts/update_macro_stocks_data.py:116-132 | `(None, None, False)` exactly when no row is usable |
| MacroStocks.FredLatestOfUsableRow | scripts/update_macro_stocks_data.py:116-132 | a usable last row supplies the latest value |
| MacroStocks.FredLatestOfUnusableRow | scripts/update_macro_stocks_data.py:119-125 | an unusable row changes nothing |
| MacroStocks.FredPick | scripts/update_macro_stocks_data.py:202-206 | the previous metric verbatim unless the series was fetched with a value; otherwise the value, its delta or 0, and its display |
| MacroStocks.FredPickIsPickValue | scripts/update_macro_stocks_data.py:241-245 | `fred_pick` and `liq_pick` are `pick_value` of the value that counts only when the fetch succeeded |
| MacroStocks.AsOf | scripts/update_macro_stocks_data.py:194-195 | the current time when anything was fetched; otherwise the previous `as_of` when there is one |
| MacroStocks.QuietRunKeepsSnapshot | scripts/update_macro_stocks_data.py:194-206 | a run where nothing came back keeps every FRED metric and the previous `as_of` |
| Stocks.QuoteFields | scripts/update_macro_stocks_data.py:157-159 | no quote gives neither number; otherwise price and change percent, each through `to_num` |
| Stocks.PrevRow | scripts/update_macro_stocks_data.py:285-289 | the empty dict when no previous row is filed under the ticker; otherwise the LAST row filed under it |
| Stocks.MakeStockRow | scripts/update_macro_stocks_data.py:288-292 | group, name and ticker from the entry; the price is the live price rounded, else the previous price; the change is decided on its own: live rounded, else the previous change through `to_num`, else 0 |
| Stocks.StockRowsOf | scripts/update_macro_stocks_data.py:286-292 | one row per watchlist entry, in order |
| Stocks.StockRows | scripts/update_macro_stocks_data.py:287-292 | the table follows the watchlist ticker by ticker |
| Stocks.WatchlistIsPlain | scripts/update_macro_stocks_data.py:41-57 | the watchlist tickers are distinct upper-case alphanumerics |
| Stocks.Written | scripts/update_macro_stocks_data.py:292 | one JSON row per stock row, in order |
| Stocks.WrittenFiledUnder | scripts/update_macro_stocks_data.py:285 | in a written table, exactly the row written for an entry is filed under its ticker |
| Stocks.PrevRowOfWritten | scripts/update_macro_stocks_data.py:285-289 | the lookup finds the row written for an entry |
| Stocks.QuietRunKeepsStockRow | scripts/update_macro_stocks_data.py:288-292 | without quotes, an entry's row is the row written for it |
| Stocks.QuietRunKeepsStockRows | scripts/update_macro_stocks_data.py:286-292 | a run without quotes reproduces the previous table |
| Stocks.LastRow | scripts/update_macro_stocks_data.py:299 | none exactly when no row has the ticker; otherwise a row with that ticker |
| Stocks.EquitiesOf | scripts/update_macro_stocks_data.py:300-303 | no more entries than wanted tickers |
| Stocks.Present | scripts/update_macro_stocks_data.py:302 | the listed tickers are an in-order subsequence of the wanted ones |
| Stocks.EquitiesOfRows | scripts/update_macro_stocks_data.py:299-303 | the entries are exactly the wanted tickers that have a row, in wanted order, each with that row's price and change |
| Stocks.PresentAll | scripts/update_macro_stocks_data.py:302 | when every wanted ticker has a row, all are listed |
| Stocks.CryptoTickersInGroup | scripts/update_macro_stocks_data.py:49-56 | the five crypto stocks are in the crypto-related group |
| Stocks.CryptoTickersOnWatchlist | scripts/update_macro_stocks_data.py:41-57 | every crypto stock is on the watchlist |
| Stocks.WatchlistTickerHasRow | scripts/update_macro_stocks_data.py:287-299 | a table that follows the watchlist has a row for every watchlist ticker |
| Stocks.CryptoEquitiesComplete | scripts/update_macro_stocks_data.py:287-303 | the snapshot always lists all five crypto stocks, in order |
| MacroBrief.Index | scripts/daily_macro_brief.py:77-78 | a present dict key gives its value; anything else raises |
| MacroBrief.At | scripts/daily_macro_brief.py:77-78 | an index within a list gives its element; a value that is neither list nor string raises |
| PyNumber.DictGet | scripts/daily_macro_brief.py:110-112 | a present key gives its value; a missing key gives `None` |
| MacroBrief.NumberOrNone | scripts/daily_macro_brief.py:115-116 | finite numbers are themselves and booleans are 1 or 0; everything else is `None` |
| MacroBrief.FloatsOf | scripts/daily_macro_brief.py:79 | raises exactly when a non-`None` close is rejected by `float()`; otherwise no more floats than closes |
| MacroBrief.QuoteOfCloses | scripts/daily_macro_brief.py:80-85 | the price is the last close; the change is absent exactly when the previous close is 0, and otherwise is the change in percent |
| MacroBrief.YahooQuote | scripts/daily_macro_brief.py:69-87 | labelled and sourced `yahoo`; a missing price implies a missing change; a falsy answer gives the empty quote |
| MacroBrief.FloatsOfPresent | scripts/daily_macro_brief.py:79 | on a numeric chart, the floats are the non-`None` closes in order |
| MacroBrief.YahooQuoteOfChart | scripts/daily_macro_brief.py:76-85 | fewer than two present closes give the empty quote; otherwise the quote of the present closes |
| MacroBrief.CoinQuote | scripts/daily_macro_brief.py:109-118 | a missing coin gives the empty quote; raises exactly when the coin entry is not a dict; otherwise price and change are type-checked numbers |
| MacroBrief.CoinQuotes | scripts/daily_macro_brief.py:109-119 | keyed by exactly the tickers; raises exactly when some coin raises |
| MacroBrief.CoinQuotesAt | scripts/daily_macro_brief.py:109-118 | when no ticker repeats, each ticker holds its own coin's quote |
| MacroBrief.CoinGeckoPrices | scripts/daily_macro_brief.py:90-119 | keys are exactly BTC, ETH, SOL and XRP; a falsy answer gives four empty quotes; a truthy non-dict answer raises |
| MacroBrief.CoinGeckoTickersDistinct | scripts/daily_macro_brief.py:97-102 | the four tickers are distinct |
| MacroBrief.CoinGeckoQuote | scripts/daily_macro_brief.py:109-118 | for a dict answer, each ticker holds its coin's quote |
| MacroBrief.FearGreed | scripts/daily_macro_brief.py:122-130 | a falsy answer gives no index |
| MacroBrief.FearGreedOfAnswer | scripts/daily_macro_brief.py:126-128 | a well-formed answer gives its value |
| MacroBrief.Vote | scripts/daily_macro_brief.py:148-152 | no vote for `None`; +1 exactly for a positive change and -1 exactly for the rest |
| MacroBrief.ScoreDirection | scripts/daily_macro_brief.py:146-157 | in [-1, 1]; 1 exactly when the index votes minus the dollar vote reach 2, and -1 exactly when they reach -2 |
| MacroBrief.ScoreDirectionNeedsTwo | scripts/daily_macro_brief.py:146-157 | with at most one input present the direction is 0 |
| MacroBrief.ScoreDirectionUnanimous | scripts/daily_macro_brief.py:146-157 | rising indices with a falling dollar give 1; the reverse gives -1 |
| MacroBrief.ScoreVol | scripts/daily_macro_brief.py:160-166 | in [-1, 1] |
| MacroBrief.ScoreVolCases | scripts/daily_macro_brief.py:160-166 | -1 exactly when VIX did not fall and ETH is missing or moved at most 3%; 1 exactly when VIX fell, or VIX is missing and ETH moved more than 3% |
| MacroBrief.ScoreSentiment | scripts/daily_macro_brief.py:169-176 | 0 for `None`; -1 exactly at or below 30; 1 exactly at or above 70; always in [-1, 1] |
| MacroBrief.ScoreSentimentMonotone | scripts/daily_macro_brief.py:169-176 | more greed never lowers the score |
| MacroBrief.StanceOf | scripts/daily_macro_brief.py:204-212 | risk-on exactly when the mean score exceeds 0.3, and risk-off exactly when it is below -0.3 |
| MacroBrief.StanceBySum | scripts/daily_macro_brief.py:204-212 | risk-on exactly when the score sum is at least 1, risk-off exactly at most -1, and neutral exactly at 0 |
| MacroBrief.BriefStance | scripts/daily_macro_brief.py:201-212 | risk-on exactly when the direction, volatility and sentiment scores of the quotes add up to at least 1, risk-off exactly when they add up to at most -1, neutral exactly when they cancel |
| MacroBrief.BriefStanceWithoutQuotes | scripts/daily_macro_brief.py:201-212 | with no quotes, the index alone decides: neutral without it, risk-off at or below 30, risk-on at or above 70 |
| MacroBrief.KeepUsable | scripts/daily_macro_brief.py:64-65 | only items with a title and a link are kept, and every copy of each such item is |
| MacroBrief.KeepUsableInOrder | scripts/daily_macro_brief.py:59-66 | the kept items are in document order |
| MacroBrief.CleanAll | scripts/daily_macro_brief.py:61-63 | one cleaned item per raw item |
| MacroBrief.RssItems | scripts/daily_macro_brief.py:59-66 | at most 6 items, all usable, and every usable item among the first 6 is kept |
| MacroBrief.RssItemsInOrder | scripts/daily_macro_brief.py:59-66 | the items are an in-order subsequence of the first 6 |
| Etf.StripTags | scripts/update_etf_data.py:23 | never longer than the input |
| Etf.StripTagsOfPlain | scripts/update_etf_data.py:23 | text without `<` is unchanged |
| Etf.Squeeze | scripts/update_etf_data.py:25 | no two blanks in a row; empty exactly when the input is; starts with a blank exactly when the input does; the non-blank characters are the input's, in order |
| Etf.NonBlankOfStrip | scripts/update_etf_data.py:25 | `strip()` removes white space only: the non-blank characters are unchanged |
| Etf.SqueezeOfCollapsed | scripts/update_etf_data.py:25 | text with no two blanks in a row is unchanged |
| Etf.Normalize | scripts/update_etf_data.py:25 | collapsed and trimmed, with the input's non-blank characters in order |
| Etf.NormalizeIdempotent | scripts/update_etf_data.py:25 | normalising twice is normalising once |
| Etf.CleanText | scripts/update_etf_data.py:22-25 | whatever `unescape` returns, the cell text is collapsed and trimmed and keeps the non-blank characters of the decoded, tag-stripped text; for text without `<`, those of the decoded text |
| Etf.Unparen | scripts/update_etf_data.py:29 | no parentheses remain; the result is the text in order with each `(` read as `-` and some characters dropped; only `)` is dropped, so every other character keeps all its copies and `-` gains one per `(` |
| Etf.UnparenOfPlain | scripts/update_etf_data.py:29 | text without parentheses is unchanged |
| Etf.UnparenClose | scripts/update_etf_data.py:29 | a closing parenthesis at the end is dropped |
| Etf.MatchAt | scripts/update_etf_data.py:19 | a match at a position is non-empty and ends within the text |
| Etf.Search | scripts/update_etf_data.py:29 | the leftmost match: none starts earlier, and no match at all means none anywhere |
| Etf.DropMarks | scripts/update_etf_data.py:32 | no `$` or `,` remains; the result is a subsequence of the text, and every other character keeps all its copies |
| Etf.DropMarksOfDigits | scripts/update_etf_data.py:32 | digit text is unchanged |
| Etf.ParseValue | scripts/update_etf_data.py:28-36 | text with no numeric match gives no value |
| Etf.ParseValueOfLeadingMatch | scripts/update_etf_data.py:28-36 | a text without parentheses that starts with a number match is read as that match without its marks |
| Etf.ParseValueOfWhole | scripts/update_etf_data.py:28-36 | when the whole rewritten text matches, the value is `float()` of it without `$` and `,` |
| Etf.ParseValueOfNatText | scripts/update_etf_data.py:28-36 | a whole number's text gives that number |
| Etf.ParseValueOfParenthesized | scripts/update_etf_data.py:28-36 | a parenthesised number is negative |
| Etf.ParseValueOfParenthesizedDollars | scripts/update_etf_data.py:28-36 | a parenthesised dollar amount is negative |
| Etf.NegatedForms | scripts/update_etf_data.py:29-32 | `(n)` and `($n)` are rewritten to `-n` |
| Etf.ParseValueStopsAtFirstMatch | scripts/update_etf_data.py:29-36 | only the first match is tried: `", 12"` gives nothing, because its first match `,` does not parse |
| Etf.LastSome | scripts/update_etf_data.py:73-79 | none exactly when every entry is none; otherwise the rightmost present entry |
| Etf.CellValues | scripts/update_etf_data.py:74-76 | one parsed value per cell, from its cleaned text |
| Etf.RowValueAbsent | scripts/update_etf_data.py:73-79 | a row's value is none exactly when no cell parses |
| Etf.RowValueIsRightmost | scripts/update_etf_data.py:73-79 | a row's value, when present, is the value of the rightmost cell that parses: no cell to its right parses |
| Etf.DateTextValue | scripts/update_etf_data.py:28-36 | the date text `"12 Jan 2024"` holds the number 12 |
| Etf.DashValue | scripts/update_etf_data.py:28-36 | a lone dash holds no number |
| Etf.RowValueReadsDate | scripts/update_etf_data.py:73-79 | a row dated `12 Jan 2024` whose figure cells are all dashes gets the flow 12, read from its date cell |
| Etf.FigureValue | scripts/update_etf_data.py:73-79 | the figure value is none exactly when no cell after the date parses |
| Etf.FigureValueSkipsDate | scripts/update_etf_data.py:73-79 | the figure value does not depend on the date cell |
| Etf.FigureValueOfDashRow | scripts/update_etf_data.py:73-79 | a row of dashes has no figure value |
| Etf.FigureValueAgrees | scripts/update_etf_data.py:73-79 | when some figure cell parses, the scan over all cells gives the same value |
| Etf.RowEntry | scripts/update_etf_data.py:57-79 | a row qualifies exactly when it has at least two cells and its first cell has a date that parses; its value is the row value |
| Etf.Entries | scripts/update_etf_data.py:56-79 | one entry per row |
| Etf.ChosenUnique | scripts/update_etf_data.py:81-84 | at most one row is the latest-dated one with no equal date before it |
| Etf.Latest | scripts/update_etf_data.py:81-86 | none exactly when no row qualifies; otherwise the row with the latest date, where ties go to the earliest row |
| Etf.LatestTotalInflow | scripts/update_etf_data.py:46-86 | `(None, None)` exactly when no row qualifies; otherwise the date text and value of the chosen row |
| Etf.RefDate | scripts/update_etf_data.py:93 | the BTC date when non-empty, else the ETH date when non-empty, else `n/a`; never empty |

## Left out

- **HTTP and I/O**:
  - `fetch`, `urllib`, timeouts and `AbortController`;
  - file reads and writes, `argparse` and `print`;
  - the response body serialisation.
- **Scheduling and timestamps**:
  - `Promise.allSettled` and `Promise.all` become inputs of `Settled` outcomes;
  - `setInterval` polling and the mutation of module-level `state` become an explicit state in and out;
  - the current time is a parameter.
- **Rendering**:
  - DOM and HTML templates;
  - `toFixed`, `toLocaleString` and f-string formatting;
  - the markdown text of `render_markdown`;
  - the sort-select values other than the four keys;
  - `renderExchangeTable`, `renderHomeHub`, `setAsOf` and the other render functions.
- **Pseudo data and constants**:
  - `pseudoExchangePrice` and `pseudoFunding`;
  - `fallbackLive`, `fallbackMacro` and `fallbackTopMarkets`;
  - the ETF history constants and the `qt_status` default.
- **Floating point**: prices are exact reals, so IEEE rounding, overflow to infinity on large products, and float printing are not modelled. `round(x, 2)` is rounded half to even on the exact value.
- **Python `float()` text forms**: `nan`, `inf` and underscores are not modelled. Neither are the non-ASCII decimal digits `float()` accepts: `PyNumber.FloatOfString` rejects text holding them.
- **`OverflowError`**: Python raises it where a value exceeds the float range, for example in float conversion of a very large integer. The model's exact reals never overflow, so it is not modelled.
- **Formatting a previous stock price**: `f"{price:.2f}"` in the crypto-equities list (scripts/update_macro_stocks_data.py:300) raises `ValueError` when a previous row's price is a string. `Stocks.EquitiesOf` keeps the stored price as it is and does not model that raise or the formatting.
- **Unicode digits in `\d`**: `Etf.ParseValue` treats only ASCII digits as digits.
- **Case mapping**: upper- and lower-casing covers ASCII plus the few non-ASCII characters whose upper-case form is ASCII.
- **Library code, passed as parameters or taken as input**:
  - `html.unescape`, the `DATE_RE` search and `strptime` are parameters of the ETF model;
  - the row and cell regex extraction of `latest_total_inflow` is taken as input, as a list of rows of cell texts;
  - the CSV reader is taken as input, as rows of dicts;
  - the XML parser is taken as input, as raw items with optional texts.
- **Out-of-scope operations**:
  - `scripts/update_news_data.py`, an RSS wrapper whose title/link filter is the one modelled in `MacroBrief.RssItems`;
  - `build_news_bucket`;
  - the `fetch_yahoo_quotes` batch request of the snapshot script, taken as a map of quotes;
  - `fetch_rss`'s XML error handling.
- Json.ToText: `String()` of a finite number is not modelled (the result is `None`). Keys and symbols that are numbers are therefore never matched.
- **Non-string tickers in previous stock rows** (`str()` of a number, list or `None`) are treated as names no watchlist entry has. `str()` of them never gives an upper-case alphanumeric ticker.
- **Non-dict previous stock rows**: a `rows` value that is not a list is not modelled.
- MacroBrief.Closes: a close field that is a dict is modelled as `TypeError`. Python would iterate its keys, and `float()` of a key string could succeed.
- **Non-finite numbers on the Python side**: Python floats are modelled as exact reals. Python's `json.loads` does yield non-finite floats: it accepts `NaN` and `Infinity`, and reads `1e400` as inf (scripts/daily_macro_brief.py:47, scripts/update_macro_stocks_data.py:72 and :81). The model treats such a number as absent or as an error where Python keeps it:
- PyNumber.Float: a non-finite JSON number raises here, while `float()` returns it unchanged.
- PyNumber.ToNum: `to_num` of a non-finite JSON number is `None` here, while Python returns the NaN or inf. `pick_value` would then use it instead of the previous metric.
- MacroBrief.NumberOrNone: a non-finite number is `None` here, while `isinstance(x, float)` keeps it (scripts/daily_macro_brief.py:115-116).
- MacroBrief.FloatsOf: a non-finite close raises here, while `float()` keeps it and the quote carries it.
- Etf.StripTags: the contract states only that the text never grows and that text without `<` is unchanged. It does not state that every `<...>` run becomes one space.
- Etf.ParseValue: the contract states the no-match case. The value of a match is stated by the lemmas for whole matches, parenthesised numbers, dollar amounts and the first-match rule, not for arbitrary text.
- JsNumber.StringToNumber: the contract states only that blank text is 0. The lemmas `ToNumberOfNatText`, `ToNumberOfNonNumeric` and `DecimalTextToNumber` state the rest of the grammar case by case.
- PyNumber.FloatOfString: the contract states only that blank text is rejected. Whole-number text is covered by `FloatOfNatText`.
- DashboardMarkets.Query: the contract states only the length bound. Trimming and lower-casing are not restated.
- MacroBrief.FearGreed: the contract states only the falsy-answer case. A well-formed answer is covered by `FearGreedOfAnswer`; malformed shapes are not restated.
- Stocks.EquitiesOf: the contract states only the length bound. The contents are stated by `EquitiesOfRows`.
- MacroStocks.Readings: the contract states only the length bound. The contents are stated by `ReadingsAppend`.
- DashboardMarkets.TopMarketsSorted: it assumes no row's key is NaN. JavaScript's sort with a NaN comparator result is implementation-defined.
- Gateway.Route: `/health` answers the current time and `{ok: true}`. The model states its status and headers, not that body. The preflight answer is `Response`'s default 200 (workers/mode-a-gateway.js:248-255), and the model follows the code.

## Findings

| source | as written | input that shows it | evidently intended | confidence | as-written member | corrected member |
|---|---|---|---|---|---|---|
| dashboard/app.js:312-314 | the kimchi premium divides by `btc.price * usdKrw` with only `typeof` checks | BTC price 0, rate 1300, Upbit price 100000000: the card shows an infinite premium | no premium when the price in won is 0, like the gateway's guarded premium (workers/mode-a-gateway.js:163) | medium, not executed | Dashboard.KimchiAsWritten, Dashboard.KimchiAsWrittenAtZeroPrice | Dashboard.Kimchi, Dashboard.KimchiAgreesWhenDefined |
| dashboard/app.js:316-317 | the Coinbase premium divides by `btc.price` with only `typeof` checks | BTC price 0 with a stored estimate of 60000: an infinite premium | no premium for a zero BTC price | medium, not executed | Dashboard.CoinbasePremiumAsWritten, Dashboard.CoinbasePremiumAsWrittenAtZeroPrice | Dashboard.CoinbasePremiumCard |
| dashboard/app.js:318 | the ETH/BTC ratio divides by `btc.price` with only `typeof` checks | ETH price 3000, BTC price 0: an infinite ratio | no ratio for a zero BTC price | medium, not executed | Dashboard.EthBtcRatioAsWritten, Dashboard.EthBtcRatioAsWrittenAtZeroPrice | Dashboard.EthBtcRatio |
| scripts/update_etf_data.py:73-79 | the right-to-left scan for a flow includes the date cell | a row dated `12 Jan 2024` whose figure cells are all `-`: the flow is 12 | a row with no figures has no flow; only the cells after the date are read | medium, not executed | Etf.RowValue, Etf.RowValueReadsDate | Etf.FigureValue, Etf.FigureValueSkipsDate, Etf.FigureValueOfDashRow, Etf.FigureValueAgrees |

=== FILE: common.dfy ===
/** Small wrapper types shared by every module: optional values, settled
    promise outcomes, and a few sequence helpers. */
module Common {

  /** A value that may be absent (`null` / `None` in the source). */
  datatype Option<+T> = None | Some(value: T) {

    /** The value, or `default` when absent. */
    function GetOr(default: T): T {
      match this
      case Some(v) => v
      case None => default
    }

    /** The first present value of `this` and `other` (the `a ?? b` of the
        source when both sides are numbers-or-null). */
    function OrElse(other: Option<T>): (r: Option<T>)
      ensures r.Some? <==> Some? || other.Some?
      ensures Some? ==> r == this
      ensures None? ==> r == other
    {
      if Some? then this else other
    }
  }

  /** The outcome of one promise after `Promise.allSettled`. */
  datatype Settled<+T> = Fulfilled(value: T) | Rejected(reason: string)

  /** An operation that may raise (throw) instead of returning. */
  datatype Result<+T> = Ok(value: T) | Raises(error: string)

  /** No element occurs twice. */
  predicate NoDuplicates<T(==)>(s: seq<T>) {
    forall i, j :: 0 <= i < j < |s| ==> s[i] != s[j]
  }

  /** `s` can be obtained from `t` by deleting elements. */
  predicate IsSubsequence<T(==)>(s: seq<T>, t: seq<T>)
    decreases |t|
  {
    if s == [] then true
    else if t == [] then false
    else if s[0] == t[0] then IsSubsequence(s[1..], t[1..])
    else IsSubsequence(s, t[1..])
  }

  /** Every element of a subsequence comes from the longer sequence. */
  lemma {:induction false} SubsequenceElements<T>(s: seq<T>, t: seq<T>)
    requires IsSubsequence(s, t)
    ensures forall x :: x in s ==> x in t
    decreases |t|
  {
    if s == [] {
    } else if s[0] == t[0] {
      SubsequenceElements(s[1..], t[1..]);
      forall x | x in s ensures x in t {
        if x != s[0] {
          assert x in s[1..];
        }
      }
    } else {
      SubsequenceElements(s, t[1..]);
    }
  }

  /** A subsequence is never longer than the sequence it is taken from. */
  lemma {:induction false} SubsequenceLength<T>(s: seq<T>, t: seq<T>)
    requires IsSubsequence(s, t)
    ensures |s| <= |t|
    decreases |t|
  {
    if s == [] {
    } else if s[0] == t[0] {
      SubsequenceLength(s[1..], t[1..]);
    } else {
      SubsequenceLength(s, t[1..]);
    }
  }

  /** Dropping the first element of a subsequence keeps it a subsequence. */
  lemma {:induction false} SubsequenceTail<T>(s: seq<T>, t: seq<T>)
    requires s != [] && IsSubsequence(s, t)
    ensures IsSubsequence(s[1..], t)
    decreases |t|, 1
  {
    if s[0] == t[0] {
      SubsequenceSkip(s[1..], t);
    } else {
      SubsequenceTail(s, t[1..]);
      SubsequenceSkip(s[1..], t);
    }
  }

  /** One step of a filter keeps every copy of a kept element and no copy
      of any other: it holds for `s` when it holds for the tail of `s`. */
  lemma KeepCopiesStep<T>(s: seq<T>, rest: seq<T>, r: seq<T>, keep: T -> bool)
    requires s != []
    requires forall x :: multiset(rest)[x] == if keep(x) then multiset(s[1..])[x] else 0
    requires r == if keep(s[0]) then [s[0]] + rest else rest
    ensures forall x :: multiset(r)[x] == if keep(x) then multiset(s)[x] else 0
  {
    assert multiset(s) == multiset{s[0]} + multiset(s[1..]) by {
      assert s == [s[0]] + s[1..];
    }
    if keep(s[0]) {
      assert multiset(r) == multiset{s[0]} + multiset(rest);
    }
  }

  /** Every sequence is a subsequence of itself. */
  lemma {:induction false} SubsequenceReflexive<T>(s: seq<T>)
    ensures IsSubsequence(s, s)
    decreases |s|
  {
    if s != [] {
      SubsequenceReflexive(s[1..]);
    }
  }

  /** A subsequence of a subsequence of `c` is a subsequence of `c`. */
  lemma {:induction false} SubsequenceTrans<T>(a: seq<T>, b: seq<T>, c: seq<T>)
    requires IsSubsequence(a, b) && IsSubsequence(b, c)
    ensures IsSubsequence(a, c)
    decreases |c|
  {
    if a != [] {
      if b[0] == c[0] {
        if a[0] == b[0] {
          SubsequenceTrans(a[1..], b[1..], c[1..]);
        } else {
          SubsequenceTrans(a, b[1..], c[1..]);
          SubsequenceSkip(a, c);
        }
      } else {
        SubsequenceTrans(a, b, c[1..]);
        SubsequenceSkip(a, c);
      }
    }
  }

  /** A subsequence of the tail of `t` is a subsequence of `t`. */
  lemma {:induction false} SubsequenceSkip<T>(s: seq<T>, t: seq<T>)
    requires t != [] && IsSubsequence(s, t[1..])
    ensures IsSubsequence(s, t)
    decreases |t|, 0
  {
    if s != [] && s[0] == t[0] {
      SubsequenceTail(s, t[1..]);
    }
  }
}

=== FILE: dashboard.dfy ===
/** The derived values of the dashboard page in dashboard/app.js: the
    up/down/flat class of a change, the bar widths of an ETF flow card, and
    the premium and ratio cards computed from the live state. */
module Dashboard {
  import opened Common
  import opened Json
  import JsNumber
  import Gateway

  // ----- cls -----

  /** The colour class of a change. */
  datatype Trend = Up | Down | Flat

  /** `cls(v)`: flat for anything that is not a number, for NaN and for a
      magnitude below 0.005; otherwise the sign decides. */
  function Cls(v: Value): (t: Trend)
    ensures t == Up <==> v.Number? && (v.n.PosInf? || (v.n.Finite? && v.n.r >= 0.005))
    ensures t == Down <==> v.Number? && (v.n.NegInf? || (v.n.Finite? && v.n.r <= -0.005))
  {
    if !v.Number? || v.n.NaN? then Flat
    else if JsNumber.Less(JsNumber.Abs(v.n), Finite(0.005)) then Flat
    else if JsNumber.Less(Finite(0.0), v.n) then Up
    else if JsNumber.Less(v.n, Finite(0.0)) then Down
    else Flat
  }

  /** The classes of a change and of its negation mirror each other. */
  lemma ClsOfNegation(n: Num)
    ensures Cls(Number(n)) == Up <==> Cls(Number(JsNumber.Neg(n))) == Down
    ensures Cls(Number(n)) == Flat <==> Cls(Number(JsNumber.Neg(n))) == Flat
  {
  }

  // ----- flowCard -----

  function AbsReal(x: real): (r: real)
    ensures r >= 0.0 && (r == x || r == -x)
  {
    if x < 0.0 then -x else x
  }

  /** `Math.max(...history.map((h) => Math.abs(h.flow)), 1)`. */
  function MaxAbs(flows: seq<real>): (m: real)
    ensures m >= 1.0
    ensures forall i :: 0 <= i < |flows| ==> AbsReal(flows[i]) <= m
    ensures m == 1.0 || exists i :: 0 <= i < |flows| && m == AbsReal(flows[i])
    decreases |flows|
  {
    if flows == [] then 1.0
    else
      var rest := MaxAbs(flows[1..]);
      assert forall i :: 1 <= i < |flows| ==> flows[i] == flows[1..][i - 1];
      if AbsReal(flows[0]) > rest then AbsReal(flows[0]) else rest
  }

  /** A share of the largest magnitude, in percent, is at most 100. */
  lemma ShareAtMostHundred(a: real, m: real)
    requires 0.0 <= a && m > 0.0
    ensures a <= m ==> 0.0 <= (a / m) * 100.0 <= 100.0
  {
    if a <= m {
      assert a / m <= 1.0;
    }
  }

  /** Shares of one positive whole grow with the part. */
  lemma ShareMonotone(a: real, b: real, m: real)
    requires 0.0 <= a <= b && m > 0.0
    ensures (a / m) * 100.0 <= (b / m) * 100.0
  {
    var x, y := a / m, b / m;
    assert x * m == a && y * m == b;
    assert (y - x) * m == b - a;
  }

  /** The whole is a share of 100 percent of itself. */
  lemma ShareOfWhole(m: real)
    requires m > 0.0
    ensures (m / m) * 100.0 == 100.0
  {
  }

  /** `Math.max(6, (Math.abs(flow) / maxAbs) * 100)`. */
  function BarWidth(flow: real, maxAbs: real): (w: real)
    requires maxAbs >= 1.0
    ensures w >= 6.0
    ensures w == 6.0 || w == (AbsReal(flow) / maxAbs) * 100.0
    ensures AbsReal(flow) <= maxAbs ==> w <= 100.0
  {
    var share := (AbsReal(flow) / maxAbs) * 100.0;
    ShareAtMostHundred(AbsReal(flow), maxAbs);
    if share > 6.0 then share else 6.0
  }

  /** The bar widths of a flow card, one per history entry. */
  function FlowWidths(flows: seq<real>): (ws: seq<real>)
    ensures |ws| == |flows|
    ensures forall i :: 0 <= i < |ws| ==> 6.0 <= ws[i] <= 100.0
  {
    var m := MaxAbs(flows);
    seq(|flows|, i requires 0 <= i < |flows| => BarWidth(flows[i], m))
  }

  /** A larger flow never gets a narrower bar. */
  lemma FlowWidthsMonotone(flows: seq<real>, i: nat, j: nat)
    requires i < |flows| && j < |flows| && AbsReal(flows[i]) <= AbsReal(flows[j])
    ensures FlowWidths(flows)[i] <= FlowWidths(flows)[j]
  {
    var m := MaxAbs(flows);
    ShareMonotone(AbsReal(flows[i]), AbsReal(flows[j]), m);
  }

  /** The bar of the largest flow is full width once that flow is at least
      1 in magnitude. */
  lemma WidestBarIsFull(flows: seq<real>, i: nat)
    requires i < |flows| && AbsReal(flows[i]) >= 1.0
    requires forall j :: 0 <= j < |flows| ==> AbsReal(flows[j]) <= AbsReal(flows[i])
    ensures FlowWidths(flows)[i] == 100.0
  {
    var m := MaxAbs(flows);
    assert m == AbsReal(flows[i]);
    ShareOfWhole(m);
  }

  // ----- renderCategoryCards -----

  /** `typeof v === "number" ? v : null`, for a value that must also be a
      finite number to be used in real arithmetic. */
  function FiniteOf(v: Value): (r: Option<real>)
    ensures r.Some? <==> v.Number? && v.n.Finite?
    ensures r.Some? ==> r.value == v.n.r
  {
    if v.Number? && v.n.Finite? then Some(v.n.r) else None
  }

  /** `btcKrw`: the BTC price in won, when the BTC price and the exchange
      rate are both numbers. */
  function BtcKrw(btcPrice: Value, usdKrw: Value): (r: Option<Num>)
    ensures r.Some? <==> btcPrice.Number? && usdKrw.Number?
    ensures r.Some? && btcPrice.n.Finite? && usdKrw.n.Finite? ==> r.value == Finite(btcPrice.n.r * usdKrw.n.r)
  {
    if btcPrice.Number? && usdKrw.Number? then Some(JsNumber.Mul(btcPrice.n, usdKrw.n)) else None
  }

  /** `((spot - base) / base) * 100` in JavaScript arithmetic. */
  function PremiumArith(spot: Num, base: Num): (r: Num)
    ensures spot.Finite? && base.Finite? && base.r != 0.0
            ==> r.Finite? && Gateway.IsPremium(r.r, spot.r, base.r)
  {
    var p := JsNumber.Mul(JsNumber.Div(JsNumber.Sub(spot, base), base), Finite(100.0));
    assert spot.Finite? && base.Finite? && base.r != 0.0 ==> p == Finite(((spot.r - base.r) / base.r) * 100.0);
    p
  }

  /** `kimchi` as written: the Upbit premium over the dollar price in won,
      computed whenever both are numbers, including a zero BTC price. */
  function KimchiAsWritten(upbit: Value, btcPrice: Value, usdKrw: Value): (r: Option<Num>)
    ensures r.Some? <==> upbit.Number? && btcPrice.Number? && usdKrw.Number?
    ensures r.Some? && upbit.n.Finite? && BtcKrw(btcPrice, usdKrw).value.Finite?
            && BtcKrw(btcPrice, usdKrw).value.r != 0.0
            ==> r.value.Finite? && Gateway.IsPremium(r.value.r, upbit.n.r, BtcKrw(btcPrice, usdKrw).value.r)
  {
    var krw := BtcKrw(btcPrice, usdKrw);
    if upbit.Number? && krw.Some? then Some(PremiumArith(upbit.n, krw.value)) else None
  }

  /** A positive amount over a zero base is an infinite premium. */
  lemma PremiumArithOverZero(spot: real)
    requires spot > 0.0
    ensures PremiumArith(Finite(spot), Finite(0.0)) == PosInf
  {
    assert JsNumber.Sub(Finite(spot), Finite(0.0)) == Finite(spot);
    assert JsNumber.Div(Finite(spot), Finite(0.0)) == PosInf;
  }

  /** With a BTC price of 0 the page shows an infinite kimchi premium. */
  lemma KimchiAsWrittenAtZeroPrice()
    ensures KimchiAsWritten(Number(Finite(100000000.0)), Number(Finite(0.0)), Number(Finite(1300.0)))
            == Some(PosInf)
  {
    assert BtcKrw(Number(Finite(0.0)), Number(Finite(1300.0))) == Some(Finite(0.0));
    PremiumArithOverZero(100000000.0);
  }

  /** `kimchi` with the guard the gateway applies to its premium: absent
      unless the Upbit price, the BTC price and the exchange rate are
      finite and the price in won is not 0. */
  function Kimchi(upbit: Value, btcPrice: Value, usdKrw: Value): (r: Option<real>)
    ensures r.Some? <==> upbit.Number? && upbit.n.Finite? && btcPrice.Number? && btcPrice.n.Finite?
                         && usdKrw.Number? && usdKrw.n.Finite? && btcPrice.n.r * usdKrw.n.r != 0.0
    ensures r.Some? ==> Gateway.IsPremium(r.value, upbit.n.r, btcPrice.n.r * usdKrw.n.r)
  {
    var krw := if btcPrice.Number? && btcPrice.n.Finite? && usdKrw.Number? && usdKrw.n.Finite?
               then Some(btcPrice.n.r * usdKrw.n.r) else None;
    Gateway.PremiumPct(FiniteOf(upbit), krw)
  }

  /** A premium over a non-zero base is unique. */
  lemma PremiumUnique(p: real, q: real, spot: real, base: real)
    requires base != 0.0 && Gateway.IsPremium(p, spot, base) && Gateway.IsPremium(q, spot, base)
    ensures p == q
  {
    assert (p - q) * base == 0.0;
  }

  /** Where the guarded premium is defined it agrees with the source's
      arithmetic. */
  lemma KimchiAgreesWhenDefined(upbit: Value, btcPrice: Value, usdKrw: Value)
    requires Kimchi(upbit, btcPrice, usdKrw).Some?
    ensures KimchiAsWritten(upbit, btcPrice, usdKrw) == Some(Finite(Kimchi(upbit, btcPrice, usdKrw).value))
  {
    var krw := BtcKrw(btcPrice, usdKrw).value;
    assert krw == Finite(btcPrice.n.r * usdKrw.n.r);
    var r := KimchiAsWritten(upbit, btcPrice, usdKrw).value;
    PremiumUnique(r.r, Kimchi(upbit, btcPrice, usdKrw).value, upbit.n.r, krw.r);
  }

  /** `coinbasePremium` as written: `state.live.coinbaseBtc || null` against
      the BTC price, with no guard on a zero BTC price. */
  function CoinbasePremiumAsWritten(coinbase: Value, btcPrice: Value): (r: Option<Num>)
    ensures r.Some? <==> Or(coinbase, Null).Number? && btcPrice.Number?
    ensures r.Some? && coinbase.n.Finite? && btcPrice.n.Finite? && btcPrice.n.r != 0.0
            ==> r.value.Finite? && Gateway.IsPremium(r.value.r, coinbase.n.r, btcPrice.n.r)
  {
    var cb := Or(coinbase, Null);
    if cb.Number? && btcPrice.Number? then Some(PremiumArith(cb.n, btcPrice.n)) else None
  }

  /** A zero BTC price next to an earlier Coinbase estimate gives an
      infinite Coinbase premium. */
  lemma CoinbasePremiumAsWrittenAtZeroPrice()
    ensures CoinbasePremiumAsWritten(Number(Finite(60000.0)), Number(Finite(0.0))) == Some(PosInf)
  {
    assert Or(Number(Finite(60000.0)), Null) == Number(Finite(60000.0));
    PremiumArithOverZero(60000.0);
  }

  /** `coinbasePremium` with the gateway's guard. */
  function CoinbasePremiumCard(coinbase: Value, btcPrice: Value): (r: Option<real>)
    ensures r.Some? <==> Truthy(coinbase) && coinbase.Number? && coinbase.n.Finite?
                         && btcPrice.Number? && btcPrice.n.Finite? && btcPrice.n.r != 0.0
    ensures r.Some? ==> Gateway.IsPremium(r.value, coinbase.n.r, btcPrice.n.r)
  {
    Gateway.PremiumPct(FiniteOf(Or(coinbase, Null)), FiniteOf(btcPrice))
  }

  /** `ethBtcRatio` as written: `eth.price / btc.price` whenever both are
      numbers. */
  function EthBtcRatioAsWritten(ethPrice: Value, btcPrice: Value): (r: Option<Num>)
    ensures r.Some? <==> ethPrice.Number? && btcPrice.Number?
    ensures r.Some? && ethPrice.n.Finite? && btcPrice.n.Finite? && btcPrice.n.r != 0.0
            ==> r.value.Finite? && r.value.r * btcPrice.n.r == ethPrice.n.r
  {
    if ethPrice.Number? && btcPrice.Number? then Some(JsNumber.Div(ethPrice.n, btcPrice.n)) else None
  }

  /** A zero BTC price gives an infinite ETH/BTC ratio. */
  lemma EthBtcRatioAsWrittenAtZeroPrice()
    ensures EthBtcRatioAsWritten(Number(Finite(3000.0)), Number(Finite(0.0))) == Some(PosInf)
  {
  }

  /** `ethBtcRatio` guarded against a zero BTC price. */
  function EthBtcRatio(ethPrice: Value, btcPrice: Value): (r: Option<real>)
    ensures r.Some? <==> ethPrice.Number? && ethPrice.n.Finite? && btcPrice.Number? && btcPrice.n.Finite?
                         && btcPrice.n.r != 0.0
    ensures r.Some? ==> r.value * btcPrice.n.r == ethPrice.n.r
  {
    if ethPrice.Number? && ethPrice.n.Finite? && btcPrice.Number? && btcPrice.n.Finite? && btcPrice.n.r != 0.0
    then Some(ethPrice.n.r / btcPrice.n.r)
    else None
  }
}

=== FILE: dashboard_live.dfy ===
/** The carry-forward merge of `fetchLive` in dashboard/app.js: every field
    of the browser's live state takes the freshly fetched value when there
    is one, else keeps the previous value, else becomes null. Each field
    falls back on its own. The six upstream calls arrive as settled
    outcomes; the previous state is passed in and the new state returned. */
module DashboardLive {
  import opened Common
  import opened Json
  import JsNumber

  /** The reference rule for one field: the fetched value unless it is
      null or undefined, then the previous value unless it is, then null. */
  predicate CarriedForward(r: Value, fetched: Value, prev: Value) {
    if !IsNullish(fetched) then r == fetched
    else if !IsNullish(prev) then r == prev
    else r == Null
  }

  /** `fetched ?? prev ?? null`. */
  function CarryForward(fetched: Value, prev: Value): (r: Value)
    ensures CarriedForward(r, fetched, prev)
    ensures !r.Undefined?
  {
    Coalesce(Coalesce(fetched, prev), Null)
  }

  /** The coins of the live state with their CoinGecko ids. */
  const CoinIds: seq<(string, string)> := [
    ("BTC", "bitcoin"), ("ETH", "ethereum"), ("BNB", "binancecoin"), ("SOL", "solana"),
    ("XRP", "ripple"), ("DOGE", "dogecoin"), ("ADA", "cardano"), ("TRX", "tron"),
    ("AVAX", "avalanche-2"), ("LINK", "chainlink"), ("SUI", "sui"), ("XLM", "stellar"),
    ("TON", "toncoin"), ("HBAR", "hedera-hashgraph")]

  /** The new record of one coin: price and change, each carried forward
      on its own. */
  function CoinRecord(simple: Value, prev: Value, sym: string, id: string): (r: Value)
    ensures r.Obj? && r.fields.Keys == {"price", "change"}
    ensures CarriedForward(r.fields["price"], Path(simple, [id, "usd"]), Path(prev, [sym, "price"]))
    ensures CarriedForward(r.fields["change"], Path(simple, [id, "usd_24h_change"]), Path(prev, [sym, "change"]))
  {
    Obj(map["price" := CarryForward(Path(simple, [id, "usd"]), Path(prev, [sym, "price"])),
            "change" := CarryForward(Path(simple, [id, "usd_24h_change"]), Path(prev, [sym, "change"]))])
  }

  /** No later coin in the list has the symbol of coin `i`. */
  predicate LastWithSymbol(coins: seq<(string, string)>, i: nat)
    requires i < |coins|
  {
    forall j :: i < j < |coins| ==> coins[j].0 != coins[i].0
  }

  /** The symbols of a coin list. */
  function Symbols(coins: seq<(string, string)>): set<string>
    decreases |coins|
  {
    if coins == [] then {} else Symbols(coins[..|coins| - 1]) + {coins[|coins| - 1].0}
  }

  lemma {:induction false} SymbolsHas(coins: seq<(string, string)>, i: nat)
    requires i < |coins|
    ensures coins[i].0 in Symbols(coins)
    decreases |coins|
  {
    if i < |coins| - 1 {
      SymbolsHas(coins[..|coins| - 1], i);
    }
  }

  /** `Object.entries(map).forEach(...)`: writes one record per coin over
      the copied previous state, in list order. */
  function PutCoins(m: map<string, Value>, simple: Value, prev: Value, coins: seq<(string, string)>)
    : (r: map<string, Value>)
    ensures r.Keys == m.Keys + Symbols(coins)
    decreases |coins|
  {
    if coins == [] then m
    else
      var n := |coins| - 1;
      PutCoins(m, simple, prev, coins[..n])[coins[n].0 := CoinRecord(simple, prev, coins[n].0, coins[n].1)]
  }

  /** A key no coin writes keeps its previous value. */
  lemma {:induction false} PutCoinsKeeps(m: map<string, Value>, simple: Value, prev: Value,
                                         coins: seq<(string, string)>, k: string)
    requires k in m && k !in Symbols(coins)
    ensures k in PutCoins(m, simple, prev, coins)
    ensures PutCoins(m, simple, prev, coins)[k] == m[k]
    decreases |coins|
  {
    if coins != [] {
      var n := |coins| - 1;
      PutCoinsKeeps(m, simple, prev, coins[..n], k);
    }
  }

  /** Each coin's record is written, and a later coin with the same symbol
      would overwrite an earlier one. */
  lemma {:induction false} PutCoinsWrites(m: map<string, Value>, simple: Value, prev: Value,
                                          coins: seq<(string, string)>, i: nat)
    requires i < |coins| && LastWithSymbol(coins, i)
    ensures coins[i].0 in PutCoins(m, simple, prev, coins)
    ensures PutCoins(m, simple, prev, coins)[coins[i].0] == CoinRecord(simple, prev, coins[i].0, coins[i].1)
    decreases |coins|
  {
    var n := |coins| - 1;
    var init := coins[..n];
    SymbolsHas(coins, i);
    if i < n {
      assert init[i] == coins[i];
      forall j | i < j < n
        ensures init[j].0 != init[i].0
      {
        assert init[j] == coins[j];
      }
      PutCoinsWrites(m, simple, prev, init, i);
      assert coins[n].0 != coins[i].0;
    }
  }

  /** `Number(fg?.data?.[0]?.value) || prevLive?.fearGreed || null`. */
  function FearGreedCarry(fetched: Value, prev: Value): (r: Value)
    ensures Truthy(r) || r == Null
    ensures Truthy(Number(JsNumber.ToNumber(fetched))) ==> r == Number(JsNumber.ToNumber(fetched))
    ensures !Truthy(Number(JsNumber.ToNumber(fetched))) && Truthy(prev) ==> r == prev
    ensures r == Null <==> !Truthy(Number(JsNumber.ToNumber(fetched))) && !Truthy(prev)
  {
    Or(Or(Number(JsNumber.ToNumber(fetched)), prev), Null)
  }

  /** A fetched index of 0 is not stored: the previous value stays. */
  lemma FearGreedZeroKeepsPrevious(prev: Value)
    requires Truthy(prev)
    ensures FearGreedCarry(Number(Finite(0.0)), prev) == prev
    ensures FearGreedCarry(Str(""), prev) == prev
  {
    assert JsNumber.ToNumber(Str("")) == Finite(0.0) by {
      JsNumber.ToNumberOfEmpty();
    }
  }

  /** `Array.isArray(upbit) ? upbit[0]?.trade_price ?? prev ?? null : prev ?? null`. */
  function UpbitCarry(upbit: Value, prev: Value): (r: Value)
    ensures upbit.Arr? ==> CarriedForward(r, Get(At(upbit, 0), "trade_price"), prev)
    ensures !upbit.Arr? ==> CarriedForward(r, Undefined, prev)
  {
    if upbit.Arr? then CarryForward(Get(At(upbit, 0), "trade_price"), prev)
    else Coalesce(prev, Null)
  }

  /** `live.BTC?.price ? live.BTC.price * 0.9991 : prev ?? null`: an
      estimate of the Coinbase price from the new BTC price, or the
      previous estimate. */
  function CoinbaseEstimate(btcPrice: Value, prev: Value): (r: Value)
    ensures Truthy(btcPrice) ==> r == Number(JsNumber.Mul(JsNumber.ToNumber(btcPrice), Finite(0.9991)))
    ensures !Truthy(btcPrice) ==> CarriedForward(r, Undefined, prev)
  {
    if Truthy(btcPrice) then Number(JsNumber.Mul(JsNumber.ToNumber(btcPrice), Finite(0.9991)))
    else Coalesce(prev, Null)
  }

  /** The six upstream outcomes of one refresh. */
  datatype LiveInputs = LiveInputs(
    simple: Settled<Value>, global: Settled<Value>, fearGreed: Settled<Value>,
    fx: Settled<Value>, upbit: Settled<Value>, markets: Settled<Value>)

  /** The parts of the browser state a refresh reads and writes: the `live`
      object, the `fx` object and the market rows. */
  datatype DashState = DashState(live: map<string, Value>, fx: map<string, Value>, markets: seq<Value>)

  /** The keys of `live` a refresh writes besides the coins. */
  const ExtraKeys: set<string> := MarketWideKeys + BtcPriceKeys

  /** The market-wide keys: dominance and the fear and greed index. */
  const MarketWideKeys: set<string> := {"dominance", "fearGreed"}

  /** The keys derived from the BTC price in won and in dollars. */
  const BtcPriceKeys: set<string> := {"upbitBtcKrw", "coinbaseBtc"}

  /** The keys of `live` a refresh writes. */
  function TouchedKeys(): set<string> {
    Symbols(CoinIds) + ExtraKeys
  }

  /** `markets` replaces the rows only when it is a non-empty array. */
  function NextMarkets(fetched: Value, current: seq<Value>): (r: seq<Value>)
    ensures fetched.Arr? && fetched.items != [] ==> r == fetched.items
    ensures !(fetched.Arr? && fetched.items != []) ==> r == current
  {
    if fetched.Arr? && |fetched.items| > 0 then fetched.items else current
  }

  /** The `dominance` record: BTC and ETH shares, each carried forward. */
  function DominanceRecord(global: Value, prev: Value): (r: Value)
    ensures r.Obj? && r.fields.Keys == {"btc", "eth"}
    ensures CarriedForward(r.fields["btc"], Path(global, ["data", "market_cap_percentage", "btc"]),
                           Path(prev, ["dominance", "btc"]))
    ensures CarriedForward(r.fields["eth"], Path(global, ["data", "market_cap_percentage", "eth"]),
                           Path(prev, ["dominance", "eth"]))
  {
    Obj(map["btc" := CarryForward(Path(global, ["data", "market_cap_percentage", "btc"]), Path(prev, ["dominance", "btc"])),
            "eth" := CarryForward(Path(global, ["data", "market_cap_percentage", "eth"]), Path(prev, ["dominance", "eth"]))])
  }

  /** The new `fx` object: the rate carried forward, the delta always the
      previous one. */
  function FxRecord(fx: Value, prevFx: Value): (r: map<string, Value>)
    ensures r.Keys == {"usdKrw", "delta"}
    ensures CarriedForward(r["usdKrw"], Path(fx, ["rates", "KRW"]), Get(prevFx, "usdKrw"))
    ensures CarriedForward(r["delta"], Undefined, Get(prevFx, "delta"))
  {
    map["usdKrw" := CarryForward(Path(fx, ["rates", "KRW"]), Get(prevFx, "usdKrw")),
        "delta" := Coalesce(Get(prevFx, "delta"), Null)]
  }

  /** `live.dominance` and `live.fearGreed`, written over the coin records. */
  function WithMarketWide(coins: map<string, Value>, prev: Value, inp: LiveInputs): (r: map<string, Value>)
    ensures r.Keys == coins.Keys + MarketWideKeys
    ensures r["dominance"] == DominanceRecord(ValueOrNull(inp.global), prev)
    ensures Truthy(r["fearGreed"]) || r["fearGreed"] == Null
    ensures r["fearGreed"] == FearGreedCarry(Get(At(Get(ValueOrNull(inp.fearGreed), "data"), 0), "value"),
                                             Get(prev, "fearGreed"))
    ensures forall k :: k in coins && k != "dominance" && k != "fearGreed" ==> r[k] == coins[k]
  {
    coins["dominance" := DominanceRecord(ValueOrNull(inp.global), prev)]
         ["fearGreed" := FearGreedCarry(Get(At(Get(ValueOrNull(inp.fearGreed), "data"), 0), "value"),
                                        Get(prev, "fearGreed"))]
  }

  /** `state.live.upbitBtcKrw` and `state.live.coinbaseBtc`, the latter
      computed from the BTC record already in the new state. */
  function WithBtcPrices(m: map<string, Value>, prev: Value, inp: LiveInputs): (r: map<string, Value>)
    ensures r.Keys == m.Keys + BtcPriceKeys
    ensures r["upbitBtcKrw"] == UpbitCarry(ValueOrNull(inp.upbit), Get(prev, "upbitBtcKrw"))
    ensures r["coinbaseBtc"] == CoinbaseEstimate(Get(Get(Obj(r), "BTC"), "price"), Get(prev, "coinbaseBtc"))
    ensures forall k :: k in m && k != "upbitBtcKrw" && k != "coinbaseBtc" ==> r[k] == m[k]
  {
    assert "BTC" != "upbitBtcKrw" && "BTC" != "coinbaseBtc";
    m["upbitBtcKrw" := UpbitCarry(ValueOrNull(inp.upbit), Get(prev, "upbitBtcKrw"))]
     ["coinbaseBtc" := CoinbaseEstimate(Get(Get(Obj(m), "BTC"), "price"), Get(prev, "coinbaseBtc"))]
  }

  /** One refresh of `fetchLive` (the body of its `try`). */
  function FetchLive(s: DashState, inp: LiveInputs): (r: DashState)
    ensures r.live.Keys == s.live.Keys + TouchedKeys()
  {
    var prev := Obj(s.live);
    var coins := PutCoins(s.live, ValueOrNull(inp.simple), prev, CoinIds);
    DashState(WithBtcPrices(WithMarketWide(coins, prev, inp), prev, inp), FxRecord(ValueOrNull(inp.fx), Obj(s.fx)),
              NextMarkets(ValueOrNull(inp.markets), s.markets))
  }

  /** No two coins share a symbol, and no coin symbol is one of the other
      keys a refresh writes. */
  lemma CoinSymbolsDistinct()
    ensures forall i, j :: 0 <= i < j < |CoinIds| ==> CoinIds[i].0 != CoinIds[j].0
    ensures forall i :: 0 <= i < |CoinIds| ==> CoinIds[i].0 !in ExtraKeys
  {
  }

  /** Every coin gets its new record: price and change each carried
      forward from the CoinGecko answer and the previous record. */
  lemma FetchLiveCoin(s: DashState, inp: LiveInputs, i: nat)
    requires i < |CoinIds|
    ensures CoinIds[i].0 in FetchLive(s, inp).live
    ensures FetchLive(s, inp).live[CoinIds[i].0]
            == CoinRecord(ValueOrNull(inp.simple), Obj(s.live), CoinIds[i].0, CoinIds[i].1)
  {
    CoinSymbolsDistinct();
    assert LastWithSymbol(CoinIds, i);
    PutCoinsWrites(s.live, ValueOrNull(inp.simple), Obj(s.live), CoinIds, i);
  }

  /** Dominance is carried forward field by field and the Upbit price as a
      whole. */
  lemma FetchLiveCarried(s: DashState, inp: LiveInputs)
    ensures "dominance" in FetchLive(s, inp).live && "upbitBtcKrw" in FetchLive(s, inp).live
    ensures FetchLive(s, inp).live["dominance"] == DominanceRecord(ValueOrNull(inp.global), Obj(s.live))
    ensures FetchLive(s, inp).live["upbitBtcKrw"]
            == UpbitCarry(ValueOrNull(inp.upbit), Get(Obj(s.live), "upbitBtcKrw"))
  {
  }

  /** The fear and greed index is the fetched one when that is truthy,
      else the previous one when truthy, else null; the Coinbase estimate
      is taken from the new BTC price. */
  lemma FetchLiveDerived(s: DashState, inp: LiveInputs)
    ensures "fearGreed" in FetchLive(s, inp).live && "coinbaseBtc" in FetchLive(s, inp).live
    ensures Truthy(FetchLive(s, inp).live["fearGreed"]) || FetchLive(s, inp).live["fearGreed"] == Null
    ensures FetchLive(s, inp).live["fearGreed"]
            == FearGreedCarry(Get(At(Get(ValueOrNull(inp.fearGreed), "data"), 0), "value"),
                              Get(Obj(s.live), "fearGreed"))
    ensures FetchLive(s, inp).live["coinbaseBtc"]
            == CoinbaseEstimate(Get(Get(Obj(FetchLive(s, inp).live), "BTC"), "price"), Get(Obj(s.live), "coinbaseBtc"))
  {
  }

  /** The exchange rate is carried forward and the delta kept; the market
      rows are replaced only by a non-empty array. */
  lemma FetchLiveFxAndMarkets(s: DashState, inp: LiveInputs)
    ensures FetchLive(s, inp).fx.Keys == {"usdKrw", "delta"}
    ensures CarriedForward(FetchLive(s, inp).fx["usdKrw"], Path(ValueOrNull(inp.fx), ["rates", "KRW"]),
                           Get(Obj(s.fx), "usdKrw"))
    ensures CarriedForward(FetchLive(s, inp).fx["delta"], Undefined, Get(Obj(s.fx), "delta"))
    ensures ValueOrNull(inp.markets).Arr? && ValueOrNull(inp.markets).items != []
            ==> FetchLive(s, inp).markets == ValueOrNull(inp.markets).items
    ensures !(ValueOrNull(inp.markets).Arr? && ValueOrNull(inp.markets).items != [])
            ==> FetchLive(s, inp).markets == s.markets
  {
  }

  /** A key of the previous live object that the refresh does not write is
      kept unchanged. */
  lemma FetchLiveKeeps(s: DashState, inp: LiveInputs, k: string)
    requires k in s.live && k !in TouchedKeys()
    ensures FetchLive(s, inp).live[k] == s.live[k]
  {
    PutCoinsKeeps(s.live, ValueOrNull(inp.simple), Obj(s.live), CoinIds, k);
  }

  /** A failed CoinGecko call keeps every coin's previous price and change. */
  lemma FailedFetchKeepsPrices(s: DashState, inp: LiveInputs, reason: string, i: nat)
    requires inp.simple == Rejected(reason) && i < |CoinIds|
    ensures CoinIds[i].0 in FetchLive(s, inp).live
    ensures Get(FetchLive(s, inp).live[CoinIds[i].0], "price") == CarryForward(Undefined, Path(Obj(s.live), [CoinIds[i].0, "price"]))
    ensures Get(FetchLive(s, inp).live[CoinIds[i].0], "change") == CarryForward(Undefined, Path(Obj(s.live), [CoinIds[i].0, "change"]))
  {
    FetchLiveCoin(s, inp, i);
    PathOfUndefined(["usd"]);
    PathOfUndefined(["usd_24h_change"]);
  }
}

=== FILE: dashboard_markets.dfy ===
/** The top-markets table of dashboard/app.js (`renderCryptoTopTable`):
    the search filter, the movers filter, the descending sort on one of
    four keys and the cut to twenty rows. A row that makes the filter or
    the sort throw (reading a property of null, lower-casing a symbol that
    is not a string) makes the whole render raise; throws in the row
    template are not modelled. */
module DashboardMarkets {
  import opened Common
  import opened Json
  import JsNumber
  import Text

  /** The search text as compared: trimmed and lower-cased. */
  function Query(search: string): (q: string)
    ensures |q| <= |search|
  {
    Text.Lower(Text.JsTrim(search))
  }

  /** `(m.name || "")` of a row. */
  function NameOf(m: Value): Value {
    Or(Get(m, "name"), Str(""))
  }

  /** `m.symbol.toLowerCase().includes(q) || (m.name || "").toLowerCase().includes(q)`:
      the name is only looked at when the symbol does not match, and
      lower-casing anything but a string throws. */
  function MatchesQuery(m: Value, q: string): (r: Result<bool>)
    ensures r == Ok(true) <==> (Get(m, "symbol").Str?
                                && (Text.Contains(Text.Lower(Get(m, "symbol").s), q)
                                    || (NameOf(m).Str? && Text.Contains(Text.Lower(NameOf(m).s), q))))
    ensures r.Raises? <==> (!Get(m, "symbol").Str?
                            || (!Text.Contains(Text.Lower(Get(m, "symbol").s), q) && !NameOf(m).Str?))
  {
    var sym := Get(m, "symbol");
    if !sym.Str? then Raises("TypeError")
    else if Text.Contains(Text.Lower(sym.s), q) then Ok(true)
    else
      var name := NameOf(m);
      if !name.Str? then Raises("TypeError") else Ok(Text.Contains(Text.Lower(name.s), q))
  }

  /** `Math.abs(m.price_change_percentage_24h || 0)`. */
  function ChangeMagnitude(m: Value): Num {
    JsNumber.Abs(JsNumber.ToNumber(Or(Get(m, "price_change_percentage_24h"), Number(Finite(0.0)))))
  }

  /** The movers test `Math.abs(m.price_change_percentage_24h || 0) >= 1`;
      reading the field of a null row throws. */
  function IsMover(m: Value): (r: Result<bool>)
    ensures r.Raises? <==> IsNullish(m)
    ensures r == Ok(true) <==> (!IsNullish(m)
                                && (ChangeMagnitude(m).PosInf? || (ChangeMagnitude(m).Finite? && ChangeMagnitude(m).r >= 1.0)))
  {
    if IsNullish(m) then Raises("TypeError")
    else
      var a := ChangeMagnitude(m);
      Ok(!a.NaN? && !JsNumber.Less(a, Finite(1.0)))
  }

  /** `list.filter(p)` with a test that may throw: the first throwing row
      aborts the whole filter. */
  function FilterRows(rows: seq<Value>, p: Value -> Result<bool>): (r: Result<seq<Value>>)
    ensures r.Raises? <==> exists i :: 0 <= i < |rows| && p(rows[i]).Raises?
    ensures r.Ok? ==> IsSubsequence(r.value, rows)
    ensures r.Ok? ==> forall x :: x in r.value ==> p(x) == Ok(true)
    ensures r.Ok? ==> forall i :: 0 <= i < |rows| && p(rows[i]) == Ok(true) ==> rows[i] in r.value
    ensures r.Ok? ==> forall x :: multiset(r.value)[x] == if p(x) == Ok(true) then multiset(rows)[x] else 0
    decreases |rows|
  {
    if rows == [] then Ok([])
    else
      var head := p(rows[0]);
      var tail := FilterRows(rows[1..], p);
      assert forall i :: 1 <= i < |rows| ==> rows[i] == rows[1..][i - 1];
      assert multiset(rows) == multiset{rows[0]} + multiset(rows[1..]) by {
        assert rows == [rows[0]] + rows[1..];
      }
      if head.Raises? then Raises(head.error)
      else if tail.Raises? then Raises(tail.error)
      else if head.value then
        assert ([rows[0]] + tail.value)[1..] == tail.value;
        assert multiset([rows[0]] + tail.value) == multiset{rows[0]} + multiset(tail.value);
        Ok([rows[0]] + tail.value)
      else
        SubsequenceSkip(tail.value, rows);
        Ok(tail.value)
  }

  /** The choices of the sort menu. */
  datatype SortKey = MarketCap | Price | Change | Volume

  /** The row field behind each sort choice. */
  function Field(choice: SortKey): string {
    match choice
    case MarketCap => "market_cap"
    case Price => "current_price"
    case Change => "price_change_percentage_24h"
    case Volume => "total_volume"
  }

  /** `sortMap[sortBy](m)`: the field, or 0 when it is falsy, as a number;
      in magnitude for the change. */
  function SortValue(m: Value, choice: SortKey): (k: Num)
    ensures choice == Change ==> k == ChangeMagnitude(m)
    ensures choice != Change ==> k == JsNumber.ToNumber(Or(Get(m, Field(choice)), Number(Finite(0.0))))
  {
    var v := JsNumber.ToNumber(Or(Get(m, Field(choice)), Number(Finite(0.0))));
    if choice == Change then JsNumber.Abs(v) else v
  }

  /** The comparator `(a, b) => key(b) - key(a)` puts `b` first exactly
      when its result is positive. */
  predicate GoesAfter(a: Value, b: Value, key: Value -> Num) {
    JsNumber.Positive(JsNumber.Sub(key(b), key(a)))
  }

  /** Inserting `x` into a sorted run: it moves past the rows the
      comparator puts first and stays ahead of the rest, which keeps equal
      keys in their original order. */
  function Insert(x: Value, ys: seq<Value>, key: Value -> Num): (r: seq<Value>)
    ensures multiset(r) == multiset(ys) + multiset{x}
    decreases |ys|
  {
    if ys == [] || !GoesAfter(x, ys[0], key) then [x] + ys
    else
      assert ys == [ys[0]] + ys[1..];
      [ys[0]] + Insert(x, ys[1..], key)
  }

  /** `list.sort(comparator)`, as a stable insertion sort. */
  function SortRows(xs: seq<Value>, key: Value -> Num): (r: seq<Value>)
    ensures multiset(r) == multiset(xs)
    decreases |xs|
  {
    if xs == [] then []
    else
      assert xs == [xs[0]] + xs[1..];
      Insert(xs[0], SortRows(xs[1..], key), key)
  }

  /** Keys never increase along the rows. */
  predicate SortedDesc(rs: seq<Value>, key: Value -> Num) {
    forall i, j :: 0 <= i < j < |rs| ==> !JsNumber.Less(key(rs[i]), key(rs[j]))
  }

  /** No row has a NaN key. */
  predicate KeysAreNumbers(rs: seq<Value>, key: Value -> Num) {
    forall x :: x in rs ==> !key(x).NaN?
  }

  /** A row whose key is at least every key of a sorted run can lead it. */
  lemma PrependSorted(y: Value, rest: seq<Value>, key: Value -> Num)
    requires SortedDesc(rest, key)
    requires forall z :: z in rest ==> !JsNumber.Less(key(y), key(z))
    ensures SortedDesc([y] + rest, key)
  {
    var r := [y] + rest;
    forall i, j | 0 <= i < j < |r|
      ensures !JsNumber.Less(key(r[i]), key(r[j]))
    {
      assert r[j] == rest[j - 1];
      if i > 0 {
        assert r[i] == rest[i - 1];
      }
    }
  }

  /** The head of a sorted run without NaN keys has the largest key. */
  lemma HeadIsLargest(ys: seq<Value>, key: Value -> Num)
    requires ys != [] && SortedDesc(ys, key) && KeysAreNumbers(ys, key)
    ensures forall z :: z in ys ==> !JsNumber.Less(key(ys[0]), key(z))
  {
    forall z | z in ys ensures !JsNumber.Less(key(ys[0]), key(z)) {
      var k :| 0 <= k < |ys| && ys[k] == z;
      if k == 0 {
        JsNumber.LessTotal(key(z), key(z));
      }
    }
  }

  /** The tail of a sorted run is sorted. */
  lemma TailSorted(ys: seq<Value>, key: Value -> Num)
    requires ys != [] && SortedDesc(ys, key) && KeysAreNumbers(ys, key)
    ensures SortedDesc(ys[1..], key) && KeysAreNumbers(ys[1..], key)
  {
    var tail := ys[1..];
    forall i, j | 0 <= i < j < |tail|
      ensures !JsNumber.Less(key(tail[i]), key(tail[j]))
    {
      assert tail[i] == ys[i + 1] && tail[j] == ys[j + 1];
    }
    forall y | y in tail ensures !key(y).NaN? {
      assert y in ys;
    }
  }

  lemma {:induction false} InsertSorted(x: Value, ys: seq<Value>, key: Value -> Num)
    requires SortedDesc(ys, key) && KeysAreNumbers(ys, key) && !key(x).NaN?
    ensures SortedDesc(Insert(x, ys, key), key)
    decreases |ys|
  {
    if ys == [] {
    } else {
      HeadIsLargest(ys, key);
      JsNumber.PositiveDifference(key(x), key(ys[0]));
      if !GoesAfter(x, ys[0], key) {
        forall z | z in ys ensures !JsNumber.Less(key(x), key(z)) {
          JsNumber.NotLessTransitive(key(x), key(ys[0]), key(z));
        }
        PrependSorted(x, ys, key);
      } else {
        var tail := ys[1..];
        TailSorted(ys, key);
        InsertSorted(x, tail, key);
        var rest := Insert(x, tail, key);
        forall z | z in rest ensures !JsNumber.Less(key(ys[0]), key(z)) {
          assert z in multiset(rest);
          if z == x {
            JsNumber.LessTotal(key(x), key(ys[0]));
          } else {
            assert z in tail;
          }
        }
        PrependSorted(ys[0], rest, key);
      }
    }
  }

  /** With no NaN key, the sort orders the rows by non-increasing key. */
  lemma {:induction false} SortRowsSorted(xs: seq<Value>, key: Value -> Num)
    requires KeysAreNumbers(xs, key)
    ensures SortedDesc(SortRows(xs, key), key)
    decreases |xs|
  {
    if xs != [] {
      var tail := xs[1..];
      assert KeysAreNumbers(tail, key) by {
        forall y | y in tail ensures !key(y).NaN? {
          assert y in xs;
        }
      }
      SortRowsSorted(tail, key);
      var sorted := SortRows(tail, key);
      assert KeysAreNumbers(sorted, key) by {
        forall y | y in sorted ensures !key(y).NaN? {
          assert y in multiset(sorted);
          assert y in tail;
        }
      }
      InsertSorted(xs[0], sorted, key);
    }
  }

  /** The number of rows the table shows at most. */
  const TableRows: nat := 20

  /** `list.slice(0, n)`. */
  function Take(rows: seq<Value>, n: nat): (r: seq<Value>)
    ensures |r| == if |rows| <= n then |rows| else n
    ensures forall i :: 0 <= i < |r| ==> r[i] == rows[i]
  {
    if |rows| <= n then rows else rows[..n]
  }

  /** Some row is null or undefined. */
  predicate HasNullishRow(rows: seq<Value>) {
    exists i :: 0 <= i < |rows| && IsNullish(rows[i])
  }

  /** A row passes the search (when there is one) and the movers filter
      (when it is on). */
  predicate Passes(m: Value, q: string, moversOnly: bool) {
    (q == "" || MatchesQuery(m, q) == Ok(true)) && (!moversOnly || IsMover(m) == Ok(true))
  }

  /** The two filters of the table, search first: the rows of `markets`
      that pass, in their order; raises when a test throws. */
  function Filtered(markets: seq<Value>, q: string, moversOnly: bool): (r: Result<seq<Value>>)
    ensures r.Ok? ==> forall x :: x in r.value ==> x in markets && Passes(x, q, moversOnly)
    ensures r.Ok? ==> forall x :: x in markets && Passes(x, q, moversOnly) ==> x in r.value
    ensures r.Ok? ==> forall x :: multiset(r.value)[x] == if Passes(x, q, moversOnly) then multiset(markets)[x] else 0
    ensures r.Ok? ==> IsSubsequence(r.value, markets)
    ensures r.Raises? <==> (q != "" && exists i :: 0 <= i < |markets| && MatchesQuery(markets[i], q).Raises?)
                           || (moversOnly && exists i :: 0 <= i < |markets| && IsNullish(markets[i]) && Passes(markets[i], q, false))
  {
    var searched := if q != "" then FilterRows(markets, m => MatchesQuery(m, q)) else Ok(markets);
    if searched.Raises? then Raises(searched.error)
    else
      SubsequenceElements(if q != "" then searched.value else [], markets);
      SubsequenceReflexive(markets);
      var moved := if moversOnly then FilterRows(searched.value, IsMover) else Ok(searched.value);
      FilteredRaises(markets, q, moversOnly, searched.value, moved);
      if moved.Raises? then Raises(moved.error)
      else
        SubsequenceElements(if moversOnly then moved.value else [], searched.value);
        SubsequenceReflexive(searched.value);
        SubsequenceTrans(moved.value, searched.value, markets);
        FilteredCopies(markets, q, moversOnly, searched.value, moved.value);
        moved
  }

  /** The movers filter over the searched rows throws exactly when a row
      that passed the search is null or undefined. */
  lemma FilteredRaises(markets: seq<Value>, q: string, moversOnly: bool, searched: seq<Value>, moved: Result<seq<Value>>)
    requires forall x :: x in searched <==> x in markets && Passes(x, q, false)
    requires moved == if moversOnly then FilterRows(searched, IsMover) else Ok(searched)
    ensures moved.Raises? <==> moversOnly && exists i :: 0 <= i < |markets| && IsNullish(markets[i]) && Passes(markets[i], q, false)
  {
    if moversOnly && moved.Raises? {
      var i :| 0 <= i < |searched| && IsMover(searched[i]).Raises?;
      var x := searched[i];
      assert x in searched;
      var k :| 0 <= k < |markets| && markets[k] == x;
      assert IsNullish(markets[k]) && Passes(markets[k], q, false);
    }
    if moversOnly && exists i :: 0 <= i < |markets| && IsNullish(markets[i]) && Passes(markets[i], q, false) {
      var i :| 0 <= i < |markets| && IsNullish(markets[i]) && Passes(markets[i], q, false);
      var x := markets[i];
      assert x in markets;
      var k :| 0 <= k < |searched| && searched[k] == x;
      assert IsMover(searched[k]).Raises?;
    }
  }

  /** The two filters together keep every copy of a passing row and no
      copy of any other. */
  lemma FilteredCopies(markets: seq<Value>, q: string, moversOnly: bool, searched: seq<Value>, moved: seq<Value>)
    requires forall x :: multiset(searched)[x] == if Passes(x, q, false) then multiset(markets)[x] else 0
    requires forall x :: multiset(moved)[x] == if !moversOnly || IsMover(x) == Ok(true) then multiset(searched)[x] else 0
    ensures forall x :: multiset(moved)[x] == if Passes(x, q, moversOnly) then multiset(markets)[x] else 0
  {
  }

  /** `sortMap[choice]` as a key function. */
  function KeyFor(choice: SortKey): Value -> Num {
    m => SortValue(m, choice)
  }

  /** The rows `renderCryptoTopTable` shows, best first: the filtered rows
      sorted by the chosen key, at most twenty. The sort reads the key of
      every row once there are two or more, so a null row then throws. An
      empty result is the "no data" row. */
  function TopMarkets(markets: seq<Value>, search: string, moversOnly: bool, choice: SortKey)
    : (r: Result<seq<Value>>)
    ensures r.Ok? ==> |r.value| <= TableRows
    ensures r.Ok? ==> forall x :: x in r.value ==> x in markets && Passes(x, Query(search), moversOnly)
  {
    var filtered := Filtered(markets, Query(search), moversOnly);
    if filtered.Raises? then Raises(filtered.error)
    else
      var list := filtered.value;
      if |list| >= 2 && HasNullishRow(list) then Raises("TypeError")
      else
        ShownRowsFrom(list, KeyFor(choice));
        Ok(Take(SortRows(list, KeyFor(choice)), TableRows))
  }

  /** The shown rows are rows of the list that was sorted. */
  lemma ShownRowsFrom(list: seq<Value>, key: Value -> Num)
    ensures forall x :: x in Take(SortRows(list, key), TableRows) ==> x in list
  {
    var sorted := SortRows(list, key);
    forall x | x in Take(sorted, TableRows) ensures x in list {
      assert x in sorted;
      assert x in multiset(sorted);
    }
  }

  /** When no row's key is NaN, the shown rows are in non-increasing key
      order. */
  lemma TopMarketsSorted(markets: seq<Value>, search: string, moversOnly: bool, choice: SortKey)
    requires TopMarkets(markets, search, moversOnly, choice).Ok?
    requires forall i :: 0 <= i < |markets| ==> !SortValue(markets[i], choice).NaN?
    ensures var rows := TopMarkets(markets, search, moversOnly, choice).value;
            forall i, j :: 0 <= i < j < |rows| ==> !JsNumber.Less(SortValue(rows[i], choice), SortValue(rows[j], choice))
  {
    var list := Filtered(markets, Query(search), moversOnly).value;
    var key := KeyFor(choice);
    assert KeysAreNumbers(list, key) by {
      forall x | x in list ensures !key(x).NaN? {
        var k :| 0 <= k < |markets| && markets[k] == x;
      }
    }
    SortRowsSorted(list, key);
    TakeSorted(SortRows(list, key), key);
    TopMarketsRows(markets, search, moversOnly, choice);
    var rows := TopMarkets(markets, search, moversOnly, choice).value;
    assert SortedDesc(rows, key);
    forall i, j | 0 <= i < j < |rows|
      ensures !JsNumber.Less(SortValue(rows[i], choice), SortValue(rows[j], choice))
    {
      assert !JsNumber.Less(key(rows[i]), key(rows[j]));
    }
  }

  /** A prefix of a sorted run is sorted. */
  lemma TakeSorted(rows: seq<Value>, key: Value -> Num)
    requires SortedDesc(rows, key)
    ensures SortedDesc(Take(rows, TableRows), key)
  {
  }

  /** A table that does not throw shows the leading rows of the sorted
      filter result. */
  lemma TopMarketsRows(markets: seq<Value>, search: string, moversOnly: bool, choice: SortKey)
    requires TopMarkets(markets, search, moversOnly, choice).Ok?
    ensures Filtered(markets, Query(search), moversOnly).Ok?
    ensures TopMarkets(markets, search, moversOnly, choice).value
            == Take(SortRows(Filtered(markets, Query(search), moversOnly).value, KeyFor(choice)), TableRows)
  {
  }

  /** When at most twenty rows pass the filters, the table shows all of
      them, each once. */
  lemma TopMarketsShowsAll(markets: seq<Value>, search: string, moversOnly: bool, choice: SortKey)
    requires TopMarkets(markets, search, moversOnly, choice).Ok?
    requires |Filtered(markets, Query(search), moversOnly).value| <= TableRows
    ensures multiset(TopMarkets(markets, search, moversOnly, choice).value)
            == multiset(Filtered(markets, Query(search), moversOnly).value)
    ensures forall x :: x in markets && Passes(x, Query(search), moversOnly)
                        ==> x in TopMarkets(markets, search, moversOnly, choice).value
  {
    TopMarketsRows(markets, search, moversOnly, choice);
    var list := Filtered(markets, Query(search), moversOnly).value;
    var sorted := SortRows(list, KeyFor(choice));
    assert |sorted| == |multiset(sorted)| == |multiset(list)| == |list|;
    assert Take(sorted, TableRows) == sorted;
    forall x | x in markets && Passes(x, Query(search), moversOnly)
      ensures x in sorted
    {
      assert x in list;
      assert x in multiset(list);
    }
  }

  /** Rows that are objects with a string symbol and a string or missing
      name never make the table throw. */
  lemma TopMarketsOfWellFormedRows(markets: seq<Value>, search: string, moversOnly: bool, choice: SortKey)
    requires forall i :: 0 <= i < |markets| ==> markets[i].Obj? && Get(markets[i], "symbol").Str? && NameOf(markets[i]).Str?
    ensures TopMarkets(markets, search, moversOnly, choice).Ok?
  {
    var q := Query(search);
    FilteredOfWellFormedRows(markets, q, moversOnly);
    var f := Filtered(markets, q, moversOnly).value;
    assert !HasNullishRow(f) by {
      forall i | 0 <= i < |f| ensures !IsNullish(f[i]) {
        assert f[i] in markets;
      }
    }
  }

  /** Neither filter throws on well-formed rows. */
  lemma FilteredOfWellFormedRows(markets: seq<Value>, q: string, moversOnly: bool)
    requires forall i :: 0 <= i < |markets| ==> markets[i].Obj? && Get(markets[i], "symbol").Str? && NameOf(markets[i]).Str?
    ensures Filtered(markets, q, moversOnly).Ok?
  {
    var searched := if q != "" then FilterRows(markets, m => MatchesQuery(m, q)) else Ok(markets);
    if q != "" {
      assert forall i :: 0 <= i < |markets| ==> MatchesQuery(markets[i], q).Ok?;
    }
    SubsequenceElements(if q != "" then searched.value else [], markets);
    assert forall x :: x in markets ==> !IsNullish(x);
    assert forall i :: 0 <= i < |searched.value| ==> IsMover(searched.value[i]).Ok?;
  }

  /** A null row among two or more throws in the sort even with both
      filters off. */
  lemma TopMarketsNullRowThrows(markets: seq<Value>, choice: SortKey)
    requires |markets| >= 2 && Null in markets
    ensures TopMarkets(markets, "", false, choice).Raises?
  {
    assert Query("") == "";
  }
}

=== FILE: decimal.dfy ===
/** The decimal number syntax shared by JavaScript's `Number(string)` and
    Python's `float(string)`: an optional sign, digits with an optional
    fraction, and an optional exponent. Values are exact reals; the
    rounding to the nearest double is not modelled. */
module Decimal {
  import opened Common

  predicate IsDigit(c: char) {
    '0' <= c <= '9'
  }

  predicate AllDigits(s: string) {
    forall i :: 0 <= i < |s| ==> IsDigit(s[i])
  }

  function DigitValue(c: char): nat
    requires IsDigit(c)
  {
    (c as int) - ('0' as int)
  }

  function DigitChar(d: nat): (c: char)
    requires d < 10
    ensures IsDigit(c) && DigitValue(c) == d
  {
    (('0' as int) + d) as char
  }

  /** The natural number written by a string of decimal digits. */
  function DigitsValue(s: string): nat
    requires AllDigits(s)
    decreases |s|
  {
    if s == [] then 0 else DigitsValue(s[..|s| - 1]) * 10 + DigitValue(s[|s| - 1])
  }

  /** The decimal text of a natural number, most significant digit first. */
  function NatText(n: nat): (s: string)
    ensures |s| >= 1 && AllDigits(s)
    decreases n
  {
    if n < 10 then [DigitChar(n)] else NatText(n / 10) + [DigitChar(n % 10)]
  }

  /** `10` raised to an integer power, as a real. */
  function Pow10(e: int): (r: real)
    ensures r > 0.0
    decreases if e < 0 then -e else e
  {
    if e == 0 then 1.0
    else if e > 0 then 10.0 * Pow10(e - 1)
    else Pow10(e + 1) / 10.0
  }

  /** Index of the first character of `s` satisfying `p`, or `|s|`. */
  function FindFirst(s: string, p: char -> bool): (k: nat)
    ensures k <= |s|
    ensures forall i :: 0 <= i < k ==> !p(s[i])
    ensures k < |s| ==> p(s[k])
    decreases |s|
  {
    if s == [] then 0
    else if p(s[0]) then 0
    else 1 + FindFirst(s[1..], p)
  }

  /** `digits [ "." [digits] ] | "." digits`, at least one digit overall. */
  function ParseMantissa(s: string): Option<real> {
    var dot := FindFirst(s, c => c == '.');
    if dot == |s| then
      (if s != [] && AllDigits(s) then Some(DigitsValue(s) as real) else None)
    else
      var whole, frac := s[..dot], s[dot + 1..];
      if AllDigits(whole) && AllDigits(frac) && |whole| + |frac| >= 1 then
        Some(DigitsValue(whole) as real + (DigitsValue(frac) as real) / Pow10(|frac|))
      else None
  }

  /** `[+|-] digits`: the exponent after `e` / `E`. */
  function ParseExponent(s: string): Option<int> {
    if s != [] && (s[0] == '+' || s[0] == '-') then
      var body := s[1..];
      if body != [] && AllDigits(body) then
        Some(if s[0] == '-' then -(DigitsValue(body) as int) else DigitsValue(body) as int)
      else None
    else if s != [] && AllDigits(s) then Some(DigitsValue(s) as int)
    else None
  }

  /** An unsigned decimal literal with optional exponent. */
  function ParseUnsigned(s: string): Option<real> {
    var e := FindFirst(s, c => c == 'e' || c == 'E');
    if e == |s| then ParseMantissa(s)
    else
      match (ParseMantissa(s[..e]), ParseExponent(s[e + 1..]))
      case (Some(m), Some(x)) => Some(m * Pow10(x))
      case _ => None
  }

  /** A decimal literal with an optional leading sign. */
  function ParseSigned(s: string): Option<real> {
    if s != [] && s[0] == '-' then
      match ParseUnsigned(s[1..])
      case Some(v) => Some(-v)
      case None => None
    else if s != [] && s[0] == '+' then ParseUnsigned(s[1..])
    else ParseUnsigned(s)
  }

  lemma {:induction false} DigitsValueOfNatText(n: nat)
    ensures DigitsValue(NatText(n)) == n
    decreases n
  {
    if n >= 10 {
      var s := NatText(n);
      assert s[..|s| - 1] == NatText(n / 10);
      DigitsValueOfNatText(n / 10);
    }
  }

  /** Printing a natural number and reading it back is the identity. */
  lemma NatTextRoundTrip(n: nat)
    ensures ParseSigned(NatText(n)) == Some(n as real)
    ensures ParseSigned("-" + NatText(n)) == Some(-(n as real))
  {
    var s := NatText(n);
    DigitsValueOfNatText(n);
    NoDotOrExponent(s);
    assert ("-" + s)[1..] == s;
  }

  lemma NoDotOrExponent(s: string)
    requires |s| >= 1 && AllDigits(s)
    ensures ParseUnsigned(s) == Some(DigitsValue(s) as real)
  {
    assert FindFirst(s, c => c == 'e' || c == 'E') == |s| by {
      var e := FindFirst(s, c => c == 'e' || c == 'E');
      if e < |s| {
        assert false;
      }
    }
    assert FindFirst(s, c => c == '.') == |s| by {
      var dot := FindFirst(s, c => c == '.');
      if dot < |s| {
        assert false;
      }
    }
  }
}

=== FILE: etf.dfy ===
/** The ETF flow scraper of scripts/update_etf_data.py: cleaning table
    cells, reading a flow figure out of a cell, and choosing the latest
    dated row of a flow table. The HTML row and cell extraction, entity
    decoding and date recognition are given as parameters. */
module Etf {
  import opened Common
  import Decimal
  import Text
  import PyNumber

  // ----- clean_text -----

  /** The end of the run of characters satisfying `p` that starts at `j`. */
  function SpanEnd(s: string, j: nat, p: char -> bool): (k: nat)
    requires j <= |s|
    ensures j <= k <= |s|
    ensures forall m :: j <= m < k ==> p(s[m])
    ensures k < |s| ==> !p(s[k])
    decreases |s| - j
  {
    if j == |s| || !p(s[j]) then j else SpanEnd(s, j + 1, p)
  }

  /** `re.sub(r"<[^>]+>", " ", s)`: each `<`, at least one character other
      than `>`, and the `>` that follows them becomes one space; a `<`
      without such a closing `>` stays. */
  function StripTags(s: string): (r: string)
    ensures |r| <= |s|
    decreases |s|
  {
    if s == [] then []
    else if s[0] == '<' then
      var k := SpanEnd(s, 1, c => c != '>');
      if k > 1 && k < |s| then " " + StripTags(s[k + 1..]) else [s[0]] + StripTags(s[1..])
    else [s[0]] + StripTags(s[1..])
  }

  /** Text without a `<` has no tag to remove. */
  lemma {:induction false} StripTagsOfPlain(s: string)
    requires '<' !in s
    ensures StripTags(s) == s
    decreases |s|
  {
    if s != [] {
      assert s[0] in s;
      assert forall c :: c in s[1..] ==> c in s;
      StripTagsOfPlain(s[1..]);
    }
  }

  /** Every white-space character is a plain space and no two are adjacent. */
  predicate Collapsed(s: string) {
    (forall i :: 0 <= i < |s| && Text.IsPySpace(s[i]) ==> s[i] == ' ')
    && (forall i :: 0 <= i < |s| - 1 ==> !(Text.IsPySpace(s[i]) && Text.IsPySpace(s[i + 1])))
  }

  /** No white space at either end. */
  predicate Trimmed(s: string) {
    s == [] || (!Text.IsPySpace(s[0]) && !Text.IsPySpace(s[|s| - 1]))
  }

  /** The characters of `s` that are not white space, in order. */
  function NonBlank(s: string): string
    decreases |s|
  {
    if s == [] then []
    else (if Text.IsPySpace(s[0]) then [] else [s[0]]) + NonBlank(s[1..])
  }

  /** The non-blank characters of a concatenation are those of its parts. */
  lemma {:induction false} NonBlankAppend(a: string, b: string)
    ensures NonBlank(a + b) == NonBlank(a) + NonBlank(b)
    decreases |a|
  {
    if a != [] {
      var h := if Text.IsPySpace(a[0]) then [] else [a[0]];
      assert (a + b)[0] == a[0] && (a + b)[1..] == a[1..] + b;
      NonBlankAppend(a[1..], b);
      assert NonBlank(a + b) == h + (NonBlank(a[1..]) + NonBlank(b));
      assert h + (NonBlank(a[1..]) + NonBlank(b)) == (h + NonBlank(a[1..])) + NonBlank(b);
    } else {
      assert a + b == b;
    }
  }

  /** White space alone has no non-blank characters. */
  lemma {:induction false} NonBlankOfBlanks(s: string)
    requires forall i :: 0 <= i < |s| ==> Text.IsPySpace(s[i])
    ensures NonBlank(s) == []
    decreases |s|
  {
    if s != [] {
      NonBlankOfBlanks(s[1..]);
    }
  }

  /** Dropping white space from the front keeps the non-blank characters. */
  lemma NonBlankAfterBlanks(s: string, k: nat)
    requires k <= |s| && forall i :: 0 <= i < k ==> Text.IsPySpace(s[i])
    ensures NonBlank(s[k..]) == NonBlank(s)
  {
    assert s == s[..k] + s[k..];
    NonBlankAppend(s[..k], s[k..]);
    NonBlankOfBlanks(s[..k]);
  }

  /** White space around text adds no non-blank characters. */
  lemma NonBlankOfPadded(a: string, m: string, z: string)
    requires forall k :: 0 <= k < |a| ==> Text.IsPySpace(a[k])
    requires forall k :: 0 <= k < |z| ==> Text.IsPySpace(z[k])
    ensures NonBlank(a + m + z) == NonBlank(m)
  {
    NonBlankAppend(a + m, z);
    NonBlankAppend(a, m);
    NonBlankOfBlanks(a);
    NonBlankOfBlanks(z);
  }

  /** `strip()` removes white space only. */
  lemma NonBlankOfStrip(u: string)
    ensures NonBlank(Text.PyStrip(u)) == NonBlank(u)
  {
    var i, j :| 0 <= i <= j <= |u| && Text.PyStrip(u) == u[i..j]
                && (forall k :: 0 <= k < i ==> Text.IsPySpace(u[k]))
                && (forall k :: j <= k < |u| ==> Text.IsPySpace(u[k]));
    assert u == u[..i] + u[i..j] + u[j..];
    NonBlankOfPadded(u[..i], u[i..j], u[j..]);
  }

  /** `re.sub(r"\s+", " ", s)`: every run of white space becomes one space. */
  function Squeeze(s: string): (r: string)
    ensures Collapsed(r)
    ensures r == [] <==> s == []
    ensures r != [] ==> (Text.IsPySpace(r[0]) <==> Text.IsPySpace(s[0]))
    ensures NonBlank(r) == NonBlank(s)
    decreases |s|
  {
    if s == [] then []
    else if Text.IsPySpace(s[0]) then
      var k := Text.LeadingCount(s, Text.IsPySpace);
      var rest := Squeeze(s[k..]);
      assert rest != [] ==> !Text.IsPySpace(rest[0]);
      assert NonBlank(" " + rest) == NonBlank(rest) by {
        assert (" " + rest)[1..] == rest;
      }
      NonBlankAfterBlanks(s, k);
      " " + rest
    else
      var rest := Squeeze(s[1..]);
      assert ([s[0]] + rest)[1..] == rest;
      [s[0]] + rest
  }

  /** Collapsed text is left as it is. */
  lemma {:induction false} SqueezeOfCollapsed(s: string)
    requires Collapsed(s)
    ensures Squeeze(s) == s
    decreases |s|
  {
    if s != [] {
      assert Collapsed(s[1..]);
      SqueezeOfCollapsed(s[1..]);
      if Text.IsPySpace(s[0]) {
        assert Text.LeadingCount(s, Text.IsPySpace) == 1;
      }
    }
  }

  /** A slice of collapsed text is collapsed. */
  lemma CollapsedSlice(u: string, i: nat, j: nat)
    requires i <= j <= |u| && Collapsed(u)
    ensures Collapsed(u[i..j])
  {
    assert forall m :: 0 <= m < j - i ==> u[i..j][m] == u[i + m];
  }

  /** `strip()` keeps collapsed text collapsed. */
  lemma StripCollapsed(u: string)
    requires Collapsed(u)
    ensures Collapsed(Text.PyStrip(u)) && Trimmed(Text.PyStrip(u))
  {
    var i, j :| 0 <= i <= j <= |u| && Text.PyStrip(u) == u[i..j];
    CollapsedSlice(u, i, j);
  }

  /** Squeezing, then `strip()`. */
  function Normalize(t: string): (r: string)
    ensures Collapsed(r) && Trimmed(r)
    ensures NonBlank(r) == NonBlank(t)
  {
    StripCollapsed(Squeeze(t));
    NonBlankOfStrip(Squeeze(t));
    Text.PyStrip(Squeeze(t))
  }

  /** Normalizing normalized text changes nothing. */
  lemma NormalizeIdempotent(t: string)
    ensures Normalize(Normalize(t)) == Normalize(t)
  {
    var u := Normalize(t);
    SqueezeOfCollapsed(u);
    if u != [] {
      PyNumber.StripOfUnpadded(u);
    }
  }

  /** `clean_text`: tags become spaces, entities are decoded by `unescape`,
      and the white space is collapsed and stripped. */
  function CleanText(raw: string, unescape: string -> string): (r: string)
    ensures Collapsed(r) && Trimmed(r)
    ensures NonBlank(r) == NonBlank(unescape(StripTags(raw)))
    ensures '<' !in raw ==> NonBlank(r) == NonBlank(unescape(raw))
  {
    var r := Normalize(unescape(StripTags(raw)));
    if '<' !in raw then
      StripTagsOfPlain(raw);
      r
    else r
  }

  // ----- parse_value -----

  /** `s` with every `(` written as `-`. */
  function Dashed(s: string): (r: string)
    ensures |r| == |s|
  {
    seq(|s|, i requires 0 <= i < |s| => if s[i] == '(' then '-' else s[i])
  }

  /** `s.replace("(", "-").replace(")", "")`: the text in order with each
      `(` read as `-` and each `)` dropped, so every other character keeps
      all its copies. */
  function Unparen(s: string): (r: string)
    ensures '(' !in r && ')' !in r
    ensures |r| <= |s|
    ensures |r| == |s| - multiset(s)[')']
    ensures IsSubsequence(r, Dashed(s))
    ensures multiset(r)['-'] == multiset(s)['-'] + multiset(s)['(']
    ensures forall c :: c != '-' && c != '(' && c != ')' ==> multiset(r)[c] == multiset(s)[c]
    decreases |s|
  {
    if s == [] then []
    else
      var rest := Unparen(s[1..]);
      var r := if s[0] == '(' then "-" + rest else if s[0] == ')' then rest else [s[0]] + rest;
      UnparenStep(s, rest, r);
      r
  }

  /** One step of `Unparen`: what it keeps of the tail of `s` it keeps of
      `s` once the first character is handled. */
  lemma UnparenStep(s: string, rest: string, r: string)
    requires s != []
    requires |rest| == |s[1..]| - multiset(s[1..])[')'] && IsSubsequence(rest, Dashed(s[1..]))
    requires multiset(rest)['-'] == multiset(s[1..])['-'] + multiset(s[1..])['(']
    requires forall c :: c != '-' && c != '(' && c != ')' ==> multiset(rest)[c] == multiset(s[1..])[c]
    requires r == if s[0] == '(' then "-" + rest else if s[0] == ')' then rest else [s[0]] + rest
    ensures |r| == |s| - multiset(s)[')'] && IsSubsequence(r, Dashed(s))
    ensures multiset(r)['-'] == multiset(s)['-'] + multiset(s)['(']
    ensures forall c :: c != '-' && c != '(' && c != ')' ==> multiset(r)[c] == multiset(s)[c]
  {
    var d := if s[0] == '(' then '-' else s[0];
    var head := if s[0] == ')' then [] else [d];
    assert r == head + rest;
    UnparenCopiesStep(s, head, rest, r);
    DashedTail(s);
    if s[0] == ')' {
      SubsequenceSkip(rest, Dashed(s));
    } else {
      assert r[0] == Dashed(s)[0] && r[1..] == rest;
    }
  }

  /** The counting part of `UnparenStep`. */
  lemma UnparenCopiesStep(s: string, head: string, rest: string, r: string)
    requires s != [] && r == head + rest
    requires head == if s[0] == ')' then [] else if s[0] == '(' then "-" else [s[0]]
    requires multiset(rest)['-'] == multiset(s[1..])['-'] + multiset(s[1..])['(']
    requires forall c :: c != '-' && c != '(' && c != ')' ==> multiset(rest)[c] == multiset(s[1..])[c]
    ensures multiset(r)['-'] == multiset(s)['-'] + multiset(s)['(']
    ensures forall c :: c != '-' && c != '(' && c != ')' ==> multiset(r)[c] == multiset(s)[c]
    ensures multiset(s)[')'] == multiset(s[1..])[')'] + if s[0] == ')' then 1 else 0
  {
    var ms := multiset(s[1..]);
    assert multiset(s) == multiset{s[0]} + ms by {
      assert s == [s[0]] + s[1..];
    }
    assert multiset(r) == multiset(head) + multiset(rest);
    forall c | c != '-' && c != '(' && c != ')' ensures multiset(r)[c] == multiset(s)[c] {
      assert multiset(head)[c] == multiset{s[0]}[c];
    }
    assert multiset(head)['-'] == multiset{s[0]}['-'] + multiset{s[0]}['('];
  }

  /** `Dashed` works character by character. */
  lemma DashedTail(s: string)
    requires s != []
    ensures Dashed(s)[1..] == Dashed(s[1..])
    ensures Dashed(s)[0] == if s[0] == '(' then '-' else s[0]
  {
  }

  /** `Unparen` passes a character other than a parenthesis through. */
  lemma UnparenCons(c: char, s: string)
    requires c != '(' && c != ')'
    ensures Unparen([c] + s) == [c] + Unparen(s)
  {
    assert ([c] + s)[0] == c && ([c] + s)[1..] == s;
  }

  /** `Unparen` turns an opening parenthesis into a minus sign. */
  lemma UnparenOpen(s: string)
    ensures Unparen("(" + s) == "-" + Unparen(s)
  {
    assert ("(" + s)[0] == '(' && ("(" + s)[1..] == s;
  }

  /** Text without parentheses is left as it is. */
  lemma {:induction false} UnparenOfPlain(s: string)
    requires '(' !in s && ')' !in s
    ensures Unparen(s) == s
    decreases |s|
  {
    if s != [] {
      assert forall c :: c in s[1..] ==> c in s;
      UnparenOfPlain(s[1..]);
    }
  }

  /** The class `[\d,]`. */
  predicate IsNumChar(c: char) {
    Decimal.IsDigit(c) || c == ','
  }

  /** The end of the match of `[-+]?\$?[\d,]+(?:\.\d+)?` at `i`, if any:
      an optional sign, an optional dollar, a run of digits and commas,
      and a fraction only when a digit follows the point. */
  function MatchAt(s: string, i: nat): (r: Option<nat>)
    requires i <= |s|
    ensures r.Some? ==> i < r.value <= |s|
  {
    var j := if i < |s| && (s[i] == '-' || s[i] == '+') then i + 1 else i;
    var d := if j < |s| && s[j] == '$' then j + 1 else j;
    if d < |s| && IsNumChar(s[d]) then
      var k := SpanEnd(s, d, IsNumChar);
      if k + 1 < |s| && s[k] == '.' && Decimal.IsDigit(s[k + 1]) then Some(SpanEnd(s, k + 1, Decimal.IsDigit))
      else Some(k)
    else None
  }

  /** No match starts at any position from `lo` up to, but not including, `hi`. */
  predicate NoMatchBetween(s: string, lo: nat, hi: nat)
    requires hi <= |s| + 1
  {
    forall k :: lo <= k < hi ==> MatchAt(s, k).None?
  }

  /** `NUM_RE.search(s)` from `from` on: the leftmost match. */
  function Search(s: string, from: nat): (r: Option<(nat, nat)>)
    requires from <= |s|
    ensures r.None? ==> NoMatchBetween(s, from, |s| + 1)
    ensures r.Some? ==> from <= r.value.0 <= |s| && MatchAt(s, r.value.0) == Some(r.value.1)
    ensures r.Some? ==> NoMatchBetween(s, from, r.value.0)
    decreases |s| - from
  {
    var here := MatchAt(s, from);
    if here.Some? then Some((from, here.value))
    else if from == |s| then None
    else
      var r := Search(s, from + 1);
      NoMatchBefore(s, from, if r.Some? then r.value.0 else |s| + 1);
      r
  }

  /** A position without a match extends a match-free stretch after it. */
  lemma NoMatchBefore(s: string, lo: nat, hi: nat)
    requires lo < hi <= |s| + 1 && MatchAt(s, lo).None? && NoMatchBetween(s, lo + 1, hi)
    ensures NoMatchBetween(s, lo, hi)
  {
  }

  /** Neither a dollar sign nor a thousands separator. */
  predicate IsUnmarked(c: char) {
    c != '$' && c != ','
  }

  /** `s.replace("$", "").replace(",", "")`: the text in order without its
      marks, every other character keeping all its copies. */
  function DropMarks(s: string): (r: string)
    ensures '$' !in r && ',' !in r
    ensures IsSubsequence(r, s)
    ensures forall c :: multiset(r)[c] == if IsUnmarked(c) then multiset(s)[c] else 0
    decreases |s|
  {
    if s == [] then []
    else
      var rest := DropMarks(s[1..]);
      var r := if IsUnmarked(s[0]) then [s[0]] + rest else rest;
      KeepCopiesStep(s, rest, r, IsUnmarked);
      if IsUnmarked(s[0]) then
        assert r[1..] == rest;
        r
      else
        SubsequenceSkip(rest, s);
        r
  }

  /** A string of digits has no marks to drop. */
  lemma {:induction false} DropMarksOfDigits(s: string)
    requires Decimal.AllDigits(s)
    ensures DropMarks(s) == s
    decreases |s|
  {
    if s != [] {
      DropMarksOfDigits(s[1..]);
    }
  }

  /** `parse_value`: parentheses mark a negative figure; the first number
      in the text, without its dollar sign and thousands separators, is
      read by `float()`; no number, or one `float()` rejects, is absent. */
  function ParseValue(text: string): (r: Option<real>)
    ensures Search(Unparen(text), 0).None? ==> r.None?
  {
    var t := Unparen(text);
    match Search(t, 0)
    case None => None
    case Some((i, e)) => PyNumber.FloatOfString(DropMarks(t[i..e]))
  }

  /** A text whose whole parenthesis-free form is one number match is
      read as that form without its marks. */
  lemma ParseValueOfWhole(text: string, t: string)
    requires Unparen(text) == t && MatchAt(t, 0) == Some(|t|)
    ensures ParseValue(text) == PyNumber.FloatOfString(DropMarks(t))
  {
    assert t[0..|t|] == t;
  }

  /** A text without parentheses that starts with a number match is read
      as that match without its marks. */
  lemma ParseValueOfLeadingMatch(text: string, e: nat)
    requires '(' !in text && ')' !in text && MatchAt(text, 0) == Some(e)
    ensures ParseValue(text) == PyNumber.FloatOfString(DropMarks(text[0..e]))
  {
    UnparenOfPlain(text);
  }

  /** Digits hold no parentheses. */
  lemma DigitsArePlain(s: string)
    requires Decimal.AllDigits(s)
    ensures '(' !in s && ')' !in s
  {
    assert forall m :: 0 <= m < |s| ==> s[m] != '(' && s[m] != ')';
  }

  /** A run of digits after no sign, a minus, or a minus and a dollar is
      one number match reaching the end. */
  lemma MatchOfDigits(t: string, d: nat)
    requires d < |t| && (d == 0 || (d == 1 && t[0] == '-') || (d == 2 && t[0] == '-' && t[1] == '$'))
    requires forall m :: d <= m < |t| ==> Decimal.IsDigit(t[m])
    ensures MatchAt(t, 0) == Some(|t|)
  {
    assert SpanEnd(t, d, IsNumChar) == |t|;
  }

  /** A whole number reads back as itself. */
  lemma ParseValueOfNatText(n: nat)
    ensures ParseValue(Decimal.NatText(n)) == Some(n as real)
  {
    var s := Decimal.NatText(n);
    PyNumber.FloatOfNatText(n);
    DropMarksOfDigits(s);
    DigitsArePlain(s);
    UnparenOfPlain(s);
    MatchOfDigits(s, 0);
    ParseValueOfWhole(s, s);
  }

  /** A whole number in parentheses, the accounting form of a negative
      figure, reads back as its negation. */
  lemma ParseValueOfParenthesized(n: nat)
    ensures ParseValue("(" + Decimal.NatText(n) + ")") == Some(-(n as real))
  {
    var s := Decimal.NatText(n);
    PyNumber.FloatOfNatText(n);
    NegatedForms(s);
    MatchOfDigits("-" + s, 1);
    ParseValueOfWhole("(" + s + ")", "-" + s);
  }

  /** So does a dollar amount in parentheses. */
  lemma ParseValueOfParenthesizedDollars(n: nat)
    ensures ParseValue("($" + Decimal.NatText(n) + ")") == Some(-(n as real))
  {
    var s := Decimal.NatText(n);
    PyNumber.FloatOfNatText(n);
    NegatedForms(s);
    MatchOfDigits("-$" + s, 2);
    ParseValueOfWhole("($" + s + ")", "-$" + s);
  }

  /** The parenthesized forms of a digit string lose their parentheses
      and their dollar sign. */
  lemma NegatedForms(s: string)
    requires Decimal.AllDigits(s)
    ensures Unparen("(" + s + ")") == "-" + s && DropMarks("-" + s) == "-" + s
    ensures Unparen("($" + s + ")") == "-$" + s && DropMarks("-$" + s) == "-" + s
  {
    DigitsArePlain(s);
    DropMarksOfDigits(s);
    UnparenClose(s);
    NegatedPlain(s);
    NegatedDollars(s);
  }

  /** `(n)` becomes `-n`, which has no marks to drop. */
  lemma NegatedPlain(s: string)
    requires '(' !in s && ')' !in s && DropMarks(s) == s && Unparen(s + ")") == s
    ensures Unparen("(" + s + ")") == "-" + s && DropMarks("-" + s) == "-" + s
  {
    assert Unparen("(" + (s + ")")) == "-" + s by {
      UnparenOpen(s + ")");
    }
    assert DropMarks("-" + s) == "-" + s by {
      DropMarksCons('-', s);
    }
    ParenForms(s);
  }

  /** How the parenthesised text is put together. */
  lemma ParenForms(s: string)
    ensures "(" + (s + ")") == "(" + s + ")"
  {
  }

  /** `DropMarks` passes a character other than a mark through. */
  lemma DropMarksCons(c: char, s: string)
    requires IsUnmarked(c)
    ensures DropMarks([c] + s) == [c] + DropMarks(s)
  {
    assert ([c] + s)[0] == c && ([c] + s)[1..] == s;
  }

  /** `($n)` becomes `-$n`, which loses its dollar sign. */
  lemma NegatedDollars(s: string)
    requires '(' !in s && ')' !in s && DropMarks(s) == s && Unparen(s + ")") == s
    ensures Unparen("($" + s + ")") == "-$" + s && DropMarks("-$" + s) == "-" + s
  {
    UnparenDollars(s);
    DropDollars(s);
  }

  /** The parentheses around a dollar amount become a minus sign. */
  lemma UnparenDollars(s: string)
    requires Unparen(s + ")") == s
    ensures Unparen("($" + s + ")") == "-$" + s
  {
    var u := s + ")";
    assert Unparen("$" + u) == "$" + s by {
      UnparenCons('$', u);
    }
    assert Unparen("(" + ("$" + u)) == "-" + ("$" + s) by {
      UnparenOpen("$" + u);
    }
    DollarForms(s);
  }

  /** How the parenthesised dollar text is put together. */
  lemma DollarForms(s: string)
    ensures "(" + ("$" + (s + ")")) == "($" + s + ")"
    ensures "-" + ("$" + s) == "-$" + s
  {
  }

  /** A negative dollar amount loses its dollar sign. */
  lemma DropDollars(s: string)
    requires DropMarks(s) == s
    ensures DropMarks("-$" + s) == "-" + s
  {
    assert ("$" + s)[0] == '$' && ("$" + s)[1..] == s;
    assert DropMarks("$" + s) == s;
    assert ("-$" + s)[0] == '-' && ("-$" + s)[1..] == "$" + s;
  }

  /** Only the first match is tried: a lone separator before a figure
      makes the whole text absent. */
  lemma ParseValueStopsAtFirstMatch()
    ensures ParseValue(", 12") == None
  {
    UnparenOfPlain(", 12");
    CommaMatch();
    assert Search(", 12", 0) == Some((0, 1));
    assert ", 12"[0..1] == ",";
    assert DropMarks(",") == "" by {
      assert DropMarks(",") == DropMarks(","[1..]);
    }
  }

  /** In `", 12"` the first match is the lone comma. */
  lemma CommaMatch()
    ensures MatchAt(", 12", 0) == Some(1)
  {
    var s := ", 12";
    assert !IsNumChar(s[1]);
    assert SpanEnd(s, 1, IsNumChar) == 1;
    assert IsNumChar(s[0]);
    assert SpanEnd(s, 0, IsNumChar) == 1;
  }

  /** A closing parenthesis after plain text is dropped. */
  lemma {:induction false} UnparenClose(s: string)
    requires '(' !in s && ')' !in s
    ensures Unparen(s + ")") == s
    decreases |s|
  {
    if s == [] {
      assert Unparen(")") == Unparen([]);
    } else {
      assert (s + ")")[1..] == s[1..] + ")";
      assert forall c :: c in s[1..] ==> c in s;
      UnparenClose(s[1..]);
    }
  }

  // ----- rows -----

  /** The library parts of a table scan: entity decoding, the `DATE_RE`
      search for a day-month-year date, and `strptime` of that date as a
      day number. */
  datatype Parsers = Parsers(unescape: string -> string, dateSearch: string -> Option<string>, dateParse: string -> Option<int>)

  /** The last present element. */
  function LastSome(xs: seq<Option<real>>): (r: Option<real>)
    ensures r.None? <==> forall k :: 0 <= k < |xs| ==> xs[k].None?
    ensures r.Some? ==> exists k :: 0 <= k < |xs| && r == xs[k] && forall m :: k < m < |xs| ==> xs[m].None?
    decreases |xs|
  {
    if xs == [] then None
    else if xs[|xs| - 1].Some? then xs[|xs| - 1]
    else
      var init := xs[..|xs| - 1];
      assert forall k :: 0 <= k < |init| ==> init[k] == xs[k];
      var r := LastSome(init);
      assert r.Some? ==> exists k :: 0 <= k < |xs| && r == xs[k] && forall m :: k < m < |xs| ==> xs[m].None? by {
        if r.Some? {
          var k :| 0 <= k < |init| && r == init[k] && forall m :: k < m < |init| ==> init[m].None?;
          assert r == xs[k] && forall m :: k < m < |xs| ==> xs[m].None?;
        }
      }
      r
  }

  /** The number each cleaned cell holds. */
  function CellValues(cells: seq<string>, ps: Parsers): (r: seq<Option<real>>)
    ensures |r| == |cells|
    ensures forall k :: 0 <= k < |cells| ==> r[k] == ParseValue(CleanText(cells[k], ps.unescape))
  {
    seq(|cells|, k requires 0 <= k < |cells| => ParseValue(CleanText(cells[k], ps.unescape)))
  }

  /** The value of a row: the first cell, scanning right to left, that
      holds a number. */
  function RowValue(cells: seq<string>, ps: Parsers): Option<real> {
    LastSome(CellValues(cells, ps))
  }

  /** A row's value is absent exactly when no cell holds a number. */
  lemma RowValueAbsent(cells: seq<string>, ps: Parsers)
    ensures RowValue(cells, ps).None? <==> forall k :: 0 <= k < |cells| ==> ParseValue(CleanText(cells[k], ps.unescape)).None?
  {
    var xs := CellValues(cells, ps);
    assert forall k :: 0 <= k < |cells| ==> xs[k] == ParseValue(CleanText(cells[k], ps.unescape));
  }

  /** A row's value, when present, is the number of the rightmost cell
      that holds one. */
  lemma RowValueIsRightmost(cells: seq<string>, ps: Parsers)
    ensures RowValue(cells, ps).Some? ==>
              exists k :: 0 <= k < |cells| && RowValue(cells, ps) == ParseValue(CleanText(cells[k], ps.unescape))
                          && forall m :: k < m < |cells| ==> ParseValue(CleanText(cells[m], ps.unescape)).None?
  {
    var xs := CellValues(cells, ps);
    if RowValue(cells, ps).Some? {
      var k :| 0 <= k < |xs| && LastSome(xs) == xs[k] && forall m :: k < m < |xs| ==> xs[m].None?;
      assert RowValue(cells, ps) == ParseValue(CleanText(cells[k], ps.unescape));
      forall m | k < m < |cells|
        ensures ParseValue(CleanText(cells[m], ps.unescape)).None?
      {
        assert xs[m].None?;
      }
    }
  }

  /** The date cell is read like a figure: `"12 Jan 2024"` holds the
      number 12 for `parse_value`. */
  lemma DateTextValue()
    ensures ParseValue("12 Jan 2024") == Some(12.0)
  {
    var s := "12 Jan 2024";
    DateTextMatch();
    ParseValueOfLeadingMatch(s, 2);
    TwelveValue();
  }

  /** The first match in `"12 Jan 2024"` is the day. */
  lemma DateTextMatch()
    ensures MatchAt("12 Jan 2024", 0) == Some(2)
    ensures "12 Jan 2024"[0..2] == "12"
  {
    var s := "12 Jan 2024";
    assert !IsNumChar(s[2]) && IsNumChar(s[1]) && IsNumChar(s[0]);
    assert SpanEnd(s, 0, IsNumChar) == 2;
  }

  /** `"12"` reads as 12. */
  lemma TwelveValue()
    ensures PyNumber.FloatOfString(DropMarks("12")) == Some(12.0)
  {
    assert Decimal.NatText(12) == "12" by {
      assert Decimal.NatText(1) == "1";
    }
    DropMarksOfDigits("12");
    PyNumber.FloatOfNatText(12);
  }

  /** A dash, the table's mark for no flow, holds no number. */
  lemma DashValue()
    ensures ParseValue("-") == None
  {
    UnparenOfPlain("-");
    assert MatchAt("-", 0).None? && MatchAt("-", 1).None?;
    assert Search("-", 1).None?;
  }

  /** A row whose only cell holding a number is the first takes that
      number. */
  lemma RowValueOfFirstOnly(cells: seq<string>, ps: Parsers, v: real)
    requires |cells| >= 1 && ParseValue(CleanText(cells[0], ps.unescape)) == Some(v)
    requires forall k :: 1 <= k < |cells| ==> ParseValue(CleanText(cells[k], ps.unescape)).None?
    ensures RowValue(cells, ps) == Some(v)
  {
    LastSomeOfFirstOnly(CellValues(cells, ps));
  }

  /** When only the first element is present, it is the last present one. */
  lemma LastSomeOfFirstOnly(xs: seq<Option<real>>)
    requires |xs| >= 1 && xs[0].Some? && forall k :: 1 <= k < |xs| ==> xs[k].None?
    ensures LastSome(xs) == xs[0]
  {
    assert LastSome(xs).Some?;
    var k :| 0 <= k < |xs| && LastSome(xs) == xs[k] && forall m :: k < m < |xs| ==> xs[m].None?;
    assert k == 0;
  }

  /** A row whose figure cells are all dashes takes the number the date cell
      starts with as its flow, since the scan runs over every cell. */
  lemma RowValueReadsDate(cells: seq<string>, ps: Parsers)
    requires |cells| >= 1 && CleanText(cells[0], ps.unescape) == "12 Jan 2024"
    requires forall k :: 1 <= k < |cells| ==> CleanText(cells[k], ps.unescape) == "-"
    ensures RowValue(cells, ps) == Some(12.0)
  {
    assert ParseValue(CleanText(cells[0], ps.unescape)) == Some(12.0) by {
      DateTextValue();
    }
    assert forall k :: 1 <= k < |cells| ==> ParseValue(CleanText(cells[k], ps.unescape)).None? by {
      DashValue();
    }
    RowValueOfFirstOnly(cells, ps, 12.0);
  }

  /** The value of a row from its figure cells alone, the date cell left
      out of the scan. */
  function FigureValue(cells: seq<string>, ps: Parsers): (r: Option<real>)
    ensures r.None? <==> forall k :: 1 <= k < |cells| ==> ParseValue(CleanText(cells[k], ps.unescape)).None?
  {
    if cells == [] then None
    else
      var xs := CellValues(cells[1..], ps);
      assert forall k :: 1 <= k < |cells| ==> xs[k - 1] == ParseValue(CleanText(cells[k], ps.unescape));
      LastSome(xs)
  }

  /** The date cell does not affect the figure value. */
  lemma FigureValueSkipsDate(cells: seq<string>, date: string, ps: Parsers)
    requires |cells| >= 1
    ensures FigureValue([date] + cells[1..], ps) == FigureValue(cells, ps)
  {
    assert ([date] + cells[1..])[1..] == cells[1..];
  }

  /** A row of dashes has no figure value, whatever its date. */
  lemma FigureValueOfDashRow(cells: seq<string>, ps: Parsers)
    requires forall k :: 1 <= k < |cells| ==> CleanText(cells[k], ps.unescape) == "-"
    ensures FigureValue(cells, ps).None?
  {
    DashValue();
  }

  /** Dropping the first element keeps the last present one, when the rest
      has one. */
  lemma LastSomeOfTail(xs: seq<Option<real>>)
    requires |xs| >= 1 && LastSome(xs[1..]).Some?
    ensures LastSome(xs) == LastSome(xs[1..])
  {
    var ys := xs[1..];
    var k :| 0 <= k < |ys| && LastSome(ys) == ys[k] && forall m :: k < m < |ys| ==> ys[m].None?;
    assert xs[k + 1].Some?;
    var j :| 0 <= j < |xs| && LastSome(xs) == xs[j] && forall m :: j < m < |xs| ==> xs[m].None?;
    if j > k + 1 {
      assert ys[j - 1] == xs[j];
    }
  }

  /** The values of the figure cells are the row's values after the first. */
  lemma CellValuesOfTail(cells: seq<string>, ps: Parsers)
    requires |cells| >= 1
    ensures CellValues(cells[1..], ps) == CellValues(cells, ps)[1..]
  {
    var xs := CellValues(cells, ps);
    var ys := CellValues(cells[1..], ps);
    forall k | 0 <= k < |ys|
      ensures ys[k] == xs[k + 1]
    {
      assert cells[1..][k] == cells[k + 1];
    }
  }

  /** Where a figure cell holds a number, the scan over all cells and the
      scan over the figure cells agree. */
  lemma FigureValueAgrees(cells: seq<string>, ps: Parsers)
    ensures FigureValue(cells, ps).Some? ==> RowValue(cells, ps) == FigureValue(cells, ps)
  {
    if FigureValue(cells, ps).Some? {
      CellValuesOfTail(cells, ps);
      LastSomeOfTail(CellValues(cells, ps));
    }
  }

  /** A dated row of the table. */
  datatype Entry = Entry(dateText: string, date: int, value: Option<real>)

  /** A row that takes part in the selection: at least two cells and a
      date recognised in the cleaned first cell. */
  function RowEntry(cells: seq<string>, ps: Parsers): (r: Option<Entry>)
    ensures r.Some? <==> |cells| >= 2 && ps.dateSearch(CleanText(cells[0], ps.unescape)).Some?
                         && ps.dateParse(ps.dateSearch(CleanText(cells[0], ps.unescape)).value).Some?
    ensures r.Some? ==> r.value.value == RowValue(cells, ps)
  {
    if |cells| < 2 then None
    else
      match ps.dateSearch(CleanText(cells[0], ps.unescape))
      case None => None
      case Some(dateText) =>
        match ps.dateParse(dateText)
        case None => None
        case Some(date) => Some(Entry(dateText, date, RowValue(cells, ps)))
  }

  /** The entry of each row. */
  function Entries(rows: seq<seq<string>>, ps: Parsers): (r: seq<Option<Entry>>)
    ensures |r| == |rows|
    ensures forall k :: 0 <= k < |rows| ==> r[k] == RowEntry(rows[k], ps)
  {
    seq(|rows|, k requires 0 <= k < |rows| => RowEntry(rows[k], ps))
  }

  /** Entry `k` of the first `n` is the one kept: it has the latest date
      among them, and every entry before it has an earlier date. */
  predicate ChosenIn(entries: seq<Option<Entry>>, k: nat, n: nat)
    requires n <= |entries|
  {
    k < n && entries[k].Some?
    && (forall m :: 0 <= m < n && entries[m].Some? ==> entries[m].value.date <= entries[k].value.date)
    && (forall m :: 0 <= m < k && entries[m].Some? ==> entries[m].value.date < entries[k].value.date)
  }

  /** At most one entry is kept. */
  lemma ChosenUnique(entries: seq<Option<Entry>>, k1: nat, k2: nat, n: nat)
    requires n <= |entries| && ChosenIn(entries, k1, n) && ChosenIn(entries, k2, n)
    ensures k1 == k2
  {
  }

  /** The selection loop over the entries: the kept entry, if any. */
  method Latest(entries: seq<Option<Entry>>) returns (best: Option<Entry>)
    ensures best.None? <==> forall k :: 0 <= k < |entries| ==> entries[k].None?
    ensures best.Some? ==> exists k: nat :: ChosenIn(entries, k, |entries|) && best == entries[k]
  {
    best := None;
    ghost var at: nat := 0;
    var i := 0;
    while i < |entries|
      invariant 0 <= i <= |entries|
      invariant best.None? <==> forall k :: 0 <= k < i ==> entries[k].None?
      invariant best.Some? ==> ChosenIn(entries, at, i) && best == entries[at]
    {
      var entry := entries[i];
      if entry.Some? && (best.None? || entry.value.date > best.value.date) {
        best := entry;
        at := i;
      }
      i := i + 1;
    }
  }

  /** `latest_total_inflow` after the rows and cells are extracted: the date
      text and value of the kept row, or neither when no row is dated. */
  method LatestTotalInflow(rows: seq<seq<string>>, ps: Parsers) returns (dateText: Option<string>, value: Option<real>)
    ensures dateText.None? <==> forall k :: 0 <= k < |rows| ==> RowEntry(rows[k], ps).None?
    ensures dateText.None? ==> value.None?
    ensures dateText.Some? ==> exists k: nat :: ChosenIn(Entries(rows, ps), k, |rows|)
                                 && dateText == Some(RowEntry(rows[k], ps).value.dateText)
                                 && value == RowEntry(rows[k], ps).value.value
  {
    var entries := Entries(rows, ps);
    var best := Latest(entries);
    if best.Some? {
      dateText := Some(best.value.dateText);
      value := best.value.value;
    } else {
      dateText := None;
      value := None;
    }
  }

  /** `btc_date or eth_date or "n/a"`: the first date that is present and
      not empty. */
  function RefDate(btc: Option<string>, eth: Option<string>): (r: string)
    ensures btc.Some? && btc.value != "" ==> r == btc.value
    ensures !(btc.Some? && btc.value != "") && eth.Some? && eth.value != "" ==> r == eth.value
    ensures !(btc.Some? && btc.value != "") && !(eth.Some? && eth.value != "") ==> r == "n/a"
    ensures r != ""
  {
    if btc.Some? && btc.value != "" then btc.value
    else if eth.Some? && eth.value != "" then eth.value
    else "n/a"
  }
}

=== FILE: gateway.dfy ===
/** The request handlers and the router of workers/mode-a-gateway.js: the
    live snapshot that merges Binance with CoinGecko field by field, the
    multi-exchange price lookup with its fixed priority order, and the
    dispatch on method and path. Every upstream call arrives as a settled
    promise outcome; the clock arrives as the `now` text. */
module Gateway {
  import opened Common
  import opened Json
  import JsNumber
  import Decimal
  import opened GatewayAdapters

  // ----- /api/crypto-prices -----

  /** The position of the first map, in priority order, that holds `t`. */
  function FirstHolder(t: string, ms: seq<map<string, Quote>>): (r: Option<nat>)
    ensures r.Some? ==> r.value < |ms| && t in ms[r.value]
    ensures r.Some? ==> forall j :: 0 <= j < r.value ==> t !in ms[j]
    ensures r.None? ==> forall j :: 0 <= j < |ms| ==> t !in ms[j]
    decreases |ms|
  {
    if ms == [] then None
    else if t in ms[0] then Some(0)
    else
      match FirstHolder(t, ms[1..])
      case Some(i) => Some(i + 1)
      case None => None
  }

  /** With three maps, the first holder is found by asking them in turn. */
  lemma FirstHolderOfThree(t: string, a: map<string, Quote>, b: map<string, Quote>, c: map<string, Quote>)
    ensures FirstHolder(t, [a, b, c])
            == if t in a then Some(0) else if t in b then Some(1) else if t in c then Some(2) else None
  {
    var ms := [a, b, c];
    assert ms[1..] == [b, c] && ms[1..][1..] == [c] && ms[1..][1..][1..] == [];
  }

  /** The adapter map of a settled fetch: an empty map when it failed. */
  function AdapterMap(outcome: Settled<Value>, source: Source): (m: map<string, Quote>)
    ensures outcome.Rejected? ==> m == map[]
    ensures forall k :: k in m ==> m[k].source == source
  {
    match outcome
    case Rejected(_) => map[]
    case Fulfilled(v) =>
      match source
      case Binance => BinanceMap(v)
      case Bybit => BybitMap(v)
      case Okx => OkxMap(v)
  }

  /** `binance.get(t) || bybit.get(t) || okx.get(t) || null`: the quote of
      the first exchange, in the order Binance, Bybit, OKX, that has the
      ticker. */
  function Resolve(t: string, binance: map<string, Quote>, bybit: map<string, Quote>, okx: map<string, Quote>)
    : (q: Option<Quote>)
    ensures q.None? <==> FirstHolder(t, [binance, bybit, okx]).None?
    ensures q.Some? ==> q == Some([binance, bybit, okx][FirstHolder(t, [binance, bybit, okx]).value][t])
  {
    FirstHolderOfThree(t, binance, bybit, okx);
    if t in binance then Some(binance[t])
    else if t in bybit then Some(bybit[t])
    else if t in okx then Some(okx[t])
    else None
  }

  /** One entry of `prices`: the fields of the winning quote, or all null. */
  datatype PriceEntry = PriceEntry(price: Option<real>, change24h: Option<real>, source: Option<Source>, pair: Option<string>)

  function EntryOf(q: Option<Quote>): (e: PriceEntry)
    ensures q.None? ==> e == PriceEntry(None, None, None, None)
    ensures q.Some? ==> e == PriceEntry(q.value.price, q.value.change24h, Some(q.value.source), Some(q.value.pair))
  {
    match q
    case Some(v) => PriceEntry(v.price, v.change24h, Some(v.source), Some(v.pair))
    case None => PriceEntry(None, None, None, None)
  }

  /** The `/api/crypto-prices` body: `prices` keeps the requested tickers in
      request order, and `sources` the fixed priority list. */
  datatype PricesBody = PricesBody(asOf: string, prices: seq<(string, PriceEntry)>, sources: seq<string>)

  const PrioritySources: seq<string> := ["binance", "bybit", "okx"]

  /** `handleCryptoPrices`: one entry per requested ticker, taken from the
      first exchange in priority order whose (successful) fetch lists it. */
  function CryptoPrices(now: string, tickersParam: Option<string>,
                        binance: Settled<Value>, bybit: Settled<Value>, okx: Settled<Value>): (r: PricesBody)
    ensures r.asOf == now && r.sources == PrioritySources
    ensures |r.prices| == |RequestedTickers(tickersParam)|
    ensures forall i :: 0 <= i < |r.prices| ==> r.prices[i].0 == RequestedTickers(tickersParam)[i]
    ensures forall i :: 0 <= i < |r.prices| ==>
              var ms := [AdapterMap(binance, Binance), AdapterMap(bybit, Bybit), AdapterMap(okx, Okx)];
              var h := FirstHolder(r.prices[i].0, ms);
              r.prices[i].1 == EntryOf(if h.Some? then Some(ms[h.value][r.prices[i].0]) else None)
  {
    var tickers := RequestedTickers(tickersParam);
    PricesBody(now, PricesOf(tickers, AdapterMap(binance, Binance), AdapterMap(bybit, Bybit), AdapterMap(okx, Okx)),
               PrioritySources)
  }

  /** The `prices` entries for `tickers`, in order, each resolved against
      the three exchange maps. */
  function PricesOf(tickers: seq<string>, b: map<string, Quote>, y: map<string, Quote>, o: map<string, Quote>)
    : (r: seq<(string, PriceEntry)>)
    ensures |r| == |tickers|
    ensures forall i :: 0 <= i < |r| ==> r[i].0 == tickers[i]
    ensures forall i :: 0 <= i < |r| ==>
              var h := FirstHolder(r[i].0, [b, y, o]);
              r[i].1 == EntryOf(if h.Some? then Some([b, y, o][h.value][r[i].0]) else None)
  {
    seq(|tickers|, i requires 0 <= i < |tickers| => (tickers[i], EntryOf(Resolve(tickers[i], b, y, o))))
  }

  /** The `source` of an entry names the exchange that answered, and an
      exchange answers only when every exchange ahead of it failed or did
      not list the ticker. */
  lemma CryptoPricesSource(now: string, tickersParam: Option<string>,
                           binance: Settled<Value>, bybit: Settled<Value>, okx: Settled<Value>, i: nat)
    requires i < |CryptoPrices(now, tickersParam, binance, bybit, okx).prices|
    ensures var (t, e) := CryptoPrices(now, tickersParam, binance, bybit, okx).prices[i];
            && (e.source == Some(Binance) <==> t in AdapterMap(binance, Binance))
            && (e.source == Some(Bybit) <==> t !in AdapterMap(binance, Binance) && t in AdapterMap(bybit, Bybit))
            && (e.source == Some(Okx) <==> t !in AdapterMap(binance, Binance) && t !in AdapterMap(bybit, Bybit)
                                             && t in AdapterMap(okx, Okx))
            && (e.source.None? <==> e == PriceEntry(None, None, None, None))
  {
    var r := CryptoPrices(now, tickersParam, binance, bybit, okx);
    HolderSource(r.prices[i].0, AdapterMap(binance, Binance), AdapterMap(bybit, Bybit), AdapterMap(okx, Okx));
  }

  /** The entry built from the first holder among three maps, each of which
      holds quotes of one exchange only, names the exchange that answered. */
  lemma HolderSource(t: string, b: map<string, Quote>, y: map<string, Quote>, o: map<string, Quote>)
    requires forall k :: k in b ==> b[k].source == Binance
    requires forall k :: k in y ==> y[k].source == Bybit
    requires forall k :: k in o ==> o[k].source == Okx
    ensures var ms := [b, y, o];
            var h := FirstHolder(t, ms);
            var e := EntryOf(if h.Some? then Some(ms[h.value][t]) else None);
            && (e.source == Some(Binance) <==> t in b)
            && (e.source == Some(Bybit) <==> t !in b && t in y)
            && (e.source == Some(Okx) <==> t !in b && t !in y && t in o)
            && (e.source.None? <==> e == PriceEntry(None, None, None, None))
  {
    FirstHolderOfThree(t, b, y, o);
  }

  /** When Binance fails, a ticker Bybit lists is answered by Bybit, whatever
      OKX returned. */
  lemma FallbackToBybit(now: string, tickersParam: Option<string>, reason: string,
                        bybitPayload: Value, okx: Settled<Value>, i: nat)
    requires i < |RequestedTickers(tickersParam)|
    requires RequestedTickers(tickersParam)[i] in BybitMap(bybitPayload)
    ensures CryptoPrices(now, tickersParam, Rejected(reason), Fulfilled(bybitPayload), okx).prices[i].1
            == EntryOf(Some(BybitMap(bybitPayload)[RequestedTickers(tickersParam)[i]]))
  {
    var t := RequestedTickers(tickersParam)[i];
    FirstHolderOfThree(t, map[], BybitMap(bybitPayload), AdapterMap(okx, Okx));
  }

  /** A Binance row listed with a null price still answers first: the
      fallback is by presence of the ticker, not by the price being usable. */
  lemma BinanceRowWithoutPriceWins(now: string, tickersParam: Option<string>,
                                   binancePayload: Value, bybit: Settled<Value>, okx: Settled<Value>, i: nat)
    requires i < |RequestedTickers(tickersParam)|
    requires RequestedTickers(tickersParam)[i] in BinanceMap(binancePayload)
    requires BinanceMap(binancePayload)[RequestedTickers(tickersParam)[i]].price.None?
    ensures CryptoPrices(now, tickersParam, Fulfilled(binancePayload), bybit, okx).prices[i].1.price.None?
    ensures CryptoPrices(now, tickersParam, Fulfilled(binancePayload), bybit, okx).prices[i].1.source == Some(Binance)
  {
    var t := RequestedTickers(tickersParam)[i];
    FirstHolderOfThree(t, BinanceMap(binancePayload), AdapterMap(bybit, Bybit), AdapterMap(okx, Okx));
  }

  // ----- /api/live -----

  /** The seven upstream outcomes `handleLive` waits for. */
  datatype LiveInputs = LiveInputs(
    binance: Settled<Value>, simple: Settled<Value>, global: Settled<Value>, fearGreed: Settled<Value>,
    fx: Settled<Value>, upbit: Settled<Value>, coinbase: Settled<Value>)

  /** Where a coin's `price_usd` came from. */
  datatype LiveSource = FromBinance | FromCoinGecko

  datatype LiveCoin = LiveCoin(priceUsd: Option<real>, change24hPct: Option<real>, source: LiveSource)

  /** The `/api/live` body. Raw upstream values (`upbit_krw`, dominance,
      `usdkrw`) are passed through as JSON; `null` stands for a missing one.
      The dominance block's constant `source` field is not represented. */
  datatype LiveBody = LiveBody(
    asOf: string, btc: LiveCoin, btcUpbitKrw: Value, eth: LiveCoin, sol: LiveCoin,
    dominanceBtc: Value, dominanceEth: Value, fearGreed: Option<real>, usdKrw: Value,
    coinbaseBtcUsd: Option<real>, coinbasePremiumPct: Option<real>, coinbaseSource: Option<string>)

  /** Index of the last row whose `symbol` prints as `sym`: the row that
      `Object.fromEntries` keeps under that key. */
  function LastRowFor(rows: seq<Value>, sym: string): (r: Option<nat>)
    ensures r.Some? ==> r.value < |rows| && ToText(Get(rows[r.value], "symbol")) == Some(sym)
    ensures r.Some? ==> forall j :: r.value < j < |rows| ==> ToText(Get(rows[j], "symbol")) != Some(sym)
    ensures r.None? ==> forall j :: 0 <= j < |rows| ==> ToText(Get(rows[j], "symbol")) != Some(sym)
    decreases |rows|
  {
    if rows == [] then None
    else if ToText(Get(rows[|rows| - 1], "symbol")) == Some(sym) then Some(|rows| - 1)
    else
      var r := LastRowFor(rows[..|rows| - 1], sym);
      assert forall j :: 0 <= j < |rows| - 1 ==> rows[..|rows| - 1][j] == rows[j];
      r
  }

  /** `ticker?.[sym]`: the kept row, or `undefined`. */
  function TickerRow(rows: seq<Value>, sym: string): (row: Value)
    ensures LastRowFor(rows, sym).None? ==> row == Undefined
    ensures LastRowFor(rows, sym).Some? ==> row == rows[LastRowFor(rows, sym).value]
  {
    match LastRowFor(rows, sym)
    case Some(i) => rows[i]
    case None => Undefined
  }

  /** One coin of the live body: each of price and change is Binance's when
      Binance has it and CoinGecko's otherwise, and `source` says where the
      PRICE came from. */
  function MergeCoin(binancePrice: Option<real>, binancePct: Option<real>,
                     geckoPrice: Option<real>, geckoPct: Option<real>): (c: LiveCoin)
    ensures c.priceUsd.Some? <==> binancePrice.Some? || geckoPrice.Some?
    ensures binancePrice.Some? ==> c.priceUsd == binancePrice
    ensures binancePrice.None? ==> c.priceUsd == geckoPrice
    ensures c.change24hPct.Some? <==> binancePct.Some? || geckoPct.Some?
    ensures binancePct.Some? ==> c.change24hPct == binancePct
    ensures binancePct.None? ==> c.change24hPct == geckoPct
    ensures c.source == FromBinance <==> binancePrice.Some?
  {
    LiveCoin(binancePrice.OrElse(geckoPrice), binancePct.OrElse(geckoPct),
             if binancePrice.Some? then FromBinance else FromCoinGecko)
  }

  /** The fallback is per field: a coin can carry Binance's price next to
      CoinGecko's change, and is then labelled Binance. */
  lemma MergeCoinMixesSources(bp: real, gp: real, gc: real)
    ensures MergeCoin(Some(bp), None, Some(gp), Some(gc)) == LiveCoin(Some(bp), Some(gc), FromBinance)
  {
  }

  /** The Binance 24h rows: the payload when the fetch succeeded with an
      array, `[]` otherwise. */
  function BinanceRows(inp: LiveInputs): (rows: seq<Value>)
    ensures inp.binance.Rejected? ==> rows == []
  {
    RowsOf(ValueOrNull(inp.binance))
  }

  /** `toNum(ticker?.[sym]?.[field])`. */
  function BinanceField(inp: LiveInputs, sym: string, field: string): (r: Option<real>)
    ensures inp.binance.Rejected? ==> r == None
  {
    ToNum(Get(TickerRow(BinanceRows(inp), sym), field))
  }

  /** `toNum(simple?.[id]?.[field])`. */
  function GeckoField(inp: LiveInputs, geckoId: string, field: string): (r: Option<real>)
    ensures inp.simple.Rejected? ==> r == None
  {
    PathOfUndefined([field]);
    ToNum(Path(ValueOrNull(inp.simple), [geckoId, field]))
  }

  /** One coin of the live body, for its Binance symbol and CoinGecko id. */
  function Coin(inp: LiveInputs, sym: string, geckoId: string): (c: LiveCoin)
    ensures c.source == FromBinance <==> BinanceField(inp, sym, "lastPrice").Some?
    ensures c.source == FromBinance ==> c.priceUsd == BinanceField(inp, sym, "lastPrice")
    ensures c.source == FromCoinGecko ==> c.priceUsd == GeckoField(inp, geckoId, "usd")
    ensures BinanceField(inp, sym, "priceChangePercent").Some? ==> c.change24hPct == BinanceField(inp, sym, "priceChangePercent")
    ensures BinanceField(inp, sym, "priceChangePercent").None? ==> c.change24hPct == GeckoField(inp, geckoId, "usd_24h_change")
  {
    MergeCoin(BinanceField(inp, sym, "lastPrice"), BinanceField(inp, sym, "priceChangePercent"),
              GeckoField(inp, geckoId, "usd"), GeckoField(inp, geckoId, "usd_24h_change"))
  }

  /** `Number(fg?.data?.[0]?.value) || null` as it appears in the JSON body:
      0 and NaN are replaced by null, and an infinite value serialises as
      null too. */
  function FearGreed(fg: Value): (r: Option<real>)
    ensures var n := JsNumber.ToNumber(Get(At(Get(fg, "data"), 0), "value"));
            (r.Some? <==> n.Finite? && n.r != 0.0) && (r.Some? ==> r.value == n.r)
  {
    match JsNumber.ToNumber(Get(At(Get(fg, "data"), 0), "value"))
    case Finite(x) => if x == 0.0 then None else Some(x)
    case _ => None
  }

  /** An extreme-fear index of 0 is reported as missing. */
  lemma FearGreedZeroIsNull()
    ensures FearGreed(Obj(map["data" := Arr([Obj(map["value" := Str("0")])])])) == None
  {
    var v := Get(At(Get(Obj(map["data" := Arr([Obj(map["value" := Str("0")])])]), "data"), 0), "value");
    assert v == Str("0");
    JsNumber.ToNumberOfNatText(0);
    assert Decimal.NatText(0) == "0";
  }

  /** `Array.isArray(upbit) ? upbit[0]?.trade_price ?? null : null`. */
  function UpbitKrw(upbit: Value): (r: Value)
    ensures !upbit.Arr? || upbit.items == [] ==> r == Null
    ensures upbit.Arr? && upbit.items != [] && !IsNullish(Get(upbit.items[0], "trade_price"))
            ==> r == Get(upbit.items[0], "trade_price")
    ensures !r.Undefined?
  {
    if upbit.Arr? then Coalesce(Get(At(upbit, 0), "trade_price"), Null) else Null
  }

  /** `p` is the premium of `spot` over `base` in percent. */
  predicate IsPremium(p: real, spot: real, base: real) {
    p * base == (spot - base) * 100.0
  }

  /** The premium of `spot` over `base` in percent, present only when both
      prices are and the base price is not 0 (the guard of the Coinbase
      premium). */
  function PremiumPct(spot: Option<real>, base: Option<real>): (r: Option<real>)
    ensures r.Some? <==> spot.Some? && base.Some? && base.value != 0.0
    ensures r.Some? ==> IsPremium(r.value, spot.value, base.value)
  {
    if spot.Some? && base.Some? && base.value != 0.0
    then Some(((spot.value - base.value) / base.value) * 100.0)
    else None
  }

  /** `globalData?.data?.market_cap_percentage?.[coin] ?? null`. */
  function Dominance(inp: LiveInputs, coin: string): (r: Value)
    ensures !r.Undefined?
    ensures inp.global.Rejected? ==> r == Null
    ensures inp.global.Fulfilled? && !IsNullish(Path(inp.global.value, ["data", "market_cap_percentage", coin]))
            ==> r == Path(inp.global.value, ["data", "market_cap_percentage", coin])
    ensures inp.global.Fulfilled? && IsNullish(Path(inp.global.value, ["data", "market_cap_percentage", coin]))
            ==> r == Null
  {
    PathOfUndefined(["market_cap_percentage", coin]);
    Coalesce(Path(ValueOrNull(inp.global), ["data", "market_cap_percentage", coin]), Null)
  }

  /** `fx?.rates?.KRW ?? null`. */
  function UsdKrw(inp: LiveInputs): (r: Value)
    ensures !r.Undefined?
    ensures inp.fx.Rejected? ==> r == Null
    ensures inp.fx.Fulfilled? && !IsNullish(Path(inp.fx.value, ["rates", "KRW"])) ==> r == Path(inp.fx.value, ["rates", "KRW"])
    ensures inp.fx.Fulfilled? && IsNullish(Path(inp.fx.value, ["rates", "KRW"])) ==> r == Null
  {
    PathOfUndefined(["KRW"]);
    Coalesce(Path(ValueOrNull(inp.fx), ["rates", "KRW"]), Null)
  }

  /** `toNum(coinbase?.data?.amount)`. */
  function CoinbaseSpot(inp: LiveInputs): (r: Option<real>)
    ensures inp.coinbase.Rejected? ==> r == None
    ensures inp.coinbase.Fulfilled? ==> r == ToNum(Path(inp.coinbase.value, ["data", "amount"]))
    ensures inp.coinbase.Fulfilled? && r.Some? ==>
              JsNumber.ToNumber(Path(inp.coinbase.value, ["data", "amount"])) == Finite(r.value)
  {
    PathOfUndefined(["amount"]);
    ToNum(Path(ValueOrNull(inp.coinbase), ["data", "amount"]))
  }

  /** `handleLive`: BTC, ETH and SOL from Binance with CoinGecko as the
      per-field fallback, and the other blocks from their single source. */
  function Live(now: string, inp: LiveInputs): (r: LiveBody)
    ensures r.asOf == now
    ensures r.coinbaseSource.Some? <==> r.coinbaseBtcUsd.Some?
    ensures r.coinbaseSource.Some? ==> r.coinbaseSource.value == "coinbase+binance"
    ensures r.coinbasePremiumPct.Some? ==>
              r.coinbaseBtcUsd.Some? && r.btc.source == FromBinance && r.btc.priceUsd.Some? && r.btc.priceUsd.value != 0.0
    ensures r.coinbasePremiumPct.Some? ==>
              IsPremium(r.coinbasePremiumPct.value, r.coinbaseBtcUsd.value, r.btc.priceUsd.value)
    ensures r.coinbaseBtcUsd.Some? && r.btc.source == FromBinance && r.btc.priceUsd.Some? && r.btc.priceUsd.value != 0.0
            ==> r.coinbasePremiumPct.Some?
    ensures !r.btcUpbitKrw.Undefined? && !r.dominanceBtc.Undefined? && !r.dominanceEth.Undefined? && !r.usdKrw.Undefined?
    ensures r.btc == Coin(inp, "BTCUSDT", "bitcoin")
    ensures r.eth == Coin(inp, "ETHUSDT", "ethereum")
    ensures r.sol == Coin(inp, "SOLUSDT", "solana")
    ensures r.dominanceBtc == Dominance(inp, "btc") && r.dominanceEth == Dominance(inp, "eth")
    ensures r.usdKrw == UsdKrw(inp)
    ensures r.fearGreed == FearGreed(ValueOrNull(inp.fearGreed))
    ensures r.btcUpbitKrw == UpbitKrw(ValueOrNull(inp.upbit))
    ensures r.coinbaseBtcUsd == CoinbaseSpot(inp)
  {
    var btc := Coin(inp, "BTCUSDT", "bitcoin");
    var spot := CoinbaseSpot(inp);
    var binanceBtc := BinanceField(inp, "BTCUSDT", "lastPrice");
    var premium := PremiumPct(spot, binanceBtc);
    LiveBody(
      now,
      btc,
      UpbitKrw(ValueOrNull(inp.upbit)),
      Coin(inp, "ETHUSDT", "ethereum"),
      Coin(inp, "SOLUSDT", "solana"),
      Dominance(inp, "btc"),
      Dominance(inp, "eth"),
      FearGreed(ValueOrNull(inp.fearGreed)),
      UsdKrw(inp),
      spot,
      premium,
      if spot.Some? then Some("coinbase+binance") else None)
  }

  /** When every upstream call fails the body is all null, with the coins
      labelled CoinGecko. */
  lemma LiveAllFailed(now: string, e: string)
    ensures var r := Live(now, LiveInputs(Rejected(e), Rejected(e), Rejected(e), Rejected(e), Rejected(e), Rejected(e), Rejected(e)));
            && r.btc == LiveCoin(None, None, FromCoinGecko)
            && r.eth == LiveCoin(None, None, FromCoinGecko)
            && r.sol == LiveCoin(None, None, FromCoinGecko)
            && r.btcUpbitKrw == Null && r.dominanceBtc == Null && r.dominanceEth == Null
            && r.fearGreed == None && r.usdKrw == Null
            && r.coinbaseBtcUsd == None && r.coinbasePremiumPct == None && r.coinbaseSource == None
  {
    var inp := LiveInputs(Rejected(e), Rejected(e), Rejected(e), Rejected(e), Rejected(e), Rejected(e), Rejected(e));
    assert GeckoField(inp, "bitcoin", "usd_24h_change") == None;
    assert GeckoField(inp, "ethereum", "usd_24h_change") == None;
    assert GeckoField(inp, "solana", "usd_24h_change") == None;
    assert FearGreed(Null) == None;
  }

  /** With Binance down, a CoinGecko price is used and the Coinbase premium
      is not computed: the premium is only ever taken against Binance. */
  lemma LiveBinanceDown(now: string, inp: LiveInputs, reason: string)
    requires inp.binance == Rejected(reason)
    ensures Live(now, inp).btc.source == FromCoinGecko
    ensures Live(now, inp).btc.priceUsd == GeckoField(inp, "bitcoin", "usd")
    ensures Live(now, inp).coinbasePremiumPct == None
  {
    assert TickerRow(BinanceRows(inp), "BTCUSDT") == Undefined;
  }

  // ----- router -----

  /** The `cache-control` value of every JSON response: shared caches may
      serve a response for `TTL_SEC` = 60 seconds, and a stale one for 30
      more while it is refreshed. */
  const CacheControl: string := "public, max-age=60, s-maxage=60, stale-while-revalidate=30"

  /** Headers of `json(...)`. */
  function JsonHeaders(): map<string, string> {
    map["content-type" := "application/json; charset=utf-8",
        "cache-control" := CacheControl,
        "access-control-allow-origin" := "*"]
  }

  /** Headers of the CORS preflight answer. */
  function PreflightHeaders(): map<string, string> {
    map["access-control-allow-origin" := "*",
        "access-control-allow-methods" := "GET, OPTIONS",
        "access-control-allow-headers" := "content-type"]
  }

  datatype Body = NoBody | LiveJson(live: LiveBody) | PricesJson(prices: PricesBody)
                | HealthJson(ok: bool, ts: string) | ErrorJson(error: string)

  datatype Response = Response(status: nat, headers: map<string, string>, body: Body)

  /** `json(data, status)`. */
  function JsonResponse(body: Body, status: nat): (r: Response)
    ensures r.status == status && r.body == body
    ensures "cache-control" in r.headers && "access-control-allow-origin" in r.headers
    ensures r.headers["cache-control"] == "public, max-age=60, s-maxage=60, stale-while-revalidate=30"
    ensures r.headers["access-control-allow-origin"] == "*"
  {
    Response(status, JsonHeaders(), body)
  }

  /** The handler outcome as a response: the body with 200, or 502 with the
      error text when the handler threw. */
  function Guarded(outcome: Settled<Body>): (r: Response)
    ensures outcome.Fulfilled? ==> r == JsonResponse(outcome.value, 200)
    ensures outcome.Rejected? ==> r == JsonResponse(ErrorJson(outcome.reason), 502)
  {
    match outcome
    case Fulfilled(b) => JsonResponse(b, 200)
    case Rejected(e) => JsonResponse(ErrorJson(e), 502)
  }

  /** The worker's `fetch`: preflight, the two API routes, the health probe,
      and 404 for everything else. `live` and `prices` are the outcomes the
      two handlers would produce for this request. */
  function Route(httpMethod: string, path: string, now: string,
                 live: Settled<LiveBody>, prices: Settled<PricesBody>): (r: Response)
    ensures httpMethod == "OPTIONS" ==> r == Response(200, PreflightHeaders(), NoBody)
    ensures httpMethod != "OPTIONS" ==> r.headers == JsonHeaders()
    ensures r.status == 404 <==> httpMethod != "OPTIONS" && path != "/api/live"
                                 && path != "/api/crypto-prices" && path != "/health"
    ensures r.status == 404 ==> r.body == ErrorJson("not found")
    ensures r.status == 502 <==> httpMethod != "OPTIONS"
                                 && ((path == "/api/live" && live.Rejected?)
                                     || (path == "/api/crypto-prices" && prices.Rejected?))
    ensures httpMethod != "OPTIONS" && path == "/api/live" && live.Fulfilled? ==> r.body == LiveJson(live.value)
    ensures httpMethod != "OPTIONS" && path == "/api/crypto-prices" && prices.Fulfilled?
            ==> r.body == PricesJson(prices.value)
    ensures httpMethod != "OPTIONS" && path == "/health" ==> r == JsonResponse(HealthJson(true, now), 200)
    ensures r.status in {200, 404, 502}
  {
    if httpMethod == "OPTIONS" then Response(200, PreflightHeaders(), NoBody)
    else if path == "/api/live" then
      Guarded(match live case Fulfilled(b) => Fulfilled(LiveJson(b)) case Rejected(e) => Rejected(e))
    else if path == "/api/crypto-prices" then
      Guarded(match prices case Fulfilled(b) => Fulfilled(PricesJson(b)) case Rejected(e) => Rejected(e))
    else if path == "/health" then JsonResponse(HealthJson(true, now), 200)
    else JsonResponse(ErrorJson("not found"), 404)
  }

  /** A preflight is answered before the path is looked at, even for an
      unknown path. */
  lemma PreflightIgnoresPath(path: string, now: string, live: Settled<LiveBody>, prices: Settled<PricesBody>)
    ensures Route("OPTIONS", path, now, live, prices) == Route("OPTIONS", "/api/live", now, live, prices)
    ensures Route("OPTIONS", path, now, live, prices).status == 200
  {
  }
}

=== FILE: gateway_adapters.dfy ===
/** The source adapters of workers/mode-a-gateway.js: numeric decoding that
    rejects non-finite values, per-exchange percent normalisation, ticker
    validation, and the three exchange adapters that turn a ticker payload
    into a map from base symbol to quote. */
module GatewayAdapters {
  import opened Common
  import opened Json
  import JsNumber
  import Text
  import Decimal

  /** `toNum`: `Number(v)` when it is finite, otherwise absent. */
  function ToNum(v: Value): (r: Option<real>)
    ensures r.Some? <==> JsNumber.ToNumber(v).Finite?
    ensures r.Some? ==> JsNumber.ToNumber(v) == Finite(r.value)
  {
    match JsNumber.ToNumber(v)
    case Finite(x) => Some(x)
    case _ => None
  }

  /** `Number` coercion makes `null` and `""` read as 0, while `undefined`,
      `"NaN"` and an object are rejected. */
  lemma ToNumCoercion()
    ensures ToNum(Null) == Some(0.0)
    ensures ToNum(Str("")) == Some(0.0)
    ensures ToNum(Undefined) == None
    ensures ToNum(Str("NaN")) == None
    ensures ToNum(Obj(map[])) == None
  {
    JsNumber.ToNumberOfEmpty();
    JsNumber.ToNumberOfNonNumeric();
  }

  /** `"Infinity"` is a number, but not a finite one. */
  lemma ToNumOfInfinity()
    ensures ToNum(Str("Infinity")) == None
  {
    JsNumber.TrimOfUnpadded("Infinity");
  }

  /** The decimal text of a whole number reads back as that number. */
  lemma ToNumOfNatText(n: nat)
    ensures ToNum(Str(Decimal.NatText(n))) == Some(n as real)
    ensures ToNum(Str("-" + Decimal.NatText(n))) == Some(-(n as real))
  {
    JsNumber.NatTextToNumber(n);
    NegatedNatTextToNum(n);
  }

  /** `toNum` of a negated whole number's text is that negative number. */
  lemma NegatedNatTextToNum(n: nat)
    ensures ToNum(Str("-" + Decimal.NatText(n))) == Some(-(n as real))
  {
    JsNumber.NegatedNatTextToNumber(n);
  }

  /** `pctFromBybit`: Bybit reports the 24h change as a ratio (0.01 is
      1%), so the percentage is 100 times the decoded ratio. */
  function PctFromBybit(v: Value): (r: Option<real>)
    ensures r.None? <==> ToNum(v).None?
    ensures r.Some? ==> r.value == 100.0 * ToNum(v).value
  {
    match ToNum(v)
    case Some(n) => Some(n * 100.0)
    case None => None
  }

  /** `pctFromOhlc`: the change from the 24h open to the last price in
      percent, absent when either price is absent or the open is 0. */
  function PctFromOhlc(last: Value, open: Value): (r: Option<real>)
    ensures r.Some? <==> ToNum(last).Some? && ToNum(open).Some? && ToNum(open).value != 0.0
    ensures r.Some? ==> r.value * ToNum(open).value == (ToNum(last).value - ToNum(open).value) * 100.0
  {
    var l := ToNum(last);
    var o := ToNum(open);
    if l.None? || o.None? || o.value == 0.0 then None
    else Some(((l.value - o.value) / o.value) * 100.0)
  }

  /** A canonical ticker: a non-empty string over `[A-Z0-9]`. */
  predicate IsTicker(t: string) {
    |t| >= 1 && forall i :: 0 <= i < |t| ==> Text.IsUpperAlnum(t[i])
  }

  /** `normalizeTicker` for the comma-separated pieces of the `tickers`
      query parameter: trimmed, upper-cased, and kept only when it matches
      `^[A-Z0-9]+$`. */
  function NormalizeTicker(raw: string): (r: Option<string>)
    ensures r.Some? ==> IsTicker(r.value)
    ensures r.Some? <==> IsTicker(Text.Upper(Text.JsTrim(raw)))
    ensures raw == "" ==> r.None?
  {
    if raw == "" then None
    else
      var t := Text.Upper(Text.JsTrim(raw));
      if IsTicker(t) then Some(t) else None
  }

  /** Normalising a normalised ticker gives it back unchanged. */
  lemma NormalizeTickerIdempotent(raw: string)
    requires NormalizeTicker(raw).Some?
    ensures NormalizeTicker(NormalizeTicker(raw).value) == NormalizeTicker(raw)
  {
    var t := NormalizeTicker(raw).value;
    JsNumber.TrimOfUnpadded(t);
    Text.UpperOfUpperAlnum(t);
  }

  /** Lower-case input is accepted upper-cased. */
  lemma NormalizeTickerOfLower()
    ensures NormalizeTicker("eth") == Some("ETH")
  {
    JsNumber.TrimOfUnpadded("eth");
    assert Text.Upper("h") == "H";
    assert Text.Upper("th") == "TH";
    assert Text.Upper("eth") == "ETH";
  }

  /** Surrounding blanks are dropped. */
  lemma NormalizeTickerOfPadded()
    ensures NormalizeTicker(" btc ") == Some("BTC")
  {
    TrimPaddedBtc();
    UpperBtc();
    assert IsTicker("BTC");
  }

  /** Trimming removes the one blank on each side. */
  lemma TrimPaddedBtc()
    ensures Text.JsTrim(" btc ") == "btc"
  {
    assert Text.LeadingCount(" btc ", Text.IsJsSpace) == 1;
    assert Text.TrailingCount(" btc ", Text.IsJsSpace) == 1;
  }

  /** Upper-casing `btc`, character by character. */
  lemma UpperBtc()
    ensures Text.Upper("btc") == "BTC"
  {
    assert Text.Upper("c") == "C";
    assert Text.Upper("tc") == "TC";
  }

  /** Punctuation is rejected. */
  lemma NormalizeTickerOfPunctuation()
    ensures NormalizeTicker("???") == None
  {
    JsNumber.TrimOfUnpadded("???");
    assert !Text.IsUpperAlnum(Text.Upper("???")[0]);
  }

  /** Index of the first occurrence of `x` in `s`. */
  function FirstIndex(s: seq<string>, x: string): (k: nat)
    requires x in s
    ensures k < |s| && s[k] == x && x !in s[..k]
  {
    if s[0] == x then 0 else 1 + FirstIndex(s[1..], x)
  }

  /** The elements of `r` all occur in `s`, in the order of their first
      occurrence there. */
  predicate InFirstOccurrenceOrder(r: seq<string>, s: seq<string>) {
    (forall x :: x in r ==> x in s)
    && forall i, j :: 0 <= i < j < |r| ==> FirstIndex(s, r[i]) < FirstIndex(s, r[j])
  }

  /** `[...new Set(s)]`: each element once, in the order of first
      occurrence. */
  function Dedupe(s: seq<string>): (r: seq<string>)
    ensures NoDuplicates(r)
    ensures forall x :: x in r <==> x in s
    ensures InFirstOccurrenceOrder(r, s)
    decreases |s|
  {
    if s == [] then []
    else
      var front := s[..|s| - 1];
      var d := Dedupe(front);
      var x := s[|s| - 1];
      DedupeStep(s, d);
      if x in d then d else d + [x]
  }

  /** One step of `Dedupe`: the result for all but the last element stays
      in order against the whole list, and so does it with the last element
      appended when that element is new. */
  lemma DedupeStep(s: seq<string>, d: seq<string>)
    requires s != [] && NoDuplicates(d)
    requires (forall y :: y in d <==> y in s[..|s| - 1]) && InFirstOccurrenceOrder(d, s[..|s| - 1])
    ensures InFirstOccurrenceOrder(d, s)
    ensures s[|s| - 1] !in d ==> InFirstOccurrenceOrder(d + [s[|s| - 1]], s) && NoDuplicates(d + [s[|s| - 1]])
  {
    var front := s[..|s| - 1];
    forall y | y in front ensures FirstIndex(s, y) == FirstIndex(front, y) {
      FirstIndexOfPrefix(front, s, y);
    }
    assert InFirstOccurrenceOrder(d, s) by {
      forall y | y in d ensures y in s {
        assert y in front;
      }
    }
    if s[|s| - 1] !in d {
      DedupeAppend(s, d);
    }
  }

  /** Appending the last element, new to `d`, keeps `d` in order. */
  lemma DedupeAppend(s: seq<string>, d: seq<string>)
    requires s != [] && NoDuplicates(d) && s[|s| - 1] !in d
    requires forall y :: y in d <==> y in s[..|s| - 1]
    requires InFirstOccurrenceOrder(d, s)
    ensures InFirstOccurrenceOrder(d + [s[|s| - 1]], s) && NoDuplicates(d + [s[|s| - 1]])
  {
    var x := s[|s| - 1];
    var e := d + [x];
    assert x !in s[..|s| - 1];
    assert FirstIndex(s, x) == |s| - 1;
    forall i, j | 0 <= i < j < |e| ensures FirstIndex(s, e[i]) < FirstIndex(s, e[j]) {
      assert e[i] == d[i] && d[i] in d;
      assert e[i] != x;
    }
  }

  lemma {:induction false} FirstIndexOfPrefix(p: seq<string>, s: seq<string>, y: string)
    requires y in p && |p| <= |s| && p == s[..|p|]
    ensures FirstIndex(s, y) == FirstIndex(p, y)
    decreases |p|
  {
    if s[0] != y {
      assert p[1..] == s[1..][..|p| - 1];
      FirstIndexOfPrefix(p[1..], s[1..], y);
    }
  }

  /** `normalizeTicker` of each piece. */
  function Normals(pieces: seq<string>): (ns: seq<Option<string>>)
    ensures |ns| == |pieces|
    ensures forall i :: 0 <= i < |pieces| ==> ns[i] == NormalizeTicker(pieces[i])
  {
    seq(|pieces|, i requires 0 <= i < |pieces| => NormalizeTicker(pieces[i]))
  }

  /** `r` lists the present values of `ns` at the strictly increasing
      positions `idx`, and every present value has its position there. */
  predicate KeptInOrder(r: seq<string>, ns: seq<Option<string>>, idx: seq<nat>) {
    |idx| == |r|
    && (forall k :: 0 <= k < |idx| ==> idx[k] < |ns| && ns[idx[k]] == Some(r[k]))
    && (forall k, l :: 0 <= k < l < |idx| ==> idx[k] < idx[l])
    && (forall i :: 0 <= i < |ns| && ns[i].Some? ==> i in idx)
  }

  /** The positions of the pieces that normalise, in increasing order. */
  function ValidIndices(pieces: seq<string>): (idx: seq<nat>)
    ensures forall k :: 0 <= k < |idx| ==> idx[k] < |pieces|
    decreases |pieces|
  {
    if pieces == [] then []
    else
      var front := ValidIndices(pieces[..|pieces| - 1]);
      if NormalizeTicker(pieces[|pieces| - 1]).Some? then front + [|pieces| - 1] else front
  }

  /** `raw.map(normalizeTicker).filter(Boolean)`: the normalised pieces,
      in order, with the rejected ones dropped. */
  function ValidTickers(pieces: seq<string>): (r: seq<string>)
    ensures forall t :: t in r ==> IsTicker(t)
    ensures forall t :: t in r <==> exists p :: p in pieces && NormalizeTicker(p) == Some(t)
    ensures KeptInOrder(r, Normals(pieces), ValidIndices(pieces))
    decreases |pieces|
  {
    if pieces == [] then []
    else
      var front := pieces[..|pieces| - 1];
      var last := pieces[|pieces| - 1];
      var init := ValidTickers(front);
      var r := match NormalizeTicker(last)
               case Some(t) => init + [t]
               case None => init;
      NormalsOfFront(pieces);
      KeptInOrderStep(init, Normals(pieces), ValidIndices(front), r);
      KeptTickers(r, pieces, ValidIndices(pieces));
      r
  }

  /** What `KeptInOrder` keeps is exactly the normalised forms of the
      pieces that normalise, all of them tickers. */
  lemma KeptTickers(r: seq<string>, pieces: seq<string>, idx: seq<nat>)
    requires KeptInOrder(r, Normals(pieces), idx)
    ensures forall t :: t in r ==> IsTicker(t)
    ensures forall t :: t in r <==> exists p :: p in pieces && NormalizeTicker(p) == Some(t)
  {
    var ns := Normals(pieces);
    forall t | t in r ensures exists p :: p in pieces && NormalizeTicker(p) == Some(t) {
      var k :| 0 <= k < |r| && r[k] == t;
      assert NormalizeTicker(pieces[idx[k]]) == Some(t);
    }
    forall t | exists p :: p in pieces && NormalizeTicker(p) == Some(t) ensures t in r {
      var p :| p in pieces && NormalizeTicker(p) == Some(t);
      var i :| 0 <= i < |pieces| && pieces[i] == p;
      assert ns[i].Some?;
      var k :| 0 <= k < |idx| && idx[k] == i;
      assert r[k] == t;
    }
  }

  /** The normal forms of all but the last piece are a prefix of those of
      all the pieces. */
  lemma NormalsOfFront(pieces: seq<string>)
    requires pieces != []
    ensures Normals(pieces[..|pieces| - 1]) == Normals(pieces)[..|pieces| - 1]
  {
  }

  /** Extending `ns` by one keeps `KeptInOrder`, with the last position
      added when the last value is present. */
  lemma KeptInOrderStep(init: seq<string>, ns: seq<Option<string>>, idx: seq<nat>, r: seq<string>)
    requires ns != [] && KeptInOrder(init, ns[..|ns| - 1], idx)
    requires r == match ns[|ns| - 1]
                  case Some(t) => init + [t]
                  case None => init
    ensures KeptInOrder(r, ns, if ns[|ns| - 1].Some? then idx + [|ns| - 1] else idx)
  {
    var n := |ns| - 1;
    var front := ns[..n];
    var idx' := if ns[n].Some? then idx + [n] else idx;
    forall k | 0 <= k < |idx'|
      ensures idx'[k] < |ns| && ns[idx'[k]] == Some(r[k])
    {
      if k < |idx| {
        assert idx'[k] == idx[k] && r[k] == init[k] && front[idx[k]] == ns[idx[k]];
      }
    }
    forall k, l | 0 <= k < l < |idx'| ensures idx'[k] < idx'[l] {
      if l < |idx| {
        assert idx'[k] == idx[k] && idx'[l] == idx[l];
      } else {
        assert idx'[k] == idx[k] < |front|;
      }
    }
    forall i | 0 <= i < |ns| && ns[i].Some? ensures i in idx' {
      if i < n {
        assert front[i] == ns[i];
        assert i in idx;
      } else {
        assert idx'[|idx'| - 1] == n;
      }
    }
  }

  /** The `tickers` query parameter (`null` when it is absent) as the list
      of requested tickers: split on commas, normalised, invalid pieces
      dropped, duplicates removed keeping the first occurrence. */
  function RequestedTickers(param: Option<string>): (r: seq<string>)
    ensures NoDuplicates(r)
    ensures forall t :: t in r ==> IsTicker(t)
    ensures forall t :: t in r <==> exists p :: p in Text.Split(param.GetOr(""), ',') && NormalizeTicker(p) == Some(t)
    ensures param.None? || param == Some("") ==> r == []
    ensures InFirstOccurrenceOrder(r, ValidTickers(Text.Split(param.GetOr(""), ',')))
  {
    var pieces := Text.Split(param.GetOr(""), ',');
    assert param.GetOr("") == "" ==> pieces == [""] && ValidTickers(pieces) == [];
    Dedupe(ValidTickers(pieces))
  }

  /** Which exchange a quote came from. */
  datatype Source = Binance | Bybit | Okx

  /** One adapter record: price and 24h change in percent (each possibly
      absent), the exchange, and the exchange's own pair symbol. */
  datatype Quote = Quote(price: Option<real>, change24h: Option<real>, source: Source, pair: string)

  /** `String(row?.symbol || "")`: a falsy symbol prints as "", anything
      else as `String` prints it (`None` where that is not modelled). */
  function SymbolText(v: Value): (r: Option<string>)
    ensures !Truthy(v) ==> r == Some("")
    ensures v.Str? ==> r == Some(v.s)
  {
    if !Truthy(v) then Some("") else ToText(v)
  }

  /** `e` is an entry for the key `k`. */
  predicate HasKey(e: Option<(string, Quote)>, k: string) {
    e.Some? && e.value.0 == k
  }

  /** A `Map` filled by successive `set` calls, one per accepted row: every
      accepted row leaves its key in the map, and every key maps to the quote
      of a row that produced it. */
  function LastWins(es: seq<Option<(string, Quote)>>): (m: map<string, Quote>)
    ensures forall i :: 0 <= i < |es| && es[i].Some? ==> es[i].value.0 in m
    ensures forall k :: k in m ==> exists i :: 0 <= i < |es| && es[i] == Some((k, m[k]))
    decreases |es|
  {
    if es == [] then map[]
    else
      var front := es[..|es| - 1];
      var m := LastWins(front);
      assert forall i :: 0 <= i < |front| ==> front[i] == es[i];
      match es[|es| - 1]
      case Some((k, q)) =>
        var m' := m[k := q];
        assert es[|es| - 1] == Some((k, m'[k]));
        assert forall k' :: k' in m' && k' != k ==> k' in m && m'[k'] == m[k'];
        m'
      case None => m
  }

  /** Index of the last entry for `k`. */
  function LastIndex(es: seq<Option<(string, Quote)>>, k: string): (r: Option<nat>)
    ensures r.Some? ==> r.value < |es| && HasKey(es[r.value], k)
    ensures r.Some? ==> forall j :: r.value < j < |es| ==> !HasKey(es[j], k)
    ensures r.None? ==> forall j :: 0 <= j < |es| ==> !HasKey(es[j], k)
    decreases |es|
  {
    if es == [] then None
    else if HasKey(es[|es| - 1], k) then Some(|es| - 1)
    else
      var r := LastIndex(es[..|es| - 1], k);
      assert forall j :: 0 <= j < |es| - 1 ==> es[..|es| - 1][j] == es[j];
      r
  }

  /** The later of two rows with the same key wins: the map holds the quote
      of the LAST entry for the key, and has no key no entry produced. */
  lemma {:induction false} LastWinsLookup(es: seq<Option<(string, Quote)>>, k: string)
    ensures k in LastWins(es) <==> LastIndex(es, k).Some?
    ensures k in LastWins(es) ==> es[LastIndex(es, k).value] == Some((k, LastWins(es)[k]))
    decreases |es|
  {
    if es != [] {
      var front := es[..|es| - 1];
      LastWinsLookup(front, k);
      assert forall j :: 0 <= j < |front| ==> front[j] == es[j];
    }
  }

  /** The rows of a payload that is an array, `[]` otherwise. */
  function RowsOf(payload: Value): (rows: seq<Value>)
    ensures !payload.Arr? ==> rows == []
    ensures payload.Arr? ==> rows == payload.items
  {
    if payload.Arr? then payload.items else []
  }

  /** One Binance ticker row: kept when its symbol ends in `USDT` and the
      base before it is non-empty; the key is that base. */
  function BinanceEntry(row: Value): (r: Option<(string, Quote)>)
    ensures r.Some? <==> exists b :: b != "" && SymbolText(Get(row, "symbol")) == Some(b + "USDT")
    ensures r.Some? ==> r.value.0 != "" && r.value.1 == Quote(ToNum(Get(row, "lastPrice")),
              ToNum(Get(row, "priceChangePercent")), Binance, r.value.0 + "USDT")
    ensures r.Some? ==> SymbolText(Get(row, "symbol")) == Some(r.value.0 + "USDT")
  {
    match SymbolText(Get(row, "symbol"))
    case Some(sym) =>
      if Text.EndsWith(sym, "USDT") && |sym| > 4 then
        assert sym == sym[..|sym| - 4] + "USDT";
        Some((sym[..|sym| - 4],
              Quote(ToNum(Get(row, "lastPrice")), ToNum(Get(row, "priceChangePercent")), Binance, sym)))
      else
        None
    case None => None
  }

  /** Entries of the accepted rows of a list, in row order. */
  function BinanceEntries(rows: seq<Value>): (es: seq<Option<(string, Quote)>>)
    ensures |es| == |rows| && forall i :: 0 <= i < |rows| ==> es[i] == BinanceEntry(rows[i])
  {
    seq(|rows|, i requires 0 <= i < |rows| => BinanceEntry(rows[i]))
  }

  /** `fetchBinanceMap` after the request succeeded: the 24h ticker array
      keyed by base symbol; a payload that is not an array gives an empty
      map. */
  function BinanceMap(payload: Value): (r: map<string, Quote>)
    ensures !payload.Arr? ==> r == map[]
    ensures forall i :: 0 <= i < |RowsOf(payload)| && BinanceEntry(RowsOf(payload)[i]).Some? ==>
              BinanceEntry(RowsOf(payload)[i]).value.0 in r
    ensures forall k :: k in r ==> k != "" && r[k].pair == k + "USDT" && r[k].source == Binance
    ensures forall k :: k in r ==> exists i :: (0 <= i < |RowsOf(payload)|
              && BinanceEntry(RowsOf(payload)[i]) == Some((k, r[k])))
  {
    BinanceKeys(RowsOf(payload));
    LastWins(BinanceEntries(RowsOf(payload)))
  }

  /** Every key of the Binance map is a non-empty base of a `USDT` pair quoted by Binance. */
  lemma BinanceKeys(rows: seq<Value>)
    ensures forall k :: k in LastWins(BinanceEntries(rows)) ==>
              k != "" && LastWins(BinanceEntries(rows))[k].pair == k + "USDT"
              && LastWins(BinanceEntries(rows))[k].source == Binance
  {
    var es := BinanceEntries(rows);
    var m := LastWins(es);
    forall k | k in m
      ensures k != "" && m[k].pair == k + "USDT" && m[k].source == Binance
    {
      var i :| 0 <= i < |es| && es[i] == Some((k, m[k]));
      assert BinanceEntry(rows[i]) == Some((k, m[k]));
    }
  }

  /** The ticker rows of a Bybit payload: `data?.result?.list` when it is
      an array. */
  function BybitRows(payload: Value): seq<Value> {
    RowsOf(Path(payload, ["result", "list"]))
  }

  /** One Bybit spot ticker row: same symbol rule as Binance; the change
      is a ratio scaled to percent. */
  function BybitEntry(row: Value): (r: Option<(string, Quote)>)
    ensures r.Some? <==> exists b :: b != "" && SymbolText(Get(row, "symbol")) == Some(b + "USDT")
    ensures r.Some? ==> r.value.0 != "" && r.value.1 == Quote(ToNum(Get(row, "lastPrice")),
              PctFromBybit(Get(row, "price24hPcnt")), Bybit, r.value.0 + "USDT")
  {
    match SymbolText(Get(row, "symbol"))
    case Some(sym) =>
      if Text.EndsWith(sym, "USDT") && |sym| > 4 then
        assert sym == sym[..|sym| - 4] + "USDT";
        Some((sym[..|sym| - 4],
              Quote(ToNum(Get(row, "lastPrice")), PctFromBybit(Get(row, "price24hPcnt")), Bybit, sym)))
      else
        None
    case None => None
  }

  function BybitEntries(rows: seq<Value>): (es: seq<Option<(string, Quote)>>)
    ensures |es| == |rows| && forall i :: 0 <= i < |rows| ==> es[i] == BybitEntry(rows[i])
  {
    seq(|rows|, i requires 0 <= i < |rows| => BybitEntry(rows[i]))
  }

  /** `fetchBybitMap` after the request succeeded: `result.list` keyed by
      base symbol. */
  function BybitMap(payload: Value): (r: map<string, Quote>)
    ensures !Path(payload, ["result", "list"]).Arr? ==> r == map[]
    ensures forall i :: 0 <= i < |BybitRows(payload)| && BybitEntry(BybitRows(payload)[i]).Some? ==>
              BybitEntry(BybitRows(payload)[i]).value.0 in r
    ensures forall k :: k in r ==> k != "" && r[k].pair == k + "USDT" && r[k].source == Bybit
    ensures forall k :: k in r ==> exists i :: (0 <= i < |BybitRows(payload)|
              && BybitEntry(BybitRows(payload)[i]) == Some((k, r[k])))
  {
    BybitKeys(BybitRows(payload));
    LastWins(BybitEntries(BybitRows(payload)))
  }

  /** Every key of the Bybit map is a non-empty base of a `USDT` pair quoted by Bybit. */
  lemma BybitKeys(rows: seq<Value>)
    ensures forall k :: k in LastWins(BybitEntries(rows)) ==>
              k != "" && LastWins(BybitEntries(rows))[k].pair == k + "USDT"
              && LastWins(BybitEntries(rows))[k].source == Bybit
  {
    var es := BybitEntries(rows);
    var m := LastWins(es);
    forall k | k in m
      ensures k != "" && m[k].pair == k + "USDT" && m[k].source == Bybit
    {
      var i :| 0 <= i < |es| && es[i] == Some((k, m[k]));
      assert BybitEntry(rows[i]) == Some((k, m[k]));
    }
  }

  /** The ticker rows of an OKX payload: `data?.data` when it is an
      array. */
  function OkxRows(payload: Value): seq<Value> {
    RowsOf(Path(payload, ["data"]))
  }

  /** One OKX spot ticker row: kept when `instId` ends in `-USDT`; the key
      is `instId` with the FIRST `-USDT` removed (`String.replace`), and
      the change is derived from the 24h open. */
  function OkxEntry(row: Value): (r: Option<(string, Quote)>)
    ensures r.Some? <==> exists b :: SymbolText(Get(row, "instId")) == Some(b + "-USDT")
    ensures r.Some? ==> r.value.1 == Quote(ToNum(Get(row, "last")),
              PctFromOhlc(Get(row, "last"), Get(row, "open24h")), Okx, r.value.1.pair)
    ensures r.Some? ==> SymbolText(Get(row, "instId")) == Some(r.value.1.pair)
                        && r.value.0 == Text.ReplaceFirst(r.value.1.pair, "-USDT", "")
  {
    match SymbolText(Get(row, "instId"))
    case Some(inst) =>
      if Text.EndsWith(inst, "-USDT") then
        assert inst == inst[..|inst| - 5] + "-USDT";
        Some((Text.ReplaceFirst(inst, "-USDT", ""),
              Quote(ToNum(Get(row, "last")), PctFromOhlc(Get(row, "last"), Get(row, "open24h")), Okx, inst)))
      else
        None
    case None => None
  }

  function OkxEntries(rows: seq<Value>): (es: seq<Option<(string, Quote)>>)
    ensures |es| == |rows| && forall i :: 0 <= i < |rows| ==> es[i] == OkxEntry(rows[i])
  {
    seq(|rows|, i requires 0 <= i < |rows| => OkxEntry(rows[i]))
  }

  /** `fetchOkxMap` after the request succeeded: `data` keyed by base. */
  function OkxMap(payload: Value): (r: map<string, Quote>)
    ensures !Path(payload, ["data"]).Arr? ==> r == map[]
    ensures forall i :: 0 <= i < |OkxRows(payload)| && OkxEntry(OkxRows(payload)[i]).Some? ==>
              OkxEntry(OkxRows(payload)[i]).value.0 in r
    ensures forall k :: k in r ==> r[k].source == Okx && k == Text.ReplaceFirst(r[k].pair, "-USDT", "")
    ensures forall k :: k in r ==> exists i :: (0 <= i < |OkxRows(payload)|
              && OkxEntry(OkxRows(payload)[i]) == Some((k, r[k])))
  {
    OkxKeys(OkxRows(payload));
    LastWins(OkxEntries(OkxRows(payload)))
  }

  /** Every key of the OKX map is its pair with the first `-USDT` removed. */
  lemma OkxKeys(rows: seq<Value>)
    ensures forall k :: k in LastWins(OkxEntries(rows)) ==>
              LastWins(OkxEntries(rows))[k].source == Okx
              && k == Text.ReplaceFirst(LastWins(OkxEntries(rows))[k].pair, "-USDT", "")
  {
    var es := OkxEntries(rows);
    var m := LastWins(es);
    forall k | k in m
      ensures m[k].source == Okx && k == Text.ReplaceFirst(m[k].pair, "-USDT", "")
    {
      var i :| 0 <= i < |es| && es[i] == Some((k, m[k]));
      assert OkxEntry(rows[i]) == Some((k, m[k]));
    }
  }

  /** Of two Binance rows for the same symbol, the later one is kept. */
  lemma BinanceLaterRowWins(first: Value, second: Value)
    requires BinanceEntry(first).Some? && BinanceEntry(second).Some?
    requires BinanceEntry(first).value.0 == BinanceEntry(second).value.0
    ensures BinanceMap(Arr([first, second]))[BinanceEntry(second).value.0] == BinanceEntry(second).value.1
  {
    var es := BinanceEntries([first, second]);
    var k := BinanceEntry(second).value.0;
    LastWinsLookup(es, k);
    assert HasKey(es[1], k);
  }

  /** When `-USDT` occurs in an OKX id only as its suffix, the key is the id
      without that suffix. */
  lemma OkxKeyOfPlainId(base: string)
    requires !Text.Contains(base + "-USDT", "-USDT") || Text.IndexOf(base + "-USDT", "-USDT") == Some(|base|)
    ensures Text.ReplaceFirst(base + "-USDT", "-USDT", "") == base
  {
    var s := base + "-USDT";
    assert Text.OccursAt(s, "-USDT", |base|);
    assert s[..|base|] == base;
  }

  /** An OKX id holding `-USDT` twice loses the first occurrence, not the
      suffix: `X-USDTY-USDT` is keyed `XY-USDT`. */
  lemma OkxKeyReplacesFirst()
    ensures Text.ReplaceFirst("X-USDTY-USDT", "-USDT", "") == "XY-USDT"
  {
    var s := "X-USDTY-USDT";
    assert Text.OccursAt(s, "-USDT", 1);
    assert s[0] == 'X';
    assert !Text.OccursAt(s, "-USDT", 0);
    assert Text.IndexOf(s, "-USDT") == Some(1);
  }
}

=== FILE: home.dfy ===
/** The landing page of dashboard/home.js: the merge of the CoinGecko
    prices and the exchange rate into a copy of the built-in fallback, which
    stops at the first coin whose record cannot be built, and the derived
    numbers of its long/short and market rows. */
module Home {
  import opened Common
  import opened Json
  import JsNumber
  import Dashboard

  // ----- cls / pct -----

  /** `cls(v)` of the landing page: only the sign counts, and anything that
      is not a number, as well as NaN, is flat. */
  function Cls(v: Value): (t: Dashboard.Trend)
    ensures t == Dashboard.Up <==> v.Number? && JsNumber.Positive(v.n)
    ensures t == Dashboard.Down <==> v.Number? && JsNumber.Less(v.n, Finite(0.0))
  {
    if !v.Number? then Dashboard.Flat
    else if JsNumber.Less(Finite(0.0), v.n) then Dashboard.Up
    else if JsNumber.Less(v.n, Finite(0.0)) then Dashboard.Down
    else Dashboard.Flat
  }

  /** The dashboard's class is the landing page's with small changes made
      flat: wherever the dashboard says up or down, so does this page. */
  lemma DashboardClsRefines(v: Value)
    ensures Dashboard.Cls(v) != Dashboard.Flat ==> Dashboard.Cls(v) == Cls(v)
  {
  }

  /** The sign prefix of `pct(v)`: none for a non-number (shown as "n/a"),
      "+" for a positive number, nothing otherwise (a negative number
      prints its own minus sign). */
  function PctPrefix(v: Value): (r: Option<string>)
    ensures r.None? <==> !v.Number?
    ensures r == Some("+") <==> v.Number? && JsNumber.Positive(v.n)
  {
    if !v.Number? then None
    else if JsNumber.Less(Finite(0.0), v.n) then Some("+")
    else Some("")
  }

  /** The prefix is "+" exactly when the class is up. */
  lemma PctPrefixMatchesCls(v: Value)
    ensures PctPrefix(v) == Some("+") <==> Cls(v) == Dashboard.Up
  {
  }

  // ----- boot -----

  /** The coins of the landing page, as (symbol, CoinGecko id). */
  const HomeCoins: seq<(string, string)> := [
    ("BTC", "bitcoin"), ("ETH", "ethereum"), ("XRP", "ripple"), ("SOL", "solana"),
    ("DOGE", "dogecoin"), ("BNB", "binancecoin"), ("AVAX", "avalanche-2"), ("TRX", "tron")]

  /** The new record of one coin: each field is the CoinGecko value unless
      it is null or missing, else the value already in `data`. */
  function HomeRecord(cg: Value, current: Value, id: string): (r: Value)
    ensures r.Obj? && r.fields.Keys == {"usd", "chg"}
    ensures r.fields["usd"] == Coalesce(Path(cg, [id, "usd"]), Get(current, "usd"))
    ensures r.fields["chg"] == Coalesce(Path(cg, [id, "usd_24h_change"]), Get(current, "chg"))
  {
    Obj(map["usd" := Coalesce(Path(cg, [id, "usd"]), Get(current, "usd")),
            "chg" := Coalesce(Path(cg, [id, "usd_24h_change"]), Get(current, "chg"))])
  }

  /** The outcome of the `forEach`: the data so far, and whether every coin
      was written (reading `.usd` or `.chg` of a missing record throws and
      stops it). */
  datatype Merge = Merge(data: map<string, Value>, completed: bool)

  /** The symbols of a coin list. */
  function Symbols(coins: seq<(string, string)>): (r: set<string>)
    ensures forall i :: 0 <= i < |coins| ==> coins[i].0 in r
    ensures forall k :: k in r ==> exists i :: 0 <= i < |coins| && coins[i].0 == k
  {
    set i | 0 <= i < |coins| :: coins[i].0
  }

  /** The record of a coin can be built from `data`: `data[c.sym]` is read
      only for a field CoinGecko leaves nullish, so either the coin has a
      record or CoinGecko supplies both fields. */
  predicate Writable(data: map<string, Value>, cg: Value, coin: (string, string)) {
    !IsNullish(Get(Obj(data), coin.0))
    || (!IsNullish(Path(cg, [coin.1, "usd"])) && !IsNullish(Path(cg, [coin.1, "usd_24h_change"])))
  }

  /** Every coin of the list can be written. */
  predicate AllWritable(data: map<string, Value>, cg: Value, coins: seq<(string, string)>) {
    forall i :: 0 <= i < |coins| ==> Writable(data, cg, coins[i])
  }

  /** `coins.forEach((c) => { data[c.sym] = { ... } })`, in list order. The
      record literal is evaluated before the assignment, so a coin whose
      record cannot be built throws before anything is written for it. */
  function MergeCoins(data: map<string, Value>, cg: Value, coins: seq<(string, string)>): (r: Merge)
    ensures data.Keys <= r.data.Keys <= data.Keys + Symbols(coins)
    ensures forall k :: k in data && k !in Symbols(coins) ==> r.data[k] == data[k]
    decreases |coins|
  {
    if coins == [] then Merge(data, true)
    else
      var sym := coins[0].0;
      var current := Get(Obj(data), sym);
      if !Writable(data, cg, coins[0]) then Merge(data, false)
      else
        var r := MergeCoins(data[sym := HomeRecord(cg, current, coins[0].1)], cg, coins[1..]);
        assert Symbols(coins) == {sym} + Symbols(coins[1..]) by {
          assert forall i :: 1 <= i < |coins| ==> coins[1..][i - 1] == coins[i];
          assert forall k :: k in Symbols(coins[1..]) ==> k in Symbols(coins);
        }
        r
  }

  /** The symbols of a coin list are distinct. */
  predicate DistinctSymbols(coins: seq<(string, string)>) {
    forall i, j :: 0 <= i < j < |coins| ==> coins[i].0 != coins[j].0
  }

  lemma HomeCoinSymbolsDistinct()
    ensures DistinctSymbols(HomeCoins)
    ensures forall i :: 0 <= i < |HomeCoins| ==> HomeCoins[i].0 != "usdKrw"
  {
  }

  /** When every coin can be written the merge completes, and each coin's
      record takes each field from CoinGecko or else from its current
      record; a coin without a record is added. */
  lemma {:induction false} MergeCoinsWrites(data: map<string, Value>, cg: Value, coins: seq<(string, string)>, i: nat)
    requires DistinctSymbols(coins) && AllWritable(data, cg, coins) && i < |coins|
    ensures MergeCoins(data, cg, coins).completed
    ensures coins[i].0 in MergeCoins(data, cg, coins).data
    ensures MergeCoins(data, cg, coins).data[coins[i].0]
            == HomeRecord(cg, Get(Obj(data), coins[i].0), coins[i].1)
    decreases |coins|
  {
    var sym := coins[0].0;
    var next := data[sym := HomeRecord(cg, Get(Obj(data), sym), coins[0].1)];
    var rest := coins[1..];
    MergeStep(data, cg, coins);
    MergeCompletes(data, cg, coins);
    if i == 0 {
      MergeKeepsOthers(next, cg, rest, sym);
    } else {
      MergeCoinsWrites(next, cg, rest, i - 1);
      assert rest[i - 1] == coins[i];
      GetOfOther(data, sym, next[sym], coins[i].0);
    }
  }

  /** When every coin can be written the merge completes. */
  lemma {:induction false} MergeCompletes(data: map<string, Value>, cg: Value, coins: seq<(string, string)>)
    requires DistinctSymbols(coins) && AllWritable(data, cg, coins)
    ensures MergeCoins(data, cg, coins).completed
    decreases |coins|
  {
    if coins != [] {
      MergeStep(data, cg, coins);
      MergeCompletes(data[coins[0].0 := HomeRecord(cg, Get(Obj(data), coins[0].0), coins[0].1)], cg, coins[1..]);
    }
  }

  /** Setting one key leaves what `Get` reads at another. */
  lemma GetOfOther(data: map<string, Value>, sym: string, v: Value, k: string)
    requires k != sym
    ensures Get(Obj(data[sym := v]), k) == Get(Obj(data), k)
  {
  }

  /** A key that is no coin's symbol keeps its value through the merge. */
  lemma MergeKeepsOthers(data: map<string, Value>, cg: Value, coins: seq<(string, string)>, sym: string)
    requires sym in data && forall j :: 0 <= j < |coins| ==> coins[j].0 != sym
    ensures sym in MergeCoins(data, cg, coins).data && MergeCoins(data, cg, coins).data[sym] == data[sym]
  {
    assert sym !in Symbols(coins);
  }

  /** The first step of a merge whose coins can all be written and have
      distinct symbols: the first coin is written, and the rest of the merge
      runs on the updated data with the same two properties. */
  lemma MergeStep(data: map<string, Value>, cg: Value, coins: seq<(string, string)>)
    requires DistinctSymbols(coins) && AllWritable(data, cg, coins) && coins != []
    ensures var next := data[coins[0].0 := HomeRecord(cg, Get(Obj(data), coins[0].0), coins[0].1)];
            && MergeCoins(data, cg, coins) == MergeCoins(next, cg, coins[1..])
            && DistinctSymbols(coins[1..]) && AllWritable(next, cg, coins[1..])
            && (forall j :: 0 <= j < |coins[1..]| ==> coins[1..][j].0 != coins[0].0)
  {
    var sym := coins[0].0;
    var next := data[sym := HomeRecord(cg, Get(Obj(data), sym), coins[0].1)];
    var rest := coins[1..];
    assert Writable(data, cg, coins[0]);
    assert forall j :: 0 <= j < |rest| ==> rest[j] == coins[j + 1];
    assert AllWritable(next, cg, rest) by {
      forall j | 0 <= j < |rest| ensures Writable(next, cg, rest[j]) {
        assert rest[j].0 != sym;
        assert Get(Obj(next), rest[j].0) == Get(Obj(data), rest[j].0);
        assert Writable(data, cg, coins[j + 1]);
      }
    }
  }

  /** A coin missing from the data is added when CoinGecko has both of its
      fields: the record is never read. */
  lemma MergeAddsMissingCoin()
    ensures var cg := Obj(map["bitcoin" := Obj(map["usd" := Number(Finite(5.0)),
                                                    "usd_24h_change" := Number(Finite(1.0))])]);
            MergeCoins(map[], cg, [("BTC", "bitcoin")])
            == Merge(map["BTC" := Obj(map["usd" := Number(Finite(5.0)), "chg" := Number(Finite(1.0))])], true)
  {
    var cg := Obj(map["bitcoin" := Obj(map["usd" := Number(Finite(5.0)),
                                           "usd_24h_change" := Number(Finite(1.0))])]);
    assert Path(cg, ["bitcoin", "usd"]) == Number(Finite(5.0));
    assert Path(cg, ["bitcoin", "usd_24h_change"]) == Number(Finite(1.0));
    assert [("BTC", "bitcoin")][1..] == [];
  }

  /** With distinct symbols, a coin that has no record and lacks a
      CoinGecko field makes the merge throw part-way. */
  lemma {:induction false} MergeCoinsStops(data: map<string, Value>, cg: Value, coins: seq<(string, string)>)
    requires DistinctSymbols(coins) && !AllWritable(data, cg, coins)
    ensures !MergeCoins(data, cg, coins).completed
    decreases |coins|
  {
    var sym := coins[0].0;
    if Writable(data, cg, coins[0]) {
      var next := data[sym := HomeRecord(cg, Get(Obj(data), sym), coins[0].1)];
      var rest := coins[1..];
      var k :| 0 <= k < |coins| && !Writable(data, cg, coins[k]);
      assert k > 0 && rest[k - 1] == coins[k];
      assert coins[k].0 != sym;
      assert Get(Obj(next), rest[k - 1].0) == Get(Obj(data), coins[k].0);
      assert !Writable(next, cg, rest[k - 1]);
      assert DistinctSymbols(rest) by {
        assert forall j :: 0 <= j < |rest| ==> rest[j] == coins[j + 1];
      }
      MergeCoinsStops(next, cg, rest);
    }
  }

  /** `boot`: the page data. Both requests must succeed (`Promise.all`);
      otherwise the fallback copy is used unchanged. After the coins the
      exchange rate is taken from the answer or else kept; a throw in the
      `forEach` skips it. */
  function Boot(fallback: map<string, Value>, cg: Settled<Value>, fx: Settled<Value>): (r: map<string, Value>)
    ensures cg.Rejected? || fx.Rejected? ==> r == fallback
    ensures fallback.Keys <= r.Keys <= fallback.Keys + Symbols(HomeCoins) + {"usdKrw"}
  {
    if cg.Rejected? || fx.Rejected? then fallback
    else WithRate(MergeCoins(fallback, cg.value, HomeCoins), fx.value)
  }

  /** The step after the `forEach`: the rate is taken from the answer or
      else kept, unless the `forEach` threw. */
  function WithRate(m: Merge, fx: Value): (r: map<string, Value>)
    ensures r.Keys == if m.completed then m.data.Keys + {"usdKrw"} else m.data.Keys
    ensures forall k :: k in m.data && (k != "usdKrw" || !m.completed) ==> r[k] == m.data[k]
  {
    if !m.completed then m.data
    else m.data["usdKrw" := Coalesce(Path(fx, ["rates", "KRW"]), Get(Obj(m.data), "usdKrw"))]
  }

  /** When both requests succeed and every coin can be written, each coin
      takes its price and change from CoinGecko field by field, falling
      back to the fallback's. */
  lemma BootCoin(fallback: map<string, Value>, cg: Value, fx: Value, i: nat)
    requires AllWritable(fallback, cg, HomeCoins) && i < |HomeCoins|
    ensures HomeCoins[i].0 in Boot(fallback, Fulfilled(cg), Fulfilled(fx))
    ensures Boot(fallback, Fulfilled(cg), Fulfilled(fx))[HomeCoins[i].0]
            == HomeRecord(cg, Get(Obj(fallback), HomeCoins[i].0), HomeCoins[i].1)
  {
    HomeCoinSymbolsDistinct();
    MergeCoinsWrites(fallback, cg, HomeCoins, i);
    BootCompleted(fallback, cg, fx);
    assert HomeCoins[i].0 != "usdKrw";
  }

  /** When both requests succeed and every coin was written, the rate is
      set on top of the merged data. */
  lemma BootCompleted(fallback: map<string, Value>, cg: Value, fx: Value)
    requires MergeCoins(fallback, cg, HomeCoins).completed
    ensures var m := MergeCoins(fallback, cg, HomeCoins).data;
            Boot(fallback, Fulfilled(cg), Fulfilled(fx))
            == m["usdKrw" := Coalesce(Path(fx, ["rates", "KRW"]), Get(Obj(m), "usdKrw"))]
  {
    BootFulfilled(fallback, cg, fx);
  }

  /** With both answers in hand, the page data is the merge followed by the
      rate step. */
  lemma BootFulfilled(fallback: map<string, Value>, cg: Value, fx: Value)
    ensures Boot(fallback, Fulfilled(cg), Fulfilled(fx)) == WithRate(MergeCoins(fallback, cg, HomeCoins), fx)
  {
    var cgs: Settled<Value>, fxs: Settled<Value> := Fulfilled(cg), Fulfilled(fx);
    assert !(cgs.Rejected? || fxs.Rejected?);
  }

  /** When both requests succeed and every coin can be written, the rate
      is the fetched `rates.KRW` unless it is null or missing, else the
      fallback's. */
  lemma BootUsdKrw(fallback: map<string, Value>, cg: Value, fx: Value)
    requires AllWritable(fallback, cg, HomeCoins)
    ensures "usdKrw" in Boot(fallback, Fulfilled(cg), Fulfilled(fx))
    ensures Boot(fallback, Fulfilled(cg), Fulfilled(fx))["usdKrw"]
            == Coalesce(Path(fx, ["rates", "KRW"]), Get(Obj(fallback), "usdKrw"))
  {
    HomeCoinSymbolsDistinct();
    MergeCoinsWrites(fallback, cg, HomeCoins, 0);
    BootCompleted(fallback, cg, fx);
    var m := MergeCoins(fallback, cg, HomeCoins);
    assert "usdKrw" !in Symbols(HomeCoins);
    assert Get(Obj(m.data), "usdKrw") == Get(Obj(fallback), "usdKrw");
  }

  /** When both requests succeed but some coin has no record and lacks a
      CoinGecko field, the `forEach` throws and the rate is not touched. */
  lemma BootStops(fallback: map<string, Value>, cg: Value, fx: Value)
    requires !AllWritable(fallback, cg, HomeCoins)
    ensures Boot(fallback, Fulfilled(cg), Fulfilled(fx)) == MergeCoins(fallback, cg, HomeCoins).data
    ensures "usdKrw" in fallback ==> Boot(fallback, Fulfilled(cg), Fulfilled(fx))["usdKrw"] == fallback["usdKrw"]
    ensures ("usdKrw" in Boot(fallback, Fulfilled(cg), Fulfilled(fx))) == ("usdKrw" in fallback)
  {
    HomeCoinSymbolsDistinct();
    MergeCoinsStops(fallback, cg, HomeCoins);
    assert "usdKrw" !in Symbols(HomeCoins);
  }

  // ----- renderLongShort / renderMarketTable -----

  /** `data[c.sym]?.chg ?? 0`. */
  function ChangeOf(data: Value, sym: string): Value {
    Coalesce(Path(data, [sym, "chg"]), Number(Finite(0.0)))
  }

  /** `Math.max(lo, Math.min(hi, x))`: NaN stays NaN, anything else lands
      in [lo, hi]. */
  function Clamp(lo: real, hi: real, x: Num): (r: Num)
    requires lo <= hi
    ensures r.NaN? <==> x.NaN?
    ensures !r.NaN? ==> r.Finite? && lo <= r.r <= hi
    ensures x.Finite? && lo <= x.r <= hi ==> r == x
  {
    JsNumber.Max(Finite(lo), JsNumber.Min(Finite(hi), x))
  }

  /** `45 + chg * 3 + (i % 5) * 2` for a numeric change. */
  function LongRaw(c: Num, i: nat): (r: Num)
    ensures r.NaN? <==> c.NaN?
  {
    JsNumber.Add(JsNumber.Add(Finite(45.0), JsNumber.Mul(c, Finite(3.0))), Finite(((i % 5) * 2) as real))
  }

  /** `Math.max(18, Math.min(72, 45 + chg * 3 + (i % 5) * 2))`: the long
      share of row `i`, NaN only when the change is not a number. */
  function LongShare(chg: Value, i: nat): (p: Num)
    ensures p.NaN? <==> JsNumber.ToNumber(chg).NaN?
    ensures !p.NaN? ==> p.Finite? && 18.0 <= p.r <= 72.0
  {
    Clamp(18.0, 72.0, LongRaw(JsNumber.ToNumber(chg), i))
  }

  /** The long and short shares of one row. */
  function LongShortRow(data: Value, sym: string, i: nat): (r: (Num, Num))
    ensures r.0 == LongShare(ChangeOf(data, sym), i)
    ensures r.1 == JsNumber.Sub(Finite(100.0), r.0)
  {
    var longP := LongShare(ChangeOf(data, sym), i);
    (longP, JsNumber.Sub(Finite(100.0), longP))
  }

  /** For any numeric change the long share lies in [18, 72] and the two
      shares add up to 100. */
  lemma LongShortSplit(data: Value, sym: string, i: nat)
    requires !JsNumber.ToNumber(ChangeOf(data, sym)).NaN?
    ensures var (l, s) := LongShortRow(data, sym, i);
            l.Finite? && s.Finite? && 18.0 <= l.r <= 72.0 && l.r + s.r == 100.0
  {
  }

  /** `hi = -(Math.abs(chg) + (i % 3) * 0.7)`. */
  function High(chg: Value, i: nat): (h: Num)
    ensures h.NaN? <==> JsNumber.ToNumber(chg).NaN?
    ensures !h.NaN? ==> !JsNumber.Positive(h)
  {
    JsNumber.Neg(JsNumber.Add(JsNumber.Abs(JsNumber.ToNumber(chg)), Finite((i % 3) as real * 0.7)))
  }

  /** `lo = Math.abs(chg) * 0.8 + (i % 4) * 0.6`. */
  function Low(chg: Value, i: nat): (l: Num)
    ensures l.NaN? <==> JsNumber.ToNumber(chg).NaN?
    ensures !l.NaN? ==> !JsNumber.Less(l, Finite(0.0))
  {
    JsNumber.Add(JsNumber.Mul(JsNumber.Abs(JsNumber.ToNumber(chg)), Finite(0.8)), Finite((i % 4) as real * 0.6))
  }

  /** The high column never exceeds the low column. */
  lemma HighBelowLow(chg: Value, i: nat)
    requires !JsNumber.ToNumber(chg).NaN?
    ensures !JsNumber.Less(Low(chg, i), High(chg, i))
  {
  }
}

=== FILE: js_number.dfy ===
/** JavaScript's `Number(v)` coercion and the double arithmetic the
    dashboard performs on its results. Doubles are exact reals here; the
    three non-finite values propagate as IEEE 754 prescribes. Signed zero
    is not distinguished from zero. */
module JsNumber {
  import opened Common
  import opened Json
  import Text
  import Decimal

  function RadixDigitValue(c: char): nat {
    if '0' <= c <= '9' then (c as int) - ('0' as int)
    else if 'a' <= c <= 'z' then (c as int) - ('a' as int) + 10
    else if 'A' <= c <= 'Z' then (c as int) - ('A' as int) + 10
    else 36
  }

  predicate AllRadixDigits(s: string, radix: nat) {
    forall i :: 0 <= i < |s| ==> RadixDigitValue(s[i]) < radix
  }

  /** The value of a digit string in base `radix`. */
  function RadixValue(s: string, radix: nat): nat
    requires AllRadixDigits(s, radix)
    decreases |s|
  {
    if s == [] then 0
    else RadixValue(s[..|s| - 1], radix) * radix + RadixDigitValue(s[|s| - 1])
  }

  /** The base of a `0x` / `0o` / `0b` prefix, or 0 when there is none. */
  function RadixPrefix(t: string): nat {
    if |t| < 2 || t[0] != '0' then 0
    else if t[1] == 'x' || t[1] == 'X' then 16
    else if t[1] == 'o' || t[1] == 'O' then 8
    else if t[1] == 'b' || t[1] == 'B' then 2
    else 0
  }

  /** `Number(s)` for a string (StringToNumber, section 7.1.4.1.1 of
      ECMA-262): surrounding white space is ignored, the empty string is 0,
      `Infinity` may be signed, `0x`/`0o`/`0b` integers are unsigned, and
      anything else that is not a decimal literal is NaN. */
  function StringToNumber(s: string): (r: Num)
    ensures Text.JsTrim(s) == "" ==> r == Finite(0.0)
  {
    var t := Text.JsTrim(s);
    var radix := RadixPrefix(t);
    if t == "" then Finite(0.0)
    else if t == "Infinity" || t == "+Infinity" then PosInf
    else if t == "-Infinity" then NegInf
    else if radix != 0 then
      (if |t| > 2 && AllRadixDigits(t[2..], radix) then Finite(RadixValue(t[2..], radix) as real) else NaN)
    else
      match Decimal.ParseSigned(t)
      case Some(x) => Finite(x)
      case None => NaN
  }

  /** `Number(v)` for any JSON value. An array converts through its string
      form: `[]` is 0, a one-element array converts like its element's
      string (`null` inside an array prints as ""), and two or more elements
      print with a comma, which no numeric literal contains. */
  function ToNumber(v: Value): Num
    decreases v
  {
    match v
    case Undefined => NaN
    case Null => Finite(0.0)
    case Bool(b) => if b then Finite(1.0) else Finite(0.0)
    case Number(n) => n
    case Str(s) => StringToNumber(s)
    case Obj(_) => NaN
    case Arr(xs) =>
      if |xs| == 0 then Finite(0.0)
      else if |xs| >= 2 then NaN
      else
        match xs[0]
        case Null => Finite(0.0)
        case Undefined => Finite(0.0)
        case Bool(_) => NaN
        case Number(n) => n
        case Str(s) => StringToNumber(s)
        case Obj(_) => NaN
        case Arr(_) => ToNumber(xs[0])
  }

  /** A string that neither starts nor ends with white space is its own
      trim. */
  lemma TrimOfUnpadded(s: string)
    requires s != [] && !Text.IsJsSpace(s[0]) && !Text.IsJsSpace(s[|s| - 1])
    ensures Text.JsTrim(s) == s
  {
    assert Text.LeadingCount(s, Text.IsJsSpace) == 0;
    assert Text.TrailingCount(s, Text.IsJsSpace) == 0;
    assert s[0..|s|] == s;
  }

  /** `Number(null)` and `Number("")` are 0, as is a string of blanks. */
  lemma ToNumberOfEmpty()
    ensures ToNumber(Null) == Finite(0.0)
    ensures ToNumber(Str("")) == Finite(0.0)
    ensures ToNumber(Str("  ")) == Finite(0.0)
  {
    assert Text.JsTrim("  ") == "";
  }

  /** The text `"NaN"` converts to NaN: it is not a decimal literal. */
  lemma ToNumberOfNonNumeric()
    ensures ToNumber(Str("NaN")) == NaN
  {
    TrimOfUnpadded("NaN");
    assert RadixPrefix("NaN") == 0;
    NaNTextIsNotDecimal();
  }

  /** `NaN` is not a decimal literal. */
  lemma NaNTextIsNotDecimal()
    ensures Decimal.ParseSigned("NaN") == None
  {
    assert !Decimal.IsDigit("NaN"[0]);
    assert Decimal.FindFirst("NaN", c => c == 'e' || c == 'E') == 3;
    assert Decimal.FindFirst("NaN", c => c == '.') == 3;
  }

  /** The decimal text of a whole number reads back as that number, with
      or without a minus sign. */
  lemma ToNumberOfNatText(n: nat)
    ensures ToNumber(Str(Decimal.NatText(n))) == Finite(n as real)
    ensures ToNumber(Str("-" + Decimal.NatText(n))) == Finite(-(n as real))
  {
    NatTextToNumber(n);
    NegatedNatTextToNumber(n);
  }

  /** The decimal text of a whole number converts to that number. */
  lemma NatTextToNumber(n: nat)
    ensures StringToNumber(Decimal.NatText(n)) == Finite(n as real)
  {
    var s := Decimal.NatText(n);
    Decimal.NatTextRoundTrip(n);
    assert Decimal.IsDigit(s[0]) && Decimal.IsDigit(s[|s| - 1]);
    if |s| >= 2 {
      assert Decimal.IsDigit(s[1]);
    }
    DecimalTextToNumber(s);
  }

  /** The same text behind a minus sign converts to its negation. */
  lemma NegatedNatTextToNumber(n: nat)
    ensures StringToNumber("-" + Decimal.NatText(n)) == Finite(-(n as real))
  {
    Decimal.NatTextRoundTrip(n);
    NegatedDigitsToNumber(Decimal.NatText(n), -(n as real));
  }

  /** A minus sign and a digit string convert as a signed decimal literal. */
  lemma NegatedDigitsToNumber(s: string, v: real)
    requires |s| >= 1 && Decimal.AllDigits(s) && Decimal.ParseSigned("-" + s) == Some(v)
    ensures StringToNumber("-" + s) == Finite(v)
  {
    var t := "-" + s;
    assert |t| == |s| + 1 && t[1] == s[0] && t[|t| - 1] == s[|s| - 1];
    assert Decimal.IsDigit(t[1]) && Decimal.IsDigit(t[|t| - 1]);
    DecimalTextToNumber(t);
  }

  /** A trimmed text that starts with a digit or a minus sign and then a
      digit is read as a decimal literal. */
  lemma DecimalTextToNumber(t: string)
    requires |t| >= 1 && Decimal.IsDigit(t[|t| - 1])
    requires Decimal.IsDigit(t[0]) || t[0] == '-'
    requires |t| >= 2 ==> Decimal.IsDigit(t[1])
    ensures Decimal.ParseSigned(t).Some? ==> StringToNumber(t) == Finite(Decimal.ParseSigned(t).value)
    ensures Decimal.ParseSigned(t).None? ==> StringToNumber(t) == NaN
  {
    TrimOfUnpadded(t);
    assert t[0] != 'I' && t[0] != '+';
    assert t != "Infinity" && t != "+Infinity";
    assert t != "-Infinity" by {
      if |t| >= 2 && t[0] == '-' {
        assert t[1] != 'I';
      }
    }
    assert RadixPrefix(t) == 0;
  }

  predicate IsNaN(n: Num) {
    n.NaN?
  }

  /** `-a`. */
  function Neg(a: Num): Num {
    match a
    case Finite(x) => Finite(-x)
    case NaN => NaN
    case PosInf => NegInf
    case NegInf => PosInf
  }

  /** `a + b`. */
  function Add(a: Num, b: Num): (r: Num)
    ensures a.Finite? && b.Finite? ==> r == Finite(a.r + b.r)
    ensures r.NaN? <==> a.NaN? || b.NaN? || (a.PosInf? && b.NegInf?) || (a.NegInf? && b.PosInf?)
  {
    match (a, b)
    case (NaN, _) => NaN
    case (_, NaN) => NaN
    case (PosInf, NegInf) => NaN
    case (NegInf, PosInf) => NaN
    case (PosInf, _) => PosInf
    case (NegInf, _) => NegInf
    case (_, PosInf) => PosInf
    case (_, NegInf) => NegInf
    case (Finite(x), Finite(y)) => Finite(x + y)
  }

  /** `a - b`. */
  function Sub(a: Num, b: Num): Num {
    Add(a, Neg(b))
  }

  /** Sign of a non-NaN number: -1, 0 or 1. */
  function Sign(a: Num): int
    requires !a.NaN?
  {
    match a
    case PosInf => 1
    case NegInf => -1
    case Finite(x) => if x > 0.0 then 1 else if x < 0.0 then -1 else 0
  }

  function InfOfSign(s: int): Num {
    if s > 0 then PosInf else NegInf
  }

  /** `a * b`. */
  function Mul(a: Num, b: Num): (r: Num)
    ensures a.Finite? && b.Finite? ==> r == Finite(a.r * b.r)
  {
    if a.NaN? || b.NaN? then NaN
    else if a.Finite? && b.Finite? then Finite(a.r * b.r)
    else if Sign(a) == 0 || Sign(b) == 0 then NaN
    else InfOfSign(Sign(a) * Sign(b))
  }

  /** `a / b`, including division by zero. */
  function Div(a: Num, b: Num): (r: Num)
    ensures a.Finite? && b.Finite? && b.r != 0.0 ==> r == Finite(a.r / b.r)
    ensures b == Finite(0.0) && a.Finite? && a.r != 0.0 ==> !r.Finite? && !r.NaN?
    ensures b == Finite(0.0) && a == Finite(0.0) ==> r.NaN?
  {
    if a.NaN? || b.NaN? then NaN
    else if !a.Finite? && !b.Finite? then NaN
    else if !b.Finite? then Finite(0.0)
    else if b.r == 0.0 then (if Sign(a) == 0 then NaN else InfOfSign(Sign(a)))
    else if !a.Finite? then InfOfSign(Sign(a) * Sign(b))
    else Finite(a.r / b.r)
  }

  /** `Math.abs(a)`. */
  function Abs(a: Num): (r: Num)
    ensures r.NaN? <==> a.NaN?
    ensures !r.NaN? ==> Sign(r) >= 0
  {
    match a
    case Finite(x) => Finite(if x < 0.0 then -x else x)
    case NaN => NaN
    case _ => PosInf
  }

  /** `a < b`: false whenever either side is NaN. */
  predicate Less(a: Num, b: Num) {
    match (a, b)
    case (NaN, _) => false
    case (_, NaN) => false
    case (NegInf, NegInf) => false
    case (NegInf, _) => true
    case (_, PosInf) => !a.PosInf?
    case (Finite(x), Finite(y)) => x < y
    case _ => false
  }

  /** `Math.max(a, b)`. */
  function Max(a: Num, b: Num): (r: Num)
    ensures r.NaN? <==> a.NaN? || b.NaN?
    ensures !r.NaN? ==> !Less(r, a) && !Less(r, b) && (r == a || r == b)
  {
    if a.NaN? || b.NaN? then NaN else if Less(a, b) then b else a
  }

  /** `Math.min(a, b)`. */
  function Min(a: Num, b: Num): (r: Num)
    ensures r.NaN? <==> a.NaN? || b.NaN?
    ensures !r.NaN? ==> !Less(a, r) && !Less(b, r) && (r == a || r == b)
  {
    if a.NaN? || b.NaN? then NaN else if Less(b, a) then b else a
  }

  /** `a > 0`: false for NaN. */
  predicate Positive(a: Num) {
    Less(Finite(0.0), a)
  }

  /** Numbers other than NaN are totally ordered by `<`. */
  lemma LessTotal(a: Num, b: Num)
    requires !a.NaN? && !b.NaN?
    ensures Less(a, b) || Less(b, a) || a == b
    ensures !(Less(a, b) && Less(b, a))
  {
  }

  /** `!(a < b)` is transitive on numbers other than NaN. */
  lemma NotLessTransitive(a: Num, b: Num, c: Num)
    requires !a.NaN? && !b.NaN? && !c.NaN?
    requires !Less(a, b) && !Less(b, c)
    ensures !Less(a, c)
  {
  }

  /** `b - a > 0` exactly when `a < b`, for numbers other than NaN. */
  lemma PositiveDifference(a: Num, b: Num)
    requires !a.NaN? && !b.NaN?
    ensures Positive(Sub(b, a)) <==> Less(a, b)
  {
  }
}

=== FILE: json.dfy ===
/** Parsed JSON payloads as the gateway, the dashboard and the Python
    scripts see them, with the JavaScript access operators used on them:
    optional chaining (`v?.k`, `v?.[i]`), nullish coalescing (`??`) and
    truthiness (`||`, `!`). */
module Json {
  import Common
  import Decimal

  /** An IEEE double seen as a mathematical value: finite numbers are exact
      reals; the three non-finite values are kept apart. */
  datatype Num = Finite(r: real) | NaN | PosInf | NegInf {
    predicate IsFinite() { Finite? }
  }

  /** A JavaScript / Python value produced by a JSON decoder. `Undefined`
      is what JavaScript yields for a missing property; Python code never
      produces it. */
  datatype Value =
    | Null
    | Undefined
    | Bool(b: bool)
    | Number(n: Num)
    | Str(s: string)
    | Arr(items: seq<Value>)
    | Obj(fields: map<string, Value>)

  /** `null` or `undefined`: the values `??` and `?.` skip. */
  predicate IsNullish(v: Value) {
    v.Null? || v.Undefined?
  }

  /** JavaScript truthiness: `false`, `0`, `NaN`, `""`, `null` and
      `undefined` are falsy; everything else is truthy. */
  predicate Truthy(v: Value) {
    match v
    case Null => false
    case Undefined => false
    case Bool(b) => b
    case Number(n) => n != NaN && n != Finite(0.0)
    case Str(s) => s != ""
    case Arr(_) => true
    case Obj(_) => true
  }

  /** `String(v)` where its result is modelled: strings, `null`,
      `undefined`, booleans, plain objects, the three non-finite numbers,
      and arrays of such values (elements joined by `,`, with `null` and
      `undefined` elements printing as ""). `None` for a finite number and
      for an array holding one: number-to-text conversion is not modelled. */
  function ToText(v: Value): (r: Common.Option<string>)
    ensures v.Str? ==> r == Common.Some(v.s)
    ensures v.Null? ==> r == Common.Some("null")
    ensures v.Undefined? ==> r == Common.Some("undefined")
    decreases v, 1
  {
    match v
    case Str(s) => Common.Some(s)
    case Null => Common.Some("null")
    case Undefined => Common.Some("undefined")
    case Bool(b) => Common.Some(if b then "true" else "false")
    case Obj(_) => Common.Some("[object Object]")
    case Number(n) =>
      (match n
       case NaN => Common.Some("NaN")
       case PosInf => Common.Some("Infinity")
       case NegInf => Common.Some("-Infinity")
       case Finite(_) => Common.None)
    case Arr(xs) => ElementsText(v, 0)
  }

  /** The printed elements of the array `v` from index `i` on, joined by
      `,`. */
  function ElementsText(v: Value, i: nat): Common.Option<string>
    requires v.Arr? && i <= |v.items|
    decreases v, 0, |v.items| - i
  {
    if i == |v.items| then Common.Some("")
    else
      var x := v.items[i];
      var first := if IsNullish(x) then Common.Some("") else ToText(x);
      if i + 1 == |v.items| then first
      else
        var rest := ElementsText(v, i + 1);
        if first.Some? && rest.Some? then Common.Some(first.value + "," + rest.value)
        else Common.None
  }

  /** A one-element array prints as its element, so `["BTCUSDT"]` and
      `"BTCUSDT"` name the same property. */
  lemma SingletonText(s: string)
    ensures ToText(Arr([Str(s)])) == Common.Some(s)
    ensures ToText(Arr([])) == Common.Some("")
  {
  }

  /** `a ?? b`. */
  function Coalesce(a: Value, b: Value): (r: Value)
    ensures !IsNullish(a) ==> r == a
    ensures IsNullish(a) ==> r == b
  {
    if IsNullish(a) then b else a
  }

  /** `a || b`. */
  function Or(a: Value, b: Value): (r: Value)
    ensures Truthy(a) ==> r == a
    ensures !Truthy(a) ==> r == b
  {
    if Truthy(a) then a else b
  }

  /** `v?.[key]` for a string key: an own property of an object, or
      `undefined` (the keys the core reads are never inherited ones). */
  function Get(v: Value, key: string): (r: Value)
    ensures v.Obj? && key in v.fields ==> r == v.fields[key]
    ensures !(v.Obj? && key in v.fields) ==> r == Undefined
  {
    match v
    case Obj(m) => if key in m then m[key] else Undefined
    case _ => Undefined
  }

  /** `v?.[i]` for an index: an array element, a one-character string, the
      property named by the index's decimal text, or `undefined`. */
  function At(v: Value, i: nat): (r: Value)
    ensures v.Arr? ==> (r == if i < |v.items| then v.items[i] else Undefined)
    ensures IsNullish(v) ==> r == Undefined
  {
    match v
    case Arr(xs) => if i < |xs| then xs[i] else Undefined
    case Str(s) => if i < |s| then Str([s[i]]) else Undefined
    case Obj(m) => Get(v, Decimal.NatText(i))
    case _ => Undefined
  }

  /** `v?.k1?.k2?...` along a path of property names. */
  function Path(v: Value, keys: seq<string>): (r: Value)
    ensures keys == [] ==> r == v
    decreases |keys|
  {
    if keys == [] then v else Path(Get(v, keys[0]), keys[1..])
  }

  /** Optional chaining stops at the first missing step: once a step is
      `undefined`, so is the whole path. */
  lemma {:induction false} PathOfUndefined(keys: seq<string>)
    ensures keys != [] ==> Path(Undefined, keys) == Undefined
    ensures keys == [] ==> Path(Undefined, keys) == Undefined
    decreases |keys|
  {
    if keys != [] {
      PathOfUndefined(keys[1..]);
    }
  }

  /** The value of a settled promise, or `null` when it was rejected
      (`r.status === "fulfilled" ? r.value : null`). */
  function ValueOrNull(s: Common.Settled<Value>): (r: Value)
    ensures s.Fulfilled? ==> r == s.value
    ensures s.Rejected? ==> r == Null
  {
    match s
    case Fulfilled(v) => v
    case Rejected(_) => Null
  }
}

=== FILE: macro_brief.dfy ===
/** The daily briefing of scripts/daily_macro_brief.py: decoding the
    Yahoo chart, CoinGecko, fear-and-greed and RSS answers, and the three
    integer signals whose sum decides the stance of the day. Each answer is
    given as the decoded JSON value (`Null` when the request failed). */
module MacroBrief {
  import opened Common
  import opened Json
  import Decimal
  import PyNumber
  import Text

  // ----- Python access to decoded JSON -----

  /** Python truthiness of a decoded JSON value: `None`, `False`, `0`,
      `""`, `[]` and `{}` are falsy. */
  predicate PyTruthy(v: Value) {
    match v
    case Null => false
    case Undefined => false
    case Bool(b) => b
    case Number(n) => n != Finite(0.0)
    case Str(s) => s != ""
    case Arr(items) => items != []
    case Obj(fields) => fields != map[]
  }

  /** `v[key]`: a dict's entry, `KeyError` for a missing key, `TypeError`
      for anything that is not a dict. */
  function Index(v: Value, key: string): (r: Result<Value>)
    ensures r.Ok? <==> v.Obj? && key in v.fields
    ensures r.Ok? ==> r.value == v.fields[key]
  {
    if v.Obj? then (if key in v.fields then Ok(v.fields[key]) else Raises("KeyError"))
    else Raises("TypeError")
  }

  /** `v[i]`: a list's element or a string's character, `IndexError` past
      the end; a dict has no integer keys (`KeyError`); anything else is a
      `TypeError`. */
  function At(v: Value, i: nat): (r: Result<Value>)
    ensures v.Arr? && i < |v.items| ==> r == Ok(v.items[i])
    ensures !v.Arr? && !v.Str? ==> r.Raises?
  {
    match v
    case Arr(items) => if i < |items| then Ok(items[i]) else Raises("IndexError")
    case Str(s) => if i < |s| then Ok(Str([s[i]])) else Raises("IndexError")
    case Obj(_) => Raises("KeyError")
    case _ => Raises("TypeError")
  }

  /** `isinstance(v, (int, float))`, then `float(v)`: booleans count as
      integers; anything else is absent. */
  function NumberOrNone(v: Value): (r: Option<real>)
    ensures v.Number? && v.n.Finite? ==> r == Some(v.n.r)
    ensures v.Bool? ==> r == Some(if v.b then 1.0 else 0.0)
    ensures !v.Number? && !v.Bool? ==> r.None?
  {
    match v
    case Bool(b) => Some(if b then 1.0 else 0.0)
    case Number(Finite(x)) => Some(x)
    case _ => None
  }

  // ----- quotes -----

  /** The `Quote` dataclass. */
  datatype Quote = Quote(symbol: string, price: Option<real>, change: Option<real>, source: string)

  /** `data["chart"]["result"][0]["indicators"]["quote"][0]["close"]`. */
  function CloseField(data: Value): Result<Value> {
    match Index(data, "chart")
    case Raises(e) => Raises(e)
    case Ok(chart) =>
      match Index(chart, "result")
      case Raises(e) => Raises(e)
      case Ok(results) =>
        match At(results, 0)
        case Raises(e) => Raises(e)
        case Ok(result) =>
          match Index(result, "indicators")
          case Raises(e) => Raises(e)
          case Ok(indicators) =>
            match Index(indicators, "quote")
            case Raises(e) => Raises(e)
            case Ok(quotes) =>
              match At(quotes, 0)
              case Raises(e) => Raises(e)
              case Ok(quote) => Index(quote, "close")
  }

  /** `[float(v) for v in values if v is not None]` over a list: the first
      element `float()` rejects raises. */
  function FloatsOf(values: seq<Value>): (r: Result<seq<real>>)
    ensures r.Ok? ==> |r.value| <= |values|
    ensures r.Raises? <==> exists i :: 0 <= i < |values| && !values[i].Null? && PyNumber.Float(values[i]).Raises?
    decreases |values|
  {
    if values == [] then Ok([])
    else
      var rest := FloatsOf(values[1..]);
      assert forall i :: 1 <= i < |values| ==> values[1..][i - 1] == values[i];
      if values[0].Null? then rest
      else
        match PyNumber.Float(values[0])
        case Raises(e) => Raises(e)
        case Ok(x) => (match rest case Ok(xs) => Ok([x] + xs) case Raises(e) => Raises(e))
  }

  /** The closes of the `close` field: a list's non-null elements, or the
      characters of a string (Python iterates both); any other value is
      rejected. */
  function Closes(field: Value): Result<seq<real>> {
    match field
    case Arr(items) => FloatsOf(items)
    case Str(s) => FloatsOf(seq(|s|, i requires 0 <= i < |s| => Str([s[i]])))
    case _ => Raises("TypeError")
  }

  /** A quote with neither price nor change. */
  function NoQuote(name: string, source: string): Quote {
    Quote(name, None, None, source)
  }

  /** The quote of two or more closes: the last close, and its percent
      change from the one before unless that one is 0. */
  function QuoteOfCloses(name: string, closes: seq<real>): (q: Quote)
    requires |closes| >= 2
    ensures q.price == Some(closes[|closes| - 1])
    ensures q.change.None? <==> closes[|closes| - 2] == 0.0
    ensures q.change.Some? ==> q.change.value * closes[|closes| - 2] == (closes[|closes| - 1] - closes[|closes| - 2]) * 100.0
  {
    var prev := closes[|closes| - 2];
    var last := closes[|closes| - 1];
    var change := if prev != 0.0 then Some(((last - prev) / prev) * 100.0) else None;
    Quote(name, Some(last), change, "yahoo")
  }

  /** `fetch_yahoo_quote` after the request: no data, an answer of another
      shape, a close `float()` rejects, or fewer than two closes give a
      quote with neither price nor change. */
  function YahooQuote(name: string, data: Value): (q: Quote)
    ensures q.symbol == name && q.source == "yahoo"
    ensures q.price.None? ==> q.change.None?
    ensures !PyTruthy(data) ==> q == NoQuote(name, "yahoo")
  {
    if !PyTruthy(data) then NoQuote(name, "yahoo")
    else
      match CloseField(data)
      case Raises(_) => NoQuote(name, "yahoo")
      case Ok(field) =>
        match Closes(field)
        case Raises(_) => NoQuote(name, "yahoo")
        case Ok(closes) =>
          if |closes| < 2 then NoQuote(name, "yahoo") else QuoteOfCloses(name, closes)
  }

  /** A chart answer holding one close series, as Yahoo sends it. */
  function ChartJson(close: seq<Value>): Value {
    Obj(map["chart" := Obj(map["result" := Arr([Obj(map["indicators" :=
      Obj(map["quote" := Arr([Obj(map["close" := Arr(close)])])])])])])])
  }

  /** The numbers of a close series, with its nulls dropped. */
  function Present(close: seq<Value>): (r: seq<real>)
    requires forall i :: 0 <= i < |close| ==> close[i].Null? || (close[i].Number? && close[i].n.Finite?)
    ensures |r| <= |close|
    decreases |close|
  {
    if close == [] then []
    else
      assert forall i :: 1 <= i < |close| ==> close[1..][i - 1] == close[i];
      if close[0].Null? then Present(close[1..]) else [close[0].n.r] + Present(close[1..])
  }

  /** A series of finite numbers and nulls decodes to its numbers. */
  lemma {:induction false} FloatsOfPresent(close: seq<Value>)
    requires forall i :: 0 <= i < |close| ==> close[i].Null? || (close[i].Number? && close[i].n.Finite?)
    ensures FloatsOf(close) == Ok(Present(close))
    decreases |close|
  {
    if close != [] {
      assert forall i :: 1 <= i < |close| ==> close[1..][i - 1] == close[i];
      FloatsOfPresent(close[1..]);
    }
  }

  /** Decoding a chart answer: the nulls of the series are dropped; with
      two or more numbers left the price is the last one and the change is
      taken from the one before, otherwise there is neither. */
  lemma YahooQuoteOfChart(name: string, close: seq<Value>)
    requires forall i :: 0 <= i < |close| ==> close[i].Null? || (close[i].Number? && close[i].n.Finite?)
    ensures |Present(close)| < 2 ==> YahooQuote(name, ChartJson(close)) == NoQuote(name, "yahoo")
    ensures |Present(close)| >= 2 ==> YahooQuote(name, ChartJson(close)) == QuoteOfCloses(name, Present(close))
  {
    FloatsOfPresent(close);
    ChartJsonClose(close);
    assert Closes(Arr(close)) == Ok(Present(close));
  }

  /** A chart answer is truthy and its `close` field is the series. */
  lemma ChartJsonClose(close: seq<Value>)
    ensures PyTruthy(ChartJson(close)) && CloseField(ChartJson(close)) == Ok(Arr(close))
  {
    var data := ChartJson(close);
    assert CloseField(data) == Ok(Arr(close));
  }

  // ----- CoinGecko -----

  /** The coins of the briefing, as (CoinGecko id, ticker), in this order. */
  const CoinGeckoIds: seq<(string, string)> := [("bitcoin", "BTC"), ("ethereum", "ETH"), ("solana", "SOL"), ("ripple", "XRP")]

  /** The tickers of a coin list. */
  function Tickers(coins: seq<(string, string)>): (r: set<string>)
    ensures forall i :: 0 <= i < |coins| ==> coins[i].1 in r
    ensures forall t :: t in r ==> exists i :: 0 <= i < |coins| && coins[i].1 == t
  {
    set i | 0 <= i < |coins| :: coins[i].1
  }

  /** The quote of one coin: `data.get(coin_id, {})` must be a dict
      (`.get` on anything else, `None` included, raises); each field is
      taken when it is a number. */
  function CoinQuote(data: map<string, Value>, id: string, ticker: string): (r: Result<Quote>)
    ensures id !in data ==> r == Ok(NoQuote(ticker, "coingecko"))
    ensures r.Raises? <==> id in data && !data[id].Obj?
    ensures id in data && data[id].Obj? ==>
              r == Ok(Quote(ticker, NumberOrNone(PyNumber.DictGet(data[id].fields, "usd")),
                            NumberOrNone(PyNumber.DictGet(data[id].fields, "usd_24h_change")), "coingecko"))
  {
    var coin := if id in data then data[id] else Obj(map[]);
    if !coin.Obj? then Raises("AttributeError")
    else Ok(Quote(ticker, NumberOrNone(PyNumber.DictGet(coin.fields, "usd")), NumberOrNone(PyNumber.DictGet(coin.fields, "usd_24h_change")), "coingecko"))
  }

  /** The loop over the coins of a dict answer: stops at the first coin
      whose entry is not a dict. */
  function CoinQuotes(data: map<string, Value>, coins: seq<(string, string)>): (r: Result<map<string, Quote>>)
    ensures r.Ok? ==> r.value.Keys == Tickers(coins)
    ensures r.Raises? <==> SomeCoinRaises(data, coins)
    decreases |coins|
  {
    if coins == [] then Ok(map[])
    else
      var last := coins[|coins| - 1];
      var init := coins[..|coins| - 1];
      CoinsSnoc(data, coins);
      match CoinQuotes(data, init)
      case Raises(e) => Raises(e)
      case Ok(m) =>
        match CoinQuote(data, last.0, last.1)
        case Raises(e) => Raises(e)
        case Ok(q) => Ok(m[last.1 := q])
  }

  /** Some coin's entry makes `CoinQuote` raise. */
  predicate SomeCoinRaises(data: map<string, Value>, coins: seq<(string, string)>) {
    exists i :: 0 <= i < |coins| && CoinQuote(data, coins[i].0, coins[i].1).Raises?
  }

  /** The tickers and the raising coins of a list, split at its last coin. */
  lemma CoinsSnoc(data: map<string, Value>, coins: seq<(string, string)>)
    requires coins != []
    ensures Tickers(coins) == Tickers(coins[..|coins| - 1]) + {coins[|coins| - 1].1}
    ensures SomeCoinRaises(data, coins)
            <==> SomeCoinRaises(data, coins[..|coins| - 1])
                 || CoinQuote(data, coins[|coins| - 1].0, coins[|coins| - 1].1).Raises?
  {
    var init := coins[..|coins| - 1];
    assert forall i :: 0 <= i < |init| ==> init[i] == coins[i];
    if SomeCoinRaises(data, coins) && !CoinQuote(data, coins[|coins| - 1].0, coins[|coins| - 1].1).Raises? {
      var i :| 0 <= i < |coins| && CoinQuote(data, coins[i].0, coins[i].1).Raises?;
      assert i < |init|;
    }
  }

  /** With distinct tickers, each coin's quote is its own. */
  lemma {:induction false} CoinQuotesAt(data: map<string, Value>, coins: seq<(string, string)>, i: nat)
    requires CoinQuotes(data, coins).Ok? && i < |coins| && DistinctTickers(coins)
    ensures coins[i].1 in CoinQuotes(data, coins).value
    ensures Ok(CoinQuotes(data, coins).value[coins[i].1]) == CoinQuote(data, coins[i].0, coins[i].1)
    decreases |coins|
  {
    var init := coins[..|coins| - 1];
    var last := coins[|coins| - 1];
    CoinQuotesStep(data, coins);
    var r := CoinQuotes(data, coins).value;
    var r0 := CoinQuotes(data, init).value;
    var t := coins[i].1;
    if i == |coins| - 1 {
      assert r[t] == CoinQuote(data, last.0, last.1).value;
    } else {
      assert t in r0 && Ok(r0[t]) == CoinQuote(data, coins[i].0, t) by {
        assert init[i] == coins[i];
        DistinctPrefix(coins);
        CoinQuotesAt(data, init, i);
      }
      assert t != last.1;
      assert r[t] == r0[t];
    }
  }

  /** No two coins of the list share a ticker. */
  predicate DistinctTickers(coins: seq<(string, string)>) {
    forall j, k :: 0 <= j < k < |coins| ==> coins[j].1 != coins[k].1
  }

  /** A prefix of a list with distinct tickers has distinct tickers. */
  lemma DistinctPrefix(coins: seq<(string, string)>)
    requires coins != [] && DistinctTickers(coins)
    ensures DistinctTickers(coins[..|coins| - 1])
  {
    var init := coins[..|coins| - 1];
    forall j, k | 0 <= j < k < |init| ensures init[j].1 != init[k].1 {
      assert init[j] == coins[j] && init[k] == coins[k];
    }
  }

  /** One step of the loop: a completed loop completed its prefix and the
      last coin, and added the last coin's quote. */
  lemma CoinQuotesStep(data: map<string, Value>, coins: seq<(string, string)>)
    requires CoinQuotes(data, coins).Ok? && coins != []
    ensures CoinQuotes(data, coins[..|coins| - 1]).Ok?
    ensures CoinQuote(data, coins[|coins| - 1].0, coins[|coins| - 1].1).Ok?
    ensures CoinQuotes(data, coins).value
            == CoinQuotes(data, coins[..|coins| - 1]).value[coins[|coins| - 1].1
                 := CoinQuote(data, coins[|coins| - 1].0, coins[|coins| - 1].1).value]
  {
  }

  /** `fetch_coingecko_prices` after the request: without data every coin
      has neither price nor change; a dict answer goes through the coins;
      any other truthy answer has no `.get` and raises. */
  function CoinGeckoPrices(data: Value): (r: Result<map<string, Quote>>)
    ensures r.Ok? ==> r.value.Keys == {"BTC", "ETH", "SOL", "XRP"}
    ensures !PyTruthy(data) ==> r.Ok? && forall t :: t in r.value ==> r.value[t] == NoQuote(t, "coingecko")
    ensures PyTruthy(data) && !data.Obj? ==> r.Raises?
  {
    assert Tickers(CoinGeckoIds) == {"BTC", "ETH", "SOL", "XRP"} by {
      assert CoinGeckoIds[0].1 == "BTC" && CoinGeckoIds[1].1 == "ETH";
      assert CoinGeckoIds[2].1 == "SOL" && CoinGeckoIds[3].1 == "XRP";
    }
    if !PyTruthy(data) then
      Ok(map["BTC" := NoQuote("BTC", "coingecko"), "ETH" := NoQuote("ETH", "coingecko"),
             "SOL" := NoQuote("SOL", "coingecko"), "XRP" := NoQuote("XRP", "coingecko")])
    else if !data.Obj? then Raises("AttributeError")
    else CoinQuotes(data.fields, CoinGeckoIds)
  }

  /** The coins have distinct tickers. */
  lemma CoinGeckoTickersDistinct()
    ensures DistinctTickers(CoinGeckoIds)
  {
  }

  /** For a dict answer, each coin's price and change are its entry's
      numeric fields, and a coin missing from the answer has neither. */
  lemma CoinGeckoQuote(data: map<string, Value>, i: nat)
    requires CoinGeckoPrices(Obj(data)).Ok? && data != map[] && i < |CoinGeckoIds|
    ensures CoinGeckoIds[i].1 in CoinGeckoPrices(Obj(data)).value
    ensures Ok(CoinGeckoPrices(Obj(data)).value[CoinGeckoIds[i].1]) == CoinQuote(data, CoinGeckoIds[i].0, CoinGeckoIds[i].1)
  {
    assert PyTruthy(Obj(data));
    CoinGeckoTickersDistinct();
    CoinQuotesAt(data, CoinGeckoIds, i);
  }

  // ----- fear and greed -----

  /** `fetch_fear_greed` after the request: `float(data["data"][0]["value"])`,
      absent when there is no data or the answer has another shape. */
  function FearGreed(data: Value): (r: Option<real>)
    ensures !PyTruthy(data) ==> r.None?
  {
    if !PyTruthy(data) then None
    else
      match Index(data, "data")
      case Raises(_) => None
      case Ok(list) =>
        match At(list, 0)
        case Raises(_) => None
        case Ok(entry) =>
          match Index(entry, "value")
          case Raises(_) => None
          case Ok(v) => (match PyNumber.Float(v) case Ok(x) => Some(x) case Raises(_) => None)
  }

  /** The index as alternative.me sends it, a numeric string, is read. */
  lemma FearGreedOfAnswer(n: nat)
    ensures FearGreed(Obj(map["data" := Arr([Obj(map["value" := Str(Decimal.NatText(n))])])])) == Some(n as real)
  {
    var entry := Obj(map["value" := Str(Decimal.NatText(n))]);
    var data := Obj(map["data" := Arr([entry])]);
    assert "data" in data.fields;
    assert PyTruthy(data);
    assert Index(data, "data") == Ok(Arr([entry]));
    assert At(Arr([entry]), 0) == Ok(entry);
    assert Index(entry, "value") == Ok(Str(Decimal.NatText(n)));
    PyNumber.FloatOfNatText(n);
    assert PyNumber.Float(Str(Decimal.NatText(n))) == Ok(n as real);
  }

  // ----- signals and stance -----

  /** The vote of one index change: up +1, otherwise -1, none when absent. */
  function Vote(v: Option<real>): (r: int)
    ensures v.None? ==> r == 0
    ensures v.Some? ==> (r == 1 <==> v.value > 0.0) && (r == -1 <==> v.value <= 0.0)
  {
    if v.None? then 0 else if v.value > 0.0 then 1 else -1
  }

  /** `score_direction`: the two equity changes vote for their sign, the
      dollar against its sign; two net votes decide. */
  function ScoreDirection(spx: Option<real>, ndx: Option<real>, dxy: Option<real>): (r: int)
    ensures -1 <= r <= 1
    ensures r == 1 <==> Vote(spx) + Vote(ndx) - Vote(dxy) >= 2
    ensures r == -1 <==> Vote(spx) + Vote(ndx) - Vote(dxy) <= -2
  {
    var points := Vote(spx) + Vote(ndx) + (if dxy.None? then 0 else if dxy.value > 0.0 then -1 else 1);
    if points > 1 then 1 else if points < -1 then -1 else 0
  }

  /** One signal alone never moves the direction. */
  lemma ScoreDirectionNeedsTwo(spx: Option<real>, ndx: Option<real>, dxy: Option<real>)
    requires (if spx.Some? then 1 else 0) + (if ndx.Some? then 1 else 0) + (if dxy.Some? then 1 else 0) <= 1
    ensures ScoreDirection(spx, ndx, dxy) == 0
  {
  }

  /** Rising equities with a falling (or flat) dollar is risk-on, and the
      mirror image is risk-off. */
  lemma ScoreDirectionUnanimous(spx: real, ndx: real, dxy: real)
    ensures spx > 0.0 && ndx > 0.0 && dxy <= 0.0 ==> ScoreDirection(Some(spx), Some(ndx), Some(dxy)) == 1
    ensures spx <= 0.0 && ndx <= 0.0 && dxy > 0.0 ==> ScoreDirection(Some(spx), Some(ndx), Some(dxy)) == -1
  {
  }

  /** `abs(x)`. */
  function AbsReal(x: real): (r: real)
    ensures r >= 0.0 && (r == x || r == -x)
  {
    if x < 0.0 then -x else x
  }

  /** `score_vol`: a falling VIX counts +1 and any other VIX -1; an ETH
      move beyond 3% counts +1; the sum is clamped to [-1, 1]. */
  function ScoreVol(vix: Option<real>, eth: Option<real>): (r: int)
    ensures -1 <= r <= 1
  {
    var points := (if vix.None? then 0 else if vix.value < 0.0 then 1 else -1)
                  + (if eth.None? then 0 else if AbsReal(eth.value) > 3.0 then 1 else 0);
    if points > 1 then 1 else if points < -1 then -1 else points
  }

  /** The volatility signal is -1 exactly when the VIX did not fall and ETH
      did not move beyond 3%, and +1 exactly when the VIX fell or, without a
      VIX, ETH moved beyond 3%. */
  lemma ScoreVolCases(vix: Option<real>, eth: Option<real>)
    ensures ScoreVol(vix, eth) == -1 <==> vix.Some? && vix.value >= 0.0 && (eth.None? || AbsReal(eth.value) <= 3.0)
    ensures ScoreVol(vix, eth) == 1 <==>
              (vix.Some? && vix.value < 0.0) || (vix.None? && eth.Some? && AbsReal(eth.value) > 3.0)
  {
  }

  /** `score_sentiment`: fear (at most 30) is -1, greed (at least 70) is +1,
      anything between or a missing index is 0. */
  function ScoreSentiment(fearGreed: Option<real>): (r: int)
    ensures fearGreed.None? ==> r == 0
    ensures fearGreed.Some? ==> (r == -1 <==> fearGreed.value <= 30.0) && (r == 1 <==> fearGreed.value >= 70.0)
    ensures -1 <= r <= 1
  {
    if fearGreed.None? then 0
    else if fearGreed.value <= 30.0 then -1
    else if fearGreed.value >= 70.0 then 1
    else 0
  }

  /** More greed never lowers the sentiment signal. */
  lemma ScoreSentimentMonotone(a: real, b: real)
    requires a <= b
    ensures ScoreSentiment(Some(a)) <= ScoreSentiment(Some(b))
  {
  }

  /** The stance of the briefing. */
  datatype Stance = RiskOn | RiskOff | Neutral

  /** The stance from the net bias `(direction + vol + sentiment) / 3.0`:
      above 0.3 risk-on, below -0.3 risk-off, otherwise neutral. */
  function StanceOf(direction: int, vol: int, sentiment: int): (s: Stance)
    ensures s == RiskOn <==> ((direction + vol + sentiment) as real) / 3.0 > 0.3
    ensures s == RiskOff <==> ((direction + vol + sentiment) as real) / 3.0 < -0.3
  {
    var netBias := ((direction + vol + sentiment) as real) / 3.0;
    if netBias > 0.3 then RiskOn else if netBias < -0.3 then RiskOff else Neutral
  }

  /** Because the signals are whole numbers, the thresholds ±0.3 on the
      mean are the same as a score sum of at least 1 or at most -1. */
  lemma StanceBySum(direction: int, vol: int, sentiment: int)
    ensures StanceOf(direction, vol, sentiment) == RiskOn <==> direction + vol + sentiment >= 1
    ensures StanceOf(direction, vol, sentiment) == RiskOff <==> direction + vol + sentiment <= -1
    ensures StanceOf(direction, vol, sentiment) == Neutral <==> direction + vol + sentiment == 0
  {
  }

  /** The stance of a briefing from the quotes it gathered: risk-on when
      the three scores add up to at least 1, risk-off when they add up to
      at most -1, neutral when they cancel. */
  function BriefStance(spx: Quote, ndx: Quote, dxy: Quote, vix: Quote, eth: Quote, fearGreed: Option<real>): (s: Stance)
    ensures var sum := ScoreDirection(spx.change, ndx.change, dxy.change) + ScoreVol(vix.change, eth.change)
                       + ScoreSentiment(fearGreed);
            && (s == RiskOn <==> sum >= 1)
            && (s == RiskOff <==> sum <= -1)
            && (s == Neutral <==> sum == 0)
  {
    var direction := ScoreDirection(spx.change, ndx.change, dxy.change);
    var vol := ScoreVol(vix.change, eth.change);
    var sentiment := ScoreSentiment(fearGreed);
    StanceBySum(direction, vol, sentiment);
    StanceOf(direction, vol, sentiment)
  }

  /** With every quote missing the fear-and-greed index alone decides:
      one signal of +1 or -1 already passes the 0.3 threshold. */
  lemma BriefStanceWithoutQuotes(fearGreed: Option<real>)
    ensures BriefStance(NoQuote("S&P500", "yahoo"), NoQuote("NASDAQ", "yahoo"), NoQuote("DXY", "yahoo"),
                        NoQuote("VIX", "yahoo"), NoQuote("ETH", "coingecko"), fearGreed)
            == (if fearGreed.None? then Neutral
                else if fearGreed.value <= 30.0 then RiskOff
                else if fearGreed.value >= 70.0 then RiskOn
                else Neutral)
  {
    StanceBySum(0, 0, ScoreSentiment(fearGreed));
  }

  // ----- RSS -----

  /** An `<item>` of the feed: the text of its `title`, `link` and
      `pubDate` children, absent when the child is missing. */
  datatype RawItem = RawItem(title: Option<string>, link: Option<string>, pubDate: Option<string>)

  /** A news entry of the briefing. */
  datatype NewsItem = NewsItem(title: string, link: string, pubDate: string)

  /** `(item.findtext(...) or "").strip()` for the three children. */
  function Clean(item: RawItem): NewsItem {
    NewsItem(Text.PyStrip(item.title.GetOr("")), Text.PyStrip(item.link.GetOr("")), Text.PyStrip(item.pubDate.GetOr("")))
  }

  /** An entry with both a title and a link. */
  predicate Usable(n: NewsItem) {
    n.title != "" && n.link != ""
  }

  /** The usable entries, in order. */
  function KeepUsable(entries: seq<NewsItem>): (r: seq<NewsItem>)
    ensures |r| <= |entries|
    ensures forall i :: 0 <= i < |r| ==> Usable(r[i])
    ensures forall i :: 0 <= i < |entries| && Usable(entries[i]) ==> entries[i] in r
    ensures forall x :: multiset(r)[x] == if Usable(x) then multiset(entries)[x] else 0
    decreases |entries|
  {
    if entries == [] then []
    else
      var rest := KeepUsable(entries[1..]);
      assert forall i :: 1 <= i < |entries| ==> entries[1..][i - 1] == entries[i];
      var r := if Usable(entries[0]) then [entries[0]] + rest else rest;
      KeepCopiesStep(entries, rest, r, Usable);
      r
  }

  /** The kept entries are the entries with some left out, in the same
      order. */
  lemma {:induction false} KeepUsableInOrder(entries: seq<NewsItem>)
    ensures IsSubsequence(KeepUsable(entries), entries)
    decreases |entries|
  {
    if entries != [] {
      KeepUsableInOrder(entries[1..]);
      var rest := KeepUsable(entries[1..]);
      if Usable(entries[0]) {
        assert KeepUsable(entries)[1..] == rest;
      } else {
        SubsequenceSkip(rest, entries);
      }
    }
  }

  /** The cleaned entries, in document order. */
  function CleanAll(items: seq<RawItem>): (r: seq<NewsItem>)
    ensures |r| == |items|
    ensures forall i :: 0 <= i < |items| ==> r[i] == Clean(items[i])
  {
    seq(|items|, i requires 0 <= i < |items| => Clean(items[i]))
  }

  /** The feed's items considered. */
  const MaxItems: nat := 6

  /** `fetch_rss` after parsing: the first six items of the document that
      have both a title and a link, cleaned, in document order. */
  function RssItems(items: seq<RawItem>): (r: seq<NewsItem>)
    ensures |r| <= MaxItems
    ensures forall i :: 0 <= i < |r| ==> Usable(r[i])
    ensures forall i :: 0 <= i < |items| && i < MaxItems && Usable(Clean(items[i])) ==> Clean(items[i]) in r
  {
    var first := if |items| <= MaxItems then items else items[..MaxItems];
    var entries := CleanAll(first);
    assert forall i :: 0 <= i < |items| && i < MaxItems ==> entries[i] == Clean(items[i]);
    KeepUsable(entries)
  }

  /** The entries of the briefing appear in the feed's order, each being
      one of the first six items cleaned. */
  lemma RssItemsInOrder(items: seq<RawItem>)
    ensures IsSubsequence(RssItems(items), CleanAll(if |items| <= MaxItems then items else items[..MaxItems]))
  {
    KeepUsableInOrder(CleanAll(if |items| <= MaxItems then items else items[..MaxItems]));
  }
}

=== FILE: macro_stocks.dfy ===
/** The macro and stock snapshot of scripts/update_macro_stocks_data.py:
    every figure is the freshly fetched one when there is one, and
    otherwise the one the previous snapshot file holds. The fetches
    themselves are inputs. */
module MacroStocks {
  import opened Common
  import opened Json
  import PyNumber
  import Text

  // ----- metrics -----

  /** The placeholder the script writes when a metric has no display text.
      The source spells it as these three characters (an em dash whose
      UTF-8 bytes were read as Windows-1252). */
  const NoDisplay: string := "\U{00E2}\U{20AC}\U{201D}"

  /** A metric of the snapshot: `(value, delta, display)`. */
  datatype Metric = Metric(value: Option<real>, delta: real, display: string)

  /** The empty metric: no value, no change, no text. */
  const Blank := Metric(None, 0.0, NoDisplay)

  /** `cur = cur.get(p, {}) if isinstance(cur, dict) else {}` for each key
      of the path in turn. */
  function Descend(cur: Value, path: seq<string>): Value
    decreases |path|
  {
    if path == [] then cur
    else
      var next := if cur.Obj? && path[0] in cur.fields then cur.fields[path[0]] else Obj(map[]);
      Descend(next, path[1..])
  }

  /** Descending from an empty dict always ends at an empty dict. */
  lemma {:induction false} DescendOfEmpty(path: seq<string>)
    ensures Descend(Obj(map[]), path) == Obj(map[])
    decreases |path|
  {
    if path != [] {
      DescendOfEmpty(path[1..]);
    }
  }

  /** `read_prev_metric(prev_macro, *path)`: the metric stored at `path`.
      The value and delta go through `to_num`, a missing delta is 0, and a
      display that is not a string is the placeholder. */
  function ReadPrevMetric(prev: Value, path: seq<string>): (r: Metric)
    ensures !Descend(prev, path).Obj? ==> r == Blank
  {
    var cur := Descend(prev, path);
    if !cur.Obj? then Blank
    else
      var display := PyNumber.DictGet(cur.fields, "display");
      Metric(PyNumber.ToNum(PyNumber.DictGet(cur.fields, "value")),
             PyNumber.PctOrZero(PyNumber.ToNum(PyNumber.DictGet(cur.fields, "delta"))),
             if display.Str? then display.s else NoDisplay)
  }

  /** A path that leaves the previous snapshot at its first key (a missing
      section) reads as the empty metric. */
  lemma ReadPrevMetricOfMissingSection(prev: Value, path: seq<string>)
    requires path != [] && !(prev.Obj? && path[0] in prev.fields)
    ensures ReadPrevMetric(prev, path) == Blank
  {
    DescendOfEmpty(path[1..]);
  }

  /** A metric as the script writes it into the snapshot (line 254 and
      the lines after it). */
  function MetricJson(m: Metric): (v: Value)
    ensures v.Obj? && v.fields.Keys == {"value", "delta", "display"}
  {
    Obj(map["value" := (match m.value case Some(x) => Number(Finite(x)) case None => Null),
            "delta" := Number(Finite(m.delta)),
            "display" := Str(m.display)])
  }

  /** Reading back a metric the previous run wrote gives that metric. */
  lemma ReadPrevMetricRoundTrip(prev: Value, group: string, key: string, m: Metric)
    requires prev.Obj? && group in prev.fields
    requires prev.fields[group].Obj? && key in prev.fields[group].fields
    requires prev.fields[group].fields[key] == MetricJson(m)
    ensures ReadPrevMetric(prev, [group, key]) == m
  {
    assert [group, key][1..] == [key];
    assert [key][1..] == [];
    assert Descend(prev, [group, key]) == Descend(prev.fields[group], [key]);
    assert Descend(prev.fields[group], [key]) == Descend(MetricJson(m), []);
  }

  /** `pick_value`: the live value with its delta (0 when absent) and its
      display text, or the previous metric verbatim when there is no live
      value. */
  function PickValue(live: Option<real>, liveDelta: Option<real>, prev: Metric, show: real -> string): (r: Metric)
    ensures live.None? ==> r == prev
    ensures live.Some? ==> r.value == live && r.delta == PyNumber.PctOrZero(liveDelta) && r.display == show(live.value)
  {
    if live.None? then prev
    else Metric(live, PyNumber.PctOrZero(liveDelta), show(live.value))
  }

  /** A picked metric loses its value only when neither side has one. */
  lemma PickValueKeepsValues(live: Option<real>, liveDelta: Option<real>, prev: Metric, show: real -> string)
    ensures PickValue(live, liveDelta, prev, show).value == live.OrElse(prev.value)
  {
  }

  // ----- FRED -----

  /** `fetch_fred_latest`'s answer: latest value, its change, and whether
      the series gave any usable row. */
  datatype Fred = Fred(value: Option<real>, delta: Option<real>, ok: bool)

  /** One CSV row as `csv.DictReader` yields it: column name to cell text
      (a column the row does not reach is absent). */
  type CsvRow = map<string, string>

  /** `(row.get(series_id) or row.get("VALUE") or "").strip()`. */
  function RawCell(row: CsvRow, seriesId: string): (raw: string)
    ensures seriesId in row && row[seriesId] != "" ==> raw == Text.PyStrip(row[seriesId])
  {
    var a := if seriesId in row then row[seriesId] else "";
    var b := if "VALUE" in row then row["VALUE"] else "";
    Text.PyStrip(if a != "" then a else b)
  }

  /** The number a row contributes: none for a blank cell, for FRED's
      missing-value mark "." and for text `float()` rejects. */
  function Reading(row: CsvRow, seriesId: string): (r: Option<real>)
    ensures RawCell(row, seriesId) == "" || RawCell(row, seriesId) == "." ==> r.None?
    ensures r.Some? ==> PyNumber.FloatOfString(RawCell(row, seriesId)) == r
  {
    var raw := RawCell(row, seriesId);
    if raw == "" || raw == "." then None else PyNumber.FloatOfString(raw)
  }

  /** The present values of a sequence of optional numbers, in order. */
  function Somes(xs: seq<Option<real>>): (r: seq<real>)
    ensures |r| <= |xs|
    decreases |xs|
  {
    if xs == [] then []
    else
      match xs[0]
      case Some(x) => [x] + Somes(xs[1..])
      case None => Somes(xs[1..])
  }

  /** One more element at the end adds its value, if any, at the end. */
  lemma {:induction false} SomesAppend(xs: seq<Option<real>>, o: Option<real>)
    ensures o.None? ==> Somes(xs + [o]) == Somes(xs)
    ensures o.Some? ==> Somes(xs + [o]) == Somes(xs) + [o.value]
    decreases |xs|
  {
    if xs == [] {
      assert [o][1..] == [];
    } else {
      assert (xs + [o])[1..] == xs[1..] + [o];
      SomesAppend(xs[1..], o);
    }
  }

  /** The reading of each row of a CSV body. */
  function RowReadings(rows: seq<CsvRow>, seriesId: string): (r: seq<Option<real>>)
    ensures |r| == |rows|
    ensures forall i :: 0 <= i < |rows| ==> r[i] == Reading(rows[i], seriesId)
  {
    seq(|rows|, i requires 0 <= i < |rows| => Reading(rows[i], seriesId))
  }

  /** The usable numbers of a CSV body, in row order. */
  function Readings(rows: seq<CsvRow>, seriesId: string): (r: seq<real>)
    ensures |r| <= |rows|
  {
    Somes(RowReadings(rows, seriesId))
  }

  /** One more row at the end adds its reading, if any, at the end. */
  lemma ReadingsAppend(rows: seq<CsvRow>, row: CsvRow, seriesId: string)
    ensures Reading(row, seriesId).None? ==> Readings(rows + [row], seriesId) == Readings(rows, seriesId)
    ensures Reading(row, seriesId).Some? ==>
              Readings(rows + [row], seriesId) == Readings(rows, seriesId) + [Reading(row, seriesId).value]
  {
    assert RowReadings(rows + [row], seriesId) == RowReadings(rows, seriesId) + [Reading(row, seriesId)];
    SomesAppend(RowReadings(rows, seriesId), Reading(row, seriesId));
  }

  /** The answer for the usable readings of a series: nothing usable
      gives `(None, None, False)`; otherwise the last reading, its change
      from the one before (0 with a single reading), and `True`. */
  function Latest(xs: seq<real>): (r: Fred)
    ensures xs == [] <==> r == Fred(None, None, false)
    ensures r.ok <==> r.value.Some?
    ensures r.ok ==> r.delta.Some?
  {
    if xs == [] then Fred(None, None, false)
    else
      var latest := xs[|xs| - 1];
      var prev := if |xs| >= 2 then xs[|xs| - 2] else latest;
      Fred(Some(latest), Some(latest - prev), true)
  }

  /** One more reading becomes the latest value, and its change is taken
      from the previous latest value (0 if there was none). */
  lemma LatestOfAppend(xs: seq<real>, x: real)
    ensures Latest(xs + [x]) == Fred(Some(x), Some(x - Latest(xs).value.GetOr(x)), true)
  {
    var ys := xs + [x];
    assert ys[|ys| - 1] == x;
    if xs != [] {
      assert ys[|ys| - 2] == xs[|xs| - 1];
    }
  }

  /** The parsing part of `fetch_fred_latest`. */
  function FredLatest(rows: seq<CsvRow>, seriesId: string): (r: Fred)
    ensures Readings(rows, seriesId) == [] <==> r == Fred(None, None, false)
  {
    Latest(Readings(rows, seriesId))
  }

  /** Reading one more usable row appends its number to the readings the
      answer is taken from; with `LatestOfAppend` it becomes the latest
      value, and its change is taken from the previous latest value. */
  lemma FredLatestOfUsableRow(rows: seq<CsvRow>, row: CsvRow, seriesId: string)
    requires Reading(row, seriesId).Some?
    ensures FredLatest(rows + [row], seriesId) == Latest(Readings(rows, seriesId) + [Reading(row, seriesId).value])
    ensures FredLatest(rows + [row], seriesId).value == Reading(row, seriesId)
  {
    ReadingsAppend(rows, row, seriesId);
    LatestOfAppend(Readings(rows, seriesId), Reading(row, seriesId).value);
  }

  /** Reading one more unusable row changes nothing. */
  lemma FredLatestOfUnusableRow(rows: seq<CsvRow>, row: CsvRow, seriesId: string)
    requires Reading(row, seriesId).None?
    ensures FredLatest(rows + [row], seriesId) == FredLatest(rows, seriesId)
  {
    ReadingsAppend(rows, row, seriesId);
  }

  /** `fred_pick` (and the identical `liq_pick`): the previous metric
      verbatim unless the series was fetched with a value. */
  function FredPick(f: Fred, prev: Metric, show: real -> string): (r: Metric)
    ensures !f.ok || f.value.None? ==> r == prev
    ensures f.ok && f.value.Some? ==> r == Metric(f.value, PyNumber.PctOrZero(f.delta), show(f.value.value))
  {
    if !f.ok || f.value.None? then prev
    else Metric(f.value, PyNumber.PctOrZero(f.delta), show(f.value.value))
  }

  /** A FRED pick is a `pick_value` of the value that counts only when the
      fetch succeeded. */
  lemma FredPickIsPickValue(f: Fred, prev: Metric, show: real -> string)
    ensures FredPick(f, prev, show) == PickValue(if f.ok then f.value else None, f.delta, prev, show)
  {
  }

  // ----- as_of -----

  /** `fetched_any`: the quotes came back, the exchange rate parsed, or
      some FRED series had a usable row. */
  predicate FetchedAny(quotesOk: bool, usdKrw: Option<real>, fred: seq<Fred>) {
    quotesOk || usdKrw.Some? || exists i :: 0 <= i < |fred| && fred[i].ok
  }

  /** `as_of`: the current time when anything was fetched, otherwise the
      previous snapshot's `as_of` (the current time if it has none). */
  function AsOf(now: string, quotesOk: bool, usdKrw: Option<real>, fred: seq<Fred>, prev: map<string, Value>): (r: Value)
    ensures FetchedAny(quotesOk, usdKrw, fred) ==> r == Str(now)
    ensures !FetchedAny(quotesOk, usdKrw, fred) && "as_of" in prev ==> r == prev["as_of"]
  {
    if FetchedAny(quotesOk, usdKrw, fred) then Str(now)
    else if "as_of" in prev then prev["as_of"] else Str(now)
  }

  /** A run in which no FRED series came back keeps every FRED metric, and
      when nothing else came back either it keeps `as_of` too. */
  lemma QuietRunKeepsSnapshot(now: string, fred: seq<Fred>, prev: map<string, Value>, prevMetric: Metric, i: nat, show: real -> string)
    requires forall j :: 0 <= j < |fred| ==> !fred[j].ok
    requires "as_of" in prev && i < |fred|
    ensures FredPick(fred[i], prevMetric, show) == prevMetric
    ensures AsOf(now, false, None, fred, prev) == prev["as_of"]
  {
  }
}

=== FILE: py_number.dfy ===
/** Python's `dict.get`, `float()` conversion and `round(x, 2)` as the snapshot
    scripts use them. Python floats are exact reals here: the NaN and
    infinities that Python's JSON decoder can produce are not represented,
    so a non-finite JSON number is treated as one `float()` rejects. */
module PyNumber {
  import opened Common
  import opened Json
  import Text
  import Decimal

  /** `d.get(k)` on a Python dict: `None` when the key is missing. */
  function DictGet(d: map<string, Value>, k: string): (r: Value)
    ensures k in d ==> r == d[k]
    ensures k !in d ==> r == Null
  {
    if k in d then d[k] else Null
  }

  /** `float(s)` for a string: surrounding white space is ignored and the
      rest must be a decimal literal, otherwise `ValueError`. */
  function FloatOfString(s: string): (r: Option<real>)
    ensures Text.PyStrip(s) == "" ==> r.None?
  {
    Decimal.ParseSigned(Text.PyStrip(s))
  }

  /** `float(v)` for a decoded JSON value: booleans are 1.0 / 0.0 (bool is a
      subclass of int), numbers are themselves, strings are parsed, and
      `None`, lists and dicts raise `TypeError`. */
  function Float(v: Value): (r: Result<real>)
    ensures v.Null? || v.Arr? || v.Obj? ==> r.Raises?
    ensures v.Bool? ==> r == Ok(if v.b then 1.0 else 0.0)
    ensures v.Number? && v.n.Finite? ==> r == Ok(v.n.r)
  {
    match v
    case Bool(b) => Ok(if b then 1.0 else 0.0)
    case Number(Finite(x)) => Ok(x)
    case Number(_) => Raises("non-finite float")
    case Str(s) =>
      (match FloatOfString(s)
       case Some(x) => Ok(x)
       case None => Raises("ValueError"))
    case _ => Raises("TypeError")
  }

  /** `to_num` of scripts/update_macro_stocks_data.py: `None` for `None`
      and for anything `float()` rejects, otherwise the parsed float. */
  function ToNum(v: Value): (r: Option<real>)
    ensures r.Some? <==> !v.Null? && Float(v).Ok?
    ensures r.Some? ==> Float(v) == Ok(r.value)
  {
    if v.Null? then None
    else
      match Float(v)
      case Ok(x) => Some(x)
      case Raises(_) => None
  }

  /** `pct_or_zero`: the number, or 0.0 when it is absent. */
  function PctOrZero(v: Option<real>): (r: real)
    ensures v.Some? ==> r == v.value
    ensures v.None? ==> r == 0.0
  {
    v.GetOr(0.0)
  }

  /** Round half to even to a whole number. */
  function RoundHalfEven(y: real): (n: int)
    ensures -(1.0 / 2.0) <= (n as real) - y <= 1.0 / 2.0
  {
    var f := y.Floor;
    var frac := y - f as real;
    if frac < 1.0 / 2.0 then f
    else if frac > 1.0 / 2.0 then f + 1
    else if f % 2 == 0 then f else f + 1
  }

  /** A whole number within half of `100 * x`, scaled back, is a whole
      number of cents within half a cent of `x`. */
  lemma CentsNear(k: int, x: real)
    requires -(1.0 / 2.0) <= (k as real) - x * 100.0 <= 1.0 / 2.0
    ensures -(1.0 / 200.0) <= (k as real) / 100.0 - x <= 1.0 / 200.0
    ensures (((k as real) / 100.0 * 100.0).Floor as real) == (k as real) / 100.0 * 100.0
  {
    var r := (k as real) / 100.0;
    assert r * 100.0 == k as real;
    assert (k as real).Floor == k;
    assert r - x == ((k as real) - x * 100.0) / 100.0;
  }

  /** `round(x, 2)`: the multiple of 0.01 nearest to `x`, ties to even. */
  function Round2(x: real): (r: real)
    ensures -(1.0 / 200.0) <= r - x <= 1.0 / 200.0
    ensures ((r * 100.0).Floor as real) == r * 100.0
  {
    var k := RoundHalfEven(x * 100.0);
    CentsNear(k, x);
    (k as real) / 100.0
  }

  /** Rounding a value that already has two decimals changes nothing. */
  lemma Round2OfCents(k: int)
    ensures Round2((k as real) / 100.0) == (k as real) / 100.0
  {
    assert ((k as real) / 100.0) * 100.0 == k as real;
    assert (k as real).Floor == k;
  }

  /** Rounding to two decimals is idempotent. */
  lemma Round2Idempotent(x: real)
    ensures Round2(Round2(x)) == Round2(x)
  {
    var k := RoundHalfEven(x * 100.0);
    Round2OfCents(k);
  }

  /** A string without surrounding white space is its own `strip()`. */
  lemma StripOfUnpadded(s: string)
    requires s != [] && !Text.IsPySpace(s[0]) && !Text.IsPySpace(s[|s| - 1])
    ensures Text.PyStrip(s) == s
  {
    assert Text.LeadingCount(s, Text.IsPySpace) == 0;
    assert Text.TrailingCount(s, Text.IsPySpace) == 0;
    assert s[0..|s|] == s;
  }

  /** `float()` reads the decimal text of a whole number back. */
  lemma FloatOfNatText(n: nat)
    ensures FloatOfString(Decimal.NatText(n)) == Some(n as real)
    ensures FloatOfString("-" + Decimal.NatText(n)) == Some(-(n as real))
  {
    Decimal.NatTextRoundTrip(n);
    FloatOfDigits(Decimal.NatText(n));
    NegatedDigitsStrip(Decimal.NatText(n));
  }

  /** A digit string has no white space to strip. */
  lemma FloatOfDigits(s: string)
    requires |s| >= 1 && Decimal.AllDigits(s)
    ensures FloatOfString(s) == Decimal.ParseSigned(s)
  {
    assert Decimal.IsDigit(s[0]) && Decimal.IsDigit(s[|s| - 1]);
    StripOfUnpadded(s);
  }

  /** A minus sign and a digit string have no white space to strip. */
  lemma NegatedDigitsStrip(s: string)
    requires |s| >= 1 && Decimal.AllDigits(s)
    ensures Text.PyStrip("-" + s) == "-" + s
  {
    var t := "-" + s;
    assert |t| == |s| + 1 && t[|t| - 1] == s[|s| - 1];
    assert Decimal.IsDigit(t[|t| - 1]);
    StripOfUnpadded(t);
  }
}

=== FILE: stocks.dfy ===
/** The stock table of scripts/update_macro_stocks_data.py and the
    crypto-equity list drawn from it: one row per watchlist entry, each
    figure live when the quote has it and otherwise the previous row's. */
module Stocks {
  import opened Common
  import opened Json
  import PyNumber
  import Text
  import MacroStocks

  // ----- quotes and stock rows -----

  /** `get_quote_fields`: price and change percent of a symbol's quote,
      each through `to_num`; a symbol without a quote has neither. */
  function QuoteFields(quotes: map<string, map<string, Value>>, sym: string): (r: (Option<real>, Option<real>))
    ensures sym !in quotes ==> r == (None, None)
    ensures sym in quotes ==> r.0 == PyNumber.ToNum(PyNumber.DictGet(quotes[sym], "regularMarketPrice"))
    ensures sym in quotes ==> r.1 == PyNumber.ToNum(PyNumber.DictGet(quotes[sym], "regularMarketChangePercent"))
  {
    var q := if sym in quotes then quotes[sym] else map[];
    (PyNumber.ToNum(PyNumber.DictGet(q, "regularMarketPrice")), PyNumber.ToNum(PyNumber.DictGet(q, "regularMarketChangePercent")))
  }

  /** The first group of the watchlist, as (group, name, ticker). */
  const BigTech: seq<(string, string, string)> := [
    ("Big Tech", "Apple", "AAPL"), ("Big Tech", "Microsoft", "MSFT"), ("Big Tech", "NVIDIA", "NVDA"),
    ("Big Tech", "Amazon", "AMZN"), ("Big Tech", "Alphabet", "GOOGL"), ("Big Tech", "Meta", "META"),
    ("Big Tech", "Tesla", "TSLA")]

  /** The second group of the watchlist. */
  const CryptoRelated: seq<(string, string, string)> := [
    ("Crypto Related", "Robinhood", "HOOD"), ("Crypto Related", "Coinbase", "COIN"),
    ("Crypto Related", "MicroStrategy/Strategy", "MSTR"), ("Crypto Related", "Marathon Digital", "MARA"),
    ("Crypto Related", "Riot Platforms", "RIOT"), ("Crypto Related", "Block", "SQ"),
    ("Crypto Related", "PayPal", "PYPL"), ("Crypto Related", "CME Group", "CME")]

  /** The stock watchlist, in table order. */
  const Watchlist: seq<(string, string, string)> := BigTech + CryptoRelated

  /** `str(r.get("ticker", "")).upper()` for the rows whose key can name a
      watchlist entry: a string ticker upper-cased, or "" when it is
      missing. `None` stands for a ticker of another type, whose `str()`
      ("None", "True", digits, brackets) never names a watchlist entry. */
  function TickerKey(r: map<string, Value>): Option<string> {
    if "ticker" !in r then Some("")
    else match r["ticker"]
      case Str(s) => Some(Text.Upper(s))
      case _ => None
  }

  /** A previous row that the lookup table files under `ticker`. */
  predicate FiledUnder(v: Value, ticker: string) {
    v.Obj? && TickerKey(v.fields) == Some(ticker)
  }

  /** The position of the last row filed under `ticker`, if any. */
  function LastFiled(rows: seq<Value>, ticker: string): (r: Option<nat>)
    ensures r.Some? ==> r.value < |rows| && FiledUnder(rows[r.value], ticker)
                        && forall k :: r.value < k < |rows| ==> !FiledUnder(rows[k], ticker)
    ensures r.None? ==> forall j :: 0 <= j < |rows| ==> !FiledUnder(rows[j], ticker)
    decreases |rows|
  {
    if rows == [] then None
    else if FiledUnder(rows[|rows| - 1], ticker) then Some(|rows| - 1)
    else
      var init := rows[..|rows| - 1];
      assert forall k :: 0 <= k < |init| ==> init[k] == rows[k];
      LastFiled(init, ticker)
  }

  /** `prev_stock_rows.get(ticker, {})`: the table is built by a dict
      comprehension over the previous rows, so the LAST row filed under the
      ticker wins; non-dict rows are skipped. */
  function PrevRow(rows: seq<Value>, ticker: string): (r: map<string, Value>)
    ensures (forall j :: 0 <= j < |rows| ==> !FiledUnder(rows[j], ticker)) ==> r == map[]
    ensures (exists j :: 0 <= j < |rows| && FiledUnder(rows[j], ticker)) ==>
              exists j :: 0 <= j < |rows| && rows[j] == Obj(r) && FiledUnder(rows[j], ticker)
                          && forall k :: j < k < |rows| ==> !FiledUnder(rows[k], ticker)
  {
    match LastFiled(rows, ticker)
    case None => map[]
    case Some(j) => rows[j].fields
  }

  /** One row of the stock table. */
  datatype StockRow = StockRow(group: string, name: string, ticker: string, price: Value, change: real)

  /** The row of one watchlist entry: the price is the live price rounded
      to cents, else whatever the previous row had (`None` if nothing);
      independently, the change is the live change rounded, else the
      previous change through `to_num`, else 0. */
  function MakeStockRow(entry: (string, string, string), quotes: map<string, map<string, Value>>, prevRows: seq<Value>): (r: StockRow)
    ensures r.group == entry.0 && r.name == entry.1 && r.ticker == entry.2
    ensures QuoteFields(quotes, entry.2).0.Some? ==>
              r.price == Number(Finite(PyNumber.Round2(QuoteFields(quotes, entry.2).0.value)))
    ensures QuoteFields(quotes, entry.2).0.None? ==> r.price == PyNumber.DictGet(PrevRow(prevRows, entry.2), "price")
    ensures QuoteFields(quotes, entry.2).1.Some? ==> r.change == PyNumber.Round2(QuoteFields(quotes, entry.2).1.value)
    ensures QuoteFields(quotes, entry.2).1.None? ==>
              r.change == PyNumber.ToNum(PyNumber.DictGet(PrevRow(prevRows, entry.2), "change")).GetOr(0.0)
  {
    var (p, d) := QuoteFields(quotes, entry.2);
    var prevRow := PrevRow(prevRows, entry.2);
    var price := if p.Some? then Number(Finite(PyNumber.Round2(p.value))) else PyNumber.DictGet(prevRow, "price");
    var change := if d.Some? then PyNumber.Round2(PyNumber.PctOrZero(d))
                  else PyNumber.PctOrZero(PyNumber.ToNum(PyNumber.DictGet(prevRow, "change")));
    StockRow(entry.0, entry.1, entry.2, price, change)
  }

  /** The rows of a watchlist, one per entry, in order. */
  function StockRowsOf(list: seq<(string, string, string)>, quotes: map<string, map<string, Value>>, prevRows: seq<Value>): (r: seq<StockRow>)
    ensures |r| == |list|
    ensures forall i :: 0 <= i < |list| ==> r[i] == MakeStockRow(list[i], quotes, prevRows)
  {
    seq(|list|, i requires 0 <= i < |list| => MakeStockRow(list[i], quotes, prevRows))
  }

  /** The stock table of the snapshot. */
  function StockRows(quotes: map<string, map<string, Value>>, prevRows: seq<Value>): (r: seq<StockRow>)
    ensures |r| == |Watchlist|
    ensures forall i :: 0 <= i < |r| ==> r[i].ticker == Watchlist[i].2
  {
    StockRowsOf(Watchlist, quotes, prevRows)
  }

  /** A stock row as the script writes it (line 292). */
  function StockRowJson(r: StockRow): Value {
    Obj(map["group" := Str(r.group), "name" := Str(r.name), "ticker" := Str(r.ticker),
            "price" := r.price, "change" := Number(Finite(r.change))])
  }

  /** Tickers made of upper-case letters and digits, none repeated. */
  predicate PlainTickers(list: seq<(string, string, string)>) {
    (forall i :: 0 <= i < |list| ==> forall k :: 0 <= k < |list[i].2| ==> Text.IsUpperAlnum(list[i].2[k]))
    && (forall i, j :: 0 <= i < j < |list| ==> list[i].2 != list[j].2)
  }

  /** The watchlist's tickers are plain and distinct. */
  lemma WatchlistIsPlain()
    ensures PlainTickers(Watchlist)
  {
    WatchlistUpper();
    WatchlistDistinct();
  }

  /** Every watchlist ticker is upper-case letters and digits. */
  lemma WatchlistUpper()
    ensures forall i :: 0 <= i < |Watchlist| ==> forall k :: 0 <= k < |Watchlist[i].2| ==> Text.IsUpperAlnum(Watchlist[i].2[k])
  {
  }

  /** No ticker appears twice on the watchlist. */
  lemma WatchlistDistinct()
    ensures forall i, j :: 0 <= i < j < |Watchlist| ==> Watchlist[i].2 != Watchlist[j].2
  {
  }

  /** The previous stock table as the script wrote it. */
  function Written(rows: seq<StockRow>): (r: seq<Value>)
    ensures |r| == |rows|
    ensures forall i :: 0 <= i < |rows| ==> r[i] == StockRowJson(rows[i])
  {
    seq(|rows|, i requires 0 <= i < |rows| => StockRowJson(rows[i]))
  }

  /** In a written table with plain, distinct tickers, exactly the row
      written for an entry is filed under that entry's ticker. */
  lemma WrittenFiledUnder(list: seq<(string, string, string)>, rows: seq<StockRow>, i: nat, k: nat)
    requires PlainTickers(list) && |rows| == |list| && i < |list| && k < |list|
    requires forall j :: 0 <= j < |list| ==> rows[j].ticker == list[j].2
    ensures FiledUnder(Written(rows)[k], list[i].2) <==> k == i
  {
    Text.UpperOfUpperAlnum(list[k].2);
    assert TickerKey(StockRowJson(rows[k]).fields) == Some(list[k].2);
  }

  /** The lookup table finds the row written for an entry. */
  lemma PrevRowOfWritten(list: seq<(string, string, string)>, rows: seq<StockRow>, i: nat)
    requires PlainTickers(list) && |rows| == |list| && i < |list|
    requires forall j :: 0 <= j < |list| ==> rows[j].ticker == list[j].2
    ensures PrevRow(Written(rows), list[i].2) == StockRowJson(rows[i]).fields
  {
    var prev := Written(rows);
    WrittenFiledUnder(list, rows, i, i);
    forall k | 0 <= k < |prev|
      ensures FiledUnder(prev[k], list[i].2) <==> k == i
    {
      WrittenFiledUnder(list, rows, i, k);
    }
  }

  /** Without quotes, the row of an entry is the row written for it. */
  lemma QuietRunKeepsStockRow(list: seq<(string, string, string)>, rows: seq<StockRow>, i: nat)
    requires PlainTickers(list) && |rows| == |list| && i < |list|
    requires forall j :: 0 <= j < |list| ==> rows[j].ticker == list[j].2
    requires rows[i].group == list[i].0 && rows[i].name == list[i].1
    ensures MakeStockRow(list[i], map[], Written(rows)) == rows[i]
  {
    PrevRowOfWritten(list, rows, i);
    assert QuoteFields(map[], list[i].2) == (None, None);
    var f := StockRowJson(rows[i]).fields;
    assert PyNumber.DictGet(f, "price") == rows[i].price;
    assert PyNumber.ToNum(PyNumber.DictGet(f, "change")) == Some(rows[i].change);
  }

  /** A run without any quotes reproduces the stock table the previous run
      wrote. */
  lemma QuietRunKeepsStockRows(list: seq<(string, string, string)>, rows: seq<StockRow>)
    requires PlainTickers(list) && |rows| == |list|
    requires forall i :: 0 <= i < |list| ==> rows[i].group == list[i].0 && rows[i].name == list[i].1 && rows[i].ticker == list[i].2
    ensures StockRowsOf(list, map[], Written(rows)) == rows
  {
    forall i | 0 <= i < |list|
      ensures StockRowsOf(list, map[], Written(rows))[i] == rows[i]
    {
      QuietRunKeepsStockRow(list, rows, i);
    }
  }

  // ----- crypto equities -----

  /** The crypto-related stocks the snapshot lists, in this order. */
  const CryptoTickers: seq<string> := ["COIN", "MSTR", "MARA", "RIOT", "HOOD"]

  /** One entry of `crypto_equities`: the ticker, its row's price (shown
      as the placeholder when it is `None`) and its change. */
  datatype Equity = Equity(ticker: string, price: Value, delta: real)

  /** `by_ticker[t]`: the last row with ticker `t`, if any. */
  function LastRow(rows: seq<StockRow>, t: string): (r: Option<StockRow>)
    ensures r.None? <==> forall j :: 0 <= j < |rows| ==> rows[j].ticker != t
    ensures r.Some? ==> r.value.ticker == t && r.value in rows
    decreases |rows|
  {
    if rows == [] then None
    else if rows[|rows| - 1].ticker == t then Some(rows[|rows| - 1])
    else
      var init := rows[..|rows| - 1];
      assert forall k :: 0 <= k < |init| ==> init[k] == rows[k];
      LastRow(init, t)
  }

  /** `crypto_equities` over a list of wanted tickers: the entries of the
      tickers that have a row, in the list's order. */
  function EquitiesOf(wanted: seq<string>, rows: seq<StockRow>): (r: seq<Equity>)
    ensures |r| <= |wanted|
    decreases |wanted|
  {
    if wanted == [] then []
    else
      var rest := EquitiesOf(wanted[1..], rows);
      match LastRow(rows, wanted[0])
      case Some(row) => [Equity(wanted[0], row.price, row.change)] + rest
      case None => rest
  }

  /** The tickers of the entries. */
  function Labels(es: seq<Equity>): (r: seq<string>)
    ensures |r| == |es|
    ensures forall i :: 0 <= i < |es| ==> r[i] == es[i].ticker
  {
    seq(|es|, i requires 0 <= i < |es| => es[i].ticker)
  }

  /** The labels are exactly the wanted tickers that have a row, in the
      wanted order. */
  function Present(wanted: seq<string>, rows: seq<StockRow>): (r: seq<string>)
    ensures IsSubsequence(r, wanted)
    decreases |wanted|
  {
    if wanted == [] then []
    else if LastRow(rows, wanted[0]).Some? then [wanted[0]] + Present(wanted[1..], rows)
    else
      var rest := Present(wanted[1..], rows);
      SubsequenceSkip(rest, wanted);
      rest
  }

  /** Every entry is for a wanted ticker that has a row, carries that row's
      price and change, and the entries follow the wanted order. */
  lemma {:induction false} EquitiesOfRows(wanted: seq<string>, rows: seq<StockRow>)
    ensures Labels(EquitiesOf(wanted, rows)) == Present(wanted, rows)
    ensures forall e :: e in EquitiesOf(wanted, rows) ==>
              LastRow(rows, e.ticker).Some? && e.price == LastRow(rows, e.ticker).value.price
              && e.delta == LastRow(rows, e.ticker).value.change
    decreases |wanted|
  {
    if wanted != [] {
      EquitiesOfRows(wanted[1..], rows);
    }
  }

  /** When every wanted ticker has a row, every one of them is listed. */
  lemma {:induction false} PresentAll(wanted: seq<string>, rows: seq<StockRow>)
    requires forall t :: t in wanted ==> LastRow(rows, t).Some?
    ensures Present(wanted, rows) == wanted
    decreases |wanted|
  {
    if wanted != [] {
      assert forall t :: t in wanted[1..] ==> t in wanted;
      PresentAll(wanted[1..], rows);
    }
  }

  /** The crypto stocks sit at the head of the second watchlist group. */
  lemma CryptoTickersInGroup()
    ensures forall t :: t in CryptoTickers ==> exists k :: 0 <= k < |CryptoRelated| && CryptoRelated[k].2 == t
  {
    assert CryptoRelated[0].2 == "HOOD" && CryptoRelated[1].2 == "COIN" && CryptoRelated[2].2 == "MSTR";
    assert CryptoRelated[3].2 == "MARA" && CryptoRelated[4].2 == "RIOT";
  }

  /** Every crypto stock is on the watchlist. */
  lemma CryptoTickersOnWatchlist()
    ensures forall t :: t in CryptoTickers ==> exists i :: 0 <= i < |Watchlist| && Watchlist[i].2 == t
  {
    forall t | t in CryptoTickers
      ensures exists i :: 0 <= i < |Watchlist| && Watchlist[i].2 == t
    {
      CryptoTickersInGroup();
      var k :| 0 <= k < |CryptoRelated| && CryptoRelated[k].2 == t;
      assert Watchlist[|BigTech| + k] == CryptoRelated[k];
    }
  }

  /** A table that follows the watchlist has a row for every watchlist
      ticker. */
  lemma WatchlistTickerHasRow(rows: seq<StockRow>, t: string)
    requires |rows| == |Watchlist|
    requires forall i :: 0 <= i < |rows| ==> rows[i].ticker == Watchlist[i].2
    requires exists i :: 0 <= i < |Watchlist| && Watchlist[i].2 == t
    ensures LastRow(rows, t).Some?
  {
    var i :| 0 <= i < |Watchlist| && Watchlist[i].2 == t;
    assert rows[i].ticker == t;
  }

  /** All five crypto stocks are on the watchlist, so the snapshot lists
      all five, in order. */
  lemma CryptoEquitiesComplete(quotes: map<string, map<string, Value>>, prevRows: seq<Value>)
    ensures Labels(EquitiesOf(CryptoTickers, StockRows(quotes, prevRows))) == CryptoTickers
  {
    var rows := StockRows(quotes, prevRows);
    EquitiesOfRows(CryptoTickers, rows);
    CryptoTickersOnWatchlist();
    forall t | t in CryptoTickers
      ensures LastRow(rows, t).Some?
    {
      WatchlistTickerHasRow(rows, t);
    }
    PresentAll(CryptoTickers, rows);
  }
}

=== FILE: text.dfy ===
/** String operations of the JavaScript and Python standard libraries that
    the core relies on: trimming, case mapping, suffix tests, splitting and
    substring replacement. */
module Text {
  import opened Common

  /** The characters JavaScript's `trim()` and `Number()` skip: WhiteSpace
      and LineTerminator of ECMAScript (section 12.2 and 12.3 of ECMA-262). */
  predicate IsJsSpace(c: char) {
    c == '\t' || c == '\n' || c == '\U{000B}' || c == '\U{000C}' || c == '\r' || c == ' '
    || c == '\U{00A0}' || c == '\U{1680}' || ('\U{2000}' <= c <= '\U{200A}')
    || c == '\U{2028}' || c == '\U{2029}' || c == '\U{202F}' || c == '\U{205F}'
    || c == '\U{3000}' || c == '\U{FEFF}'
  }

  /** The characters for which Python's `str.isspace()` holds; `strip()`,
      `float()` and the regular expression class `\s` use this set. */
  predicate IsPySpace(c: char) {
    c == '\t' || c == '\n' || c == '\U{000B}' || c == '\U{000C}' || c == '\r'
    || ('\U{001C}' <= c <= '\U{001F}') || c == ' ' || c == '\U{0085}' || c == '\U{00A0}'
    || c == '\U{1680}' || ('\U{2000}' <= c <= '\U{200A}') || c == '\U{2028}' || c == '\U{2029}'
    || c == '\U{202F}' || c == '\U{205F}' || c == '\U{3000}'
  }

  /** Number of leading characters of `s` that satisfy `p`. */
  function LeadingCount(s: string, p: char -> bool): (k: nat)
    ensures k <= |s|
    ensures forall i :: 0 <= i < k ==> p(s[i])
    ensures k < |s| ==> !p(s[k])
    decreases |s|
  {
    if s == [] || !p(s[0]) then 0 else 1 + LeadingCount(s[1..], p)
  }

  /** Number of trailing characters of `s` that satisfy `p`. */
  function TrailingCount(s: string, p: char -> bool): (k: nat)
    ensures k <= |s|
    ensures forall i :: |s| - k <= i < |s| ==> p(s[i])
    ensures k < |s| ==> !p(s[|s| - k - 1])
    decreases |s|
  {
    if s == [] || !p(s[|s| - 1]) then 0 else 1 + TrailingCount(s[..|s| - 1], p)
  }

  /** `s` without the leading and trailing characters satisfying `p`. */
  function TrimBy(s: string, p: char -> bool): (r: string)
    ensures r != [] ==> !p(r[0]) && !p(r[|r| - 1])
    ensures exists i, j :: (0 <= i <= j <= |s| && r == s[i..j]
                            && (forall k :: 0 <= k < i ==> p(s[k]))
                            && (forall k :: j <= k < |s| ==> p(s[k])))
  {
    var i := LeadingCount(s, p);
    if i == |s| then
      assert s[|s|..|s|] == [];
      []
    else
      var t := TrailingCount(s, p);
      assert !p(s[i]);
      s[i..|s| - t]
  }

  /** JavaScript's `String.prototype.trim`. */
  function JsTrim(s: string): string {
    TrimBy(s, IsJsSpace)
  }

  /** Python's `str.strip()` with no argument. */
  function PyStrip(s: string): string {
    TrimBy(s, IsPySpace)
  }

  predicate IsAsciiUpper(c: char) {
    'A' <= c <= 'Z'
  }

  predicate IsAsciiLower(c: char) {
    'a' <= c <= 'z'
  }

  predicate IsUpperAlnum(c: char) {
    IsAsciiUpper(c) || ('0' <= c <= '9')
  }

  /** Full upper-case mapping of one character, as `toUpperCase()` and
      Python's `upper()` apply it. ASCII letters and the non-ASCII
      characters whose upper-case form is pure ASCII (sharp s, dotless i,
      long s and the Latin ligatures U+FB00-U+FB06) are mapped exactly.
      Every other character is kept as it is: its true upper-case form
      contains a non-ASCII character too, and no result containing one is
      accepted as, or compared with, an ASCII ticker anywhere in this core. */
  function UpperChar(c: char): string {
    if IsAsciiLower(c) then [((c as int) - 32) as char]
    else if c == '\U{00DF}' then "SS"
    else if c == '\U{0131}' then "I"
    else if c == '\U{017F}' then "S"
    else if c == '\U{FB00}' then "FF"
    else if c == '\U{FB01}' then "FI"
    else if c == '\U{FB02}' then "FL"
    else if c == '\U{FB03}' then "FFI"
    else if c == '\U{FB04}' then "FFL"
    else if c == '\U{FB05}' || c == '\U{FB06}' then "ST"
    else [c]
  }

  /** `toUpperCase()` / `upper()` on a whole string. */
  function Upper(s: string): string
    decreases |s|
  {
    if s == [] then [] else UpperChar(s[0]) + Upper(s[1..])
  }

  /** Upper-casing leaves upper-case letters and digits alone. */
  lemma {:induction false} UpperOfUpperAlnum(s: string)
    requires forall i :: 0 <= i < |s| ==> IsUpperAlnum(s[i])
    ensures Upper(s) == s
    decreases |s|
  {
    if s != [] {
      UpperOfUpperAlnum(s[1..]);
    }
  }

  /** ASCII `toLowerCase()`; non-ASCII characters are kept. */
  function Lower(s: string): (r: string)
    ensures |r| == |s|
    decreases |s|
  {
    if s == [] then []
    else [if IsAsciiUpper(s[0]) then ((s[0] as int) + 32) as char else s[0]] + Lower(s[1..])
  }

  /** `s.endsWith(suffix)`. */
  predicate EndsWith(s: string, suffix: string) {
    |suffix| <= |s| && s[|s| - |suffix|..] == suffix
  }

  /** `pat` occurs in `s` starting at position `i`. */
  predicate OccursAt(s: string, pat: string, i: nat) {
    i + |pat| <= |s| && s[i..i + |pat|] == pat
  }

  /** `s.includes(pat)`. */
  predicate Contains(s: string, pat: string) {
    exists i: nat :: i <= |s| && OccursAt(s, pat, i)
  }

  /** Position of the first occurrence of `pat` in `s` at or after `from`. */
  function IndexOfFrom(s: string, pat: string, from: nat): (r: Option<nat>)
    ensures r.Some? ==> from <= r.value && OccursAt(s, pat, r.value)
    ensures r.Some? ==> forall k: nat :: from <= k < r.value ==> !OccursAt(s, pat, k)
    ensures r.None? ==> forall k: nat :: from <= k ==> !OccursAt(s, pat, k)
    decreases |s| - from
  {
    if from + |pat| > |s| then None
    else if s[from..from + |pat|] == pat then Some(from)
    else IndexOfFrom(s, pat, from + 1)
  }

  /** `s.indexOf(pat)` as an option. */
  function IndexOf(s: string, pat: string): (r: Option<nat>)
    ensures r.Some? ==> OccursAt(s, pat, r.value)
    ensures r.Some? ==> forall k: nat :: k < r.value ==> !OccursAt(s, pat, k)
    ensures r.None? <==> !Contains(s, pat)
  {
    IndexOfFrom(s, pat, 0)
  }

  /** `s.replace(pat, rep)` with a string pattern: only the FIRST
      occurrence is replaced. */
  function ReplaceFirst(s: string, pat: string, rep: string): (r: string)
    ensures !Contains(s, pat) ==> r == s
  {
    match IndexOf(s, pat)
    case None => s
    case Some(i) => s[..i] + rep + s[i + |pat|..]
  }

  /** `s.split(sep)` for a one-character separator: the pieces between
      separators, `[""]` for the empty string. */
  function Split(s: string, sep: char): (r: seq<string>)
    ensures |r| >= 1
    ensures forall k :: 0 <= k < |r| ==> sep !in r[k]
    decreases |s|
  {
    if s == [] then [""]
    else
      var rest := Split(s[1..], sep);
      if s[0] == sep then [""] + rest
      else [[s[0]] + rest[0]] + rest[1..]
  }

  /** Joining the pieces of a split with the separator gives the input
      back. */
  lemma {:induction false} SplitJoin(s: string, sep: char)
    ensures Join(Split(s, sep), sep) == s
    decreases |s|
  {
    if s != [] {
      SplitJoin(s[1..], sep);
      var rest := Split(s[1..], sep);
      if s[0] != sep {
        JoinCons(rest, sep);
        JoinCons([[s[0]] + rest[0]] + rest[1..], sep);
      } else {
        JoinCons([""] + rest, sep);
        assert ([""] + rest)[1..] == rest;
      }
    }
  }

  function Join(parts: seq<string>, sep: char): string
    decreases |parts|
  {
    if parts == [] then ""
    else if |parts| == 1 then parts[0]
    else parts[0] + [sep] + Join(parts[1..], sep)
  }

  lemma JoinCons(parts: seq<string>, sep: char)
    requires |parts| >= 1
    ensures Join(parts, sep) == parts[0] + (if |parts| == 1 then "" else [sep] + Join(parts[1..], sep))
  {
  }
}
